=== FILE: README.md ===
# RUM SDK event pipeline, modelled in Dafny

This project models the event pipeline of a real-user-monitoring SDK for
Vue 2 applications. It has four layers:

- **Manager** (`src/vue2/RUMManager.vue2.ts`). Decides whether monitoring
  runs at all, guards every tracking call, pushes the Vuex user to the
  pipeline, and turns a DOM click into a business id and a CSS selector.
- **Orchestrator** (`src/core/MitoSLSAdapter.ts`). Receives captured events
  (custom events, errors, route changes, Vuex mutations), leaves
  breadcrumbs, samples, enriches and forwards them.
- **Enrichment and configuration** (`src/core/config.ts`). Holds the
  transport settings, the sample rates, the store's user, the page and
  click dimensions, and the envelope every event is wrapped in.
- **Transport** (`src/transport/SLSWebTrackingAdapter.ts`). Owns the
  transport's lifecycle, flattens an event into the log schema of the log
  service, filters sensitive values, and keeps a retry queue with
  scheduled retry passes.

JavaScript's dynamic values are modelled by `JsValue.Value`, and plain
objects by `map<string, Value>`. A property read on anything but an object
gives `undefined`. Everything ambient is an explicit parameter (`Host`): the
clock, `window`/`document`/`navigator`, the build environment, random draws,
generated ids, and whether the tracker's `send` succeeds. Every operation is
a pure function from the old state to the new one. Where an operation also
sends, it returns the records it hands to the tracker's `send`. These are
records before the tracker's `beforeSend` hook, which is modelled on its own
(`LogSchema.HandleBeforeSend`).

Modules, one file each:

| module | file | models |
|---|---|---|
| `Wrappers` | wrappers.dfy | `Option` |
| `Strings` | strings.dfy | the string methods the source calls (`split`, `join`, `trim`, `toLowerCase`, `replace(/\s+/g, '_')`, `split(/\s+/)`, `String(n)`) |
| `JsValue` | js_value.dfy | JavaScript values, truthiness, `\|\|`, `??`, spread, `String()`, `Number()`, `Array.prototype.join` |
| `Json` | json.dfy | `JSON.stringify({ hash })` of the `detail_json` column, with its parser |
| `Host` | host.dfy | `getEnv`, session ids |
| `RumConfig` | rum_config.dfy | config.ts: settings, sampling, the store's user, dimensions, `transformDataForSLS` |
| `LogSchema` | log_schema.dfy | the transport's configuration, `transformLogData`, `add*Fields`, the internal-user rule, sensitive-data filtering, `handleBeforeSend` |
| `SlsAdapter` | sls_adapter.dfy | the transport's lifecycle, sending, batches, the retry queue, teardown |
| `MitoAdapter` | mito_adapter.dfy | the orchestrator |
| `RumManager` | rum_manager.dfy | the Vue 2 manager |

Properties proved include:

- A destroyed transport is final, and teardown is idempotent.
- Every retry-queue entry always has a retry count of 0. This invariant is
  preserved by every transport operation.
- A retry pass on a ready transport keeps the entries at the ceiling, then
  appends exactly the resent entries whose send fails, each with its own
  data and in order. It sends exactly the records of the ones whose send
  succeeds, and every resent entry goes to exactly one of the two. With a
  positive `retryCount` this covers every queued log. A transport that is
  not ready discards the entries it takes off the queue.
- Filtering sensitive data is idempotent and bounds every string.
- The `detail_json` column parses back to the hash it was built from.
- The per-type columns appear only on records of their own event type.
- The explicit settings `0` and `false` survive the `??` defaults.
- The user id set on the transport reaches the records it builds.
- A click's business id travels from the DOM handler to the `clickBizId`
  column.
- The generated business id splits back into its three parts.
- The sanitised label is non-empty, free of white space and at most 32
  characters long, and sanitising is idempotent.
- The loop of `getCSSSelector` computes the same segments as a recursive
  definition. The selector has at most six segments, and only its outermost
  element can carry an id.

Behaviour of the code as written that the model keeps, and that the proofs
make visible:

- **Retry counts never rise.** A failed resend in `retryFailedLogs`
  (SLSWebTrackingAdapter.ts:456-493) goes through `sendLog`, which does
  not throw when the tracker fails with an error that has a `message`. `sendLog` queues the log again as a new entry with retry
  count 0, so the `retryCount` ceiling never drops anything when
  `retryCount >= 1`. When `retryCount <= 0` a pass resends nothing and
  every entry stays queued.
  (`SlsAdapter.RetryPassResendsEverything`, `SlsAdapter.RetryPassWithoutCeiling`.)
- **A batch failure re-queues delivered logs.** When one log of
  `sendBatchLogs` fails, every log of the batch is queued, including those
  already delivered (`SlsAdapter.BatchFailureRequeuesDelivered`).
- **The initial route has no path.** `trackInitialRoute`
  (RUMManager.vue2.ts:290-318) passes the current route with its path under
  `path`, but `handleRouteChange` reads `fullPath`. The initial route event
  therefore has an undefined path at both ends
  (`RumManager.InitialRouteHasNoPath`).
- **The Vue version is never reported.** `transformDataForSLS`
  (config.ts:319) reads `context.Vue.version`, but the orchestrator
  passes it the store and router only (for example MitoSLSAdapter.ts:236-239).
  The envelope's `techStack.vue` is therefore always `unknown`.
- **Performance data is never sampled.** config.ts's sample-rate table has
  no `performance` entry, so `trackPerformance` never delivers data that
has no `type` of its own
  (`RumManager.PerformanceNeverDelivered`).

## Model

| member | source | states |
|---|---|---|
| Host.GetEnv | src/core/config.ts:4-10 | the value is the variable when it is set and non-empty, and the default otherwise |
| Host.ResolveSessionId | src/core/config.ts:15-26 | without session storage a fresh id is used and nothing is stored; a stored non-empty id is reused; otherwise the fresh id is stored and used |
| Host.SessionIdReused | src/core/config.ts:20-25 | a second lookup returns the id stored by the first and leaves the storage unchanged |
| Host.NewSessionId | src/transport/SLSWebTrackingAdapter.ts:530-543 | generated session ids start with `session_` |
| RumConfig.DefaultSampleRates | src/core/config.ts:174-180 | the five configured rates: error, route and custom at 1; click at 0.1 and xhr at 0.5 in production, 1 otherwise |
| RumConfig.SettingsFrom | src/core/config.ts:167-180 | production, debug and the environment name derive from `NODE_ENV` and `VUE_APP_RUM_DEBUG`, and the rates are the defaults for that mode |
| RumConfig.ShouldReport | src/core/config.ts:330-338 | rate 0 never reports, rate 1 always does, and otherwise a draw in [0,1) reports exactly when it is below the rate |
| RumConfig.DefaultSampling | src/__tests__/config.test.ts:28-31 | errors are always reported, while unknown types and performance data never are |
| RumConfig.MetricType | src/core/config.ts:28-45 | performance maps to `duration`; the five named types map to themselves; everything else maps to `unknown` |
| RumConfig.ExtractValue | src/core/config.ts:47-60 | performance takes its duration or 0; xhr and fetch take duration, then status, then 0; all other types take 1 |
| RumConfig.MetricValueMatchesType | src/core/config.ts:28-60 | counted kinds (click, route, error, unknown) carry value 1, timed kinds carry their truthy duration, and a value of 0 only comes from a timed kind |
| RumConfig.GetUserInfo | src/core/config.ts:234-256 | no user without a store and its state; otherwise each field is the first truthy value of its fallback chain |
| RumConfig.UserDimensions | src/core/config.ts:267-274 | the six user keys are present, and enrichment fails exactly when roles or permissions is truthy but not an array |
| RumConfig.Dimensions | src/core/config.ts:262-295 | the keys are the page and user keys, the own properties of `customData` (object fields, array and string indices), and the click keys for a click; custom values override page and user values, and click values override everything |
| RumConfig.KeySetsDisjoint | src/core/config.ts:262-295 | the page, user and click key sets are pairwise disjoint |
| RumConfig.DimensionsCustomWins | src/core/config.ts:275 | a caller's custom dimension overrides the page and user keys, and is itself overridden only by a click key |
| RumConfig.StringCustomDataSpreads | src/core/config.ts:275 | a string `customData` spreads into one dimension per character, keyed by index |
| RumConfig.DimensionsPageDefaults | src/core/config.ts:262-266 | a page key that the caller does not override holds the page's value |
| RumConfig.DimensionsClickWins | src/core/config.ts:278-295 | on a click, every click key holds the click's own value |
| RumConfig.ClickDimensionsCopyFields | src/core/config.ts:279-294 | each click dimension copies the named field of the event, its target or its page |
| RumConfig.TransformDataForSls | src/core/config.ts:258-328 | fails exactly when the dimensions fail; the envelope holds the time in seconds, the source, environment, session, user, data type, metric type, value, event type, and the raw event only in debug mode |
| RumConfig.TransformStableBesidesClock | src/core/config.ts:258-328 | dimensions and user do not depend on the clock, the session id or the settings |
| RumConfig.ExampleUserInfo | src/__tests__/config.test.ts:34-46 | the test store yields user id `u1`, roles `[admin]` and permissions `[p1]` |
| RumConfig.ExampleClickDimensions | src/__tests__/config.test.ts:48-67 | the test click has business id `btn_test` and x coordinate 10 |
| RumConfig.ClickExample | src/__tests__/config.test.ts:67-74 | the test's expectations on the envelope: user id `u1`, data type `click`, `clickBizId` `btn_test` |
| Json.DetailJsonRoundTrip | src/transport/SLSWebTrackingAdapter.ts:317 | the `detail_json` text parses back to the hash it was built from |
| Json.UnescapeEscape | src/transport/SLSWebTrackingAdapter.ts:317 | the JSON string escape is inverted by unescaping, for every string |
| Json.EscapeChar | src/transport/SLSWebTrackingAdapter.ts:317 | every escape is printable; it starts with a backslash exactly for a quote, a backslash or a control character, and is the character itself otherwise |
| Json.Escape | src/transport/SLSWebTrackingAdapter.ts:317 | the escaped body holds no control character, is no shorter than the input, and leaves text without quotes, backslashes or control characters as it is |
| Strings.SplitInTwo | src/transport/SLSWebTrackingAdapter.ts:263-265 | an e-mail splits into exactly two parts at `@` iff it has exactly one `@`; the second part is what follows it |
| Strings.SplitJoin | src/transport/SLSWebTrackingAdapter.ts:266-272 | splitting parts joined by a separator none of them contains gives the parts back |
| Strings.JoinSplit | src/transport/SLSWebTrackingAdapter.ts:266-272 | joining the parts of a split with its separator gives the string back |
| JsValue.FirstTruthy | src/core/config.ts:244-249 | a chain of `\|\|` yields its first truthy operand, or the last one; the result is truthy iff some operand is |
| JsValue.Spread | src/core/config.ts:275 | object spread keeps the base's keys and adds the spread value's own properties, which win: an object's fields, an array's or string's indices; other values add nothing |
| JsValue.JoinList | src/core/config.ts:272-273 | `join(',')` fails exactly on a truthy non-array |
| JsValue.ToJsString | src/vue2/RUMManager.vue2.ts:213-215 | `String(v)` of a string is the string and of a number its decimal form, and only the empty string or an array gives the empty string |
| JsValue.ToNumber | src/transport/SLSWebTrackingAdapter.ts:370-378 | `Number(v)` is a number or NaN, and a number is kept |
| JsValue.NumberOfStringRoundTrip | src/transport/SLSWebTrackingAdapter.ts:370-378 | `Number(String(n))` gives back the integer `n` |
| Strings.Words | src/vue2/RUMManager.vue2.ts:178-182 | each class-list entry is non-empty with no white space, and there are none exactly when the string is blank |
| Strings.CollapseWhitespaceShape | src/vue2/RUMManager.vue2.ts:202-205 | replacing white-space runs leaves no white space, never lengthens, and is empty only for the empty string |
| LogSchema.MakeConfig | src/transport/SLSWebTrackingAdapter.ts:44-66 | per option: `??` options keep any given value, even a falsy one; `\|\|` options fall back to the environment and then the default when missing or falsy; the user id is the option, or null when it is undefined or null |
| LogSchema.EmptyStringOptionsFallBack | src/transport/SLSWebTrackingAdapter.ts:44-66 | empty-string `\|\|` options are replaced by the environment value, while empty `??` options are kept |
| LogSchema.ConfigFromEnvironment | src/transport/SLSWebTrackingAdapter.ts:44-66 | with no options at all, the configuration is the environment's values and the defaults |
| LogSchema.DefaultConfig | src/transport/SLSWebTrackingAdapter.ts:44-66 | with no options and no environment, every setting takes its default: 10-second batches of 10, topic `rum-monitor`, source `web`, enabled, 3 retries 2000 ms apart |
| LogSchema.ExplicitFalsySettingsKept | src/transport/SLSWebTrackingAdapter.ts:52-64 | explicit `0` and `false` for time, enabled and retryCount are not replaced by defaults |
| LogSchema.NormalizeDomainsSound | src/transport/SLSWebTrackingAdapter.ts:266-272 | every configured internal domain comes from a trimmed, lower-cased list item |
| LogSchema.NormalizeDomainsComplete | src/transport/SLSWebTrackingAdapter.ts:266-272 | every non-blank list item is a configured internal domain |
| LogSchema.AnyDomainMatches | src/transport/SLSWebTrackingAdapter.ts:273-280 | matches iff some non-empty internal domain equals the e-mail domain or is a dotted suffix of it |
| LogSchema.IsInternalUserMeaning | src/transport/SLSWebTrackingAdapter.ts:261-285 | the internal-user flag is set iff the e-mail is a string with one `@` whose lower-cased domain matches a configured domain |
| LogSchema.ApplyRulesMeaning | src/transport/SLSWebTrackingAdapter.ts:328-409 | a type column is written iff its guard fires, and then holds the converted value it reads |
| LogSchema.ErrorRuleTable | src/transport/SLSWebTrackingAdapter.ts:328-356 | the error rules write distinct error columns only |
| LogSchema.ApiRuleTable | src/transport/SLSWebTrackingAdapter.ts:357-381 | the API rules write distinct API columns only |
| LogSchema.ClickRuleTable | src/transport/SLSWebTrackingAdapter.ts:382-409 | the click rules write distinct click columns only |
| LogSchema.RulesFor | src/transport/SLSWebTrackingAdapter.ts:287-297 | error, xhr/fetch and click events select their field group, and every other type selects none |
| LogSchema.TypeFields | src/transport/SLSWebTrackingAdapter.ts:287-297 | a column of a group appears only for that group's event types |
| LogSchema.TypeFieldValue | src/transport/SLSWebTrackingAdapter.ts:287-297 | each rule of the selected group writes its column iff its guard fires, with the converted value |
| LogSchema.EventTypeOf | src/transport/SLSWebTrackingAdapter.ts:211 | the event type is the first truthy of `eventType`, `type` and `unknown`, and is always truthy |
| LogSchema.ReferrerOf | src/transport/SLSWebTrackingAdapter.ts:236-241 | a string `event.referrer` wins; otherwise the document's referrer, or nothing without a document |
| LogSchema.UserIdOf | src/transport/SLSWebTrackingAdapter.ts:250-256 | the event's truthy user id wins over the configured one; without either there is no user id |
| LogSchema.DetailHash | src/transport/SLSWebTrackingAdapter.ts:300-316 | the event's string hash wins, then the dimensions' string hash, then the current page's hash when there is a page, then empty |
| LogSchema.TransformLogData | src/transport/SLSWebTrackingAdapter.ts:203-326 | the flattened record's time, type, category and level fallbacks, its application and session columns, its user and internal-user columns, and its `detail_json` |
| LogSchema.TransformPageColumns | src/transport/SLSWebTrackingAdapter.ts:225-241 | without a location the page URL and path are empty; without a document there is no title; the referrer follows its rule |
| LogSchema.TransformUserColumns | src/transport/SLSWebTrackingAdapter.ts:250-256 | `user_id` is present iff the event or the configuration has a truthy user id, and the event's wins |
| LogSchema.TransformTypeColumns | src/transport/SLSWebTrackingAdapter.ts:287-297 | error columns appear only on error records, API columns only on xhr/fetch records, click columns only on click records |
| LogSchema.ClickBizIdColumn | src/transport/SLSWebTrackingAdapter.ts:382-409 | the click business id column is written iff `clickBizId` or `bizId` is truthy, preferring `clickBizId` |
| LogSchema.ApiStatusColumn | src/transport/SLSWebTrackingAdapter.ts:357-381 | the API status is written iff the event has a status, converted with `Number()` |
| LogSchema.ErrorMessageColumn | src/transport/SLSWebTrackingAdapter.ts:328-356 | the error message is written iff truthy, converted with `String()` |
| LogSchema.FilterString | src/transport/SLSWebTrackingAdapter.ts:411-437 | sensitive keys are masked; long values are cut to the limit plus `...`; short values are kept |
| LogSchema.FilterSensitiveData | src/transport/SLSWebTrackingAdapter.ts:411-437 | the filter keeps the keys and non-string values, and filters each string value |
| LogSchema.FilterBounds | src/transport/SLSWebTrackingAdapter.ts:411-437 | every filtered string is at most the limit plus three characters, and sensitive ones are masked |
| LogSchema.FilterIdempotent | src/transport/SLSWebTrackingAdapter.ts:411-437 | filtering twice is filtering once |
| LogSchema.HandleBeforeSend | src/transport/SLSWebTrackingAdapter.ts:545-566 | a record is skipped iff its serialised size exceeds the limit; otherwise exactly the filtered record is sent: same keys, non-string values unchanged, strings masked or cut to the length limit plus `...` |
| LogSchema.BeforeSendStable | src/transport/SLSWebTrackingAdapter.ts:545-566 | applying the hook to a record it already let through changes nothing |
| SlsAdapter.New | src/transport/SLSWebTrackingAdapter.ts:44-66 | a new transport is uninitialised, has no tracker, an empty queue and no timers, and holds the merged configuration |
| SlsAdapter.Init | src/transport/SLSWebTrackingAdapter.ts:72-134 | a second init does nothing; init after destroy throws; when disabled, nothing happens; a failing tracker constructor throws; otherwise the transport is initialised and sends its init record |
| SlsAdapter.InitSendsSystemRecord | src/transport/SLSWebTrackingAdapter.ts:104-127 | a successful init delivers the flattened init record, and a failing send queues it for retry |
| SlsAdapter.SendLog | src/transport/SLSWebTrackingAdapter.ts:136-169 | nothing happens unless the transport is ready; a delivered send emits the flattened record; a failed send queues the log |
| SlsAdapter.HandleSendError | src/transport/SLSWebTrackingAdapter.ts:439-454 | a failure appends the log to the queue with count 0, and schedules a retry pass iff the message is retryable |
| SlsAdapter.ShouldRetryInContext | src/transport/SLSWebTrackingAdapter.ts:495-506 | a transient-failure phrase is recognised wherever it sits in the message, and a message shorter than every phrase (the empty one included) never schedules a retry |
| SlsAdapter.ReadyIsEnabledAndInitialised | src/transport/SLSWebTrackingAdapter.ts:512-528 | for an adapter whose tracker exists exactly while it is initialised, `checkReady` is the enabled switch together with initialisation |
| SlsAdapter.FirstFailure | src/transport/SLSWebTrackingAdapter.ts:171-201 | the index of the first failing send, with every earlier send delivered |
| SlsAdapter.RequeueAll | src/transport/SLSWebTrackingAdapter.ts:171-201 | every log of the batch is appended to the queue in order, after the existing entries |
| SlsAdapter.SendBatchLogs | src/transport/SLSWebTrackingAdapter.ts:171-201 | logs are sent in order up to the first failure, which queues the whole batch |
| SlsAdapter.BatchFailureRequeuesDelivered | src/transport/SLSWebTrackingAdapter.ts:186-199 | a log delivered before a later failure is still queued again |
| SlsAdapter.BelowCeiling | src/transport/SLSWebTrackingAdapter.ts:464-470 | the entries below the retry ceiling, and all of them |
| SlsAdapter.AtCeiling | src/transport/SLSWebTrackingAdapter.ts:464-470 | the entries at or above the ceiling, and all of them |
| SlsAdapter.CeilingSplit | src/transport/SLSWebTrackingAdapter.ts:464-470 | the two parts account for every entry |
| SlsAdapter.ResendAll | src/transport/SLSWebTrackingAdapter.ts:471-490 | resending keeps the configuration and the lifecycle, keeps the existing queue as a prefix, and only adds timers |
| SlsAdapter.RetryFailedLogs | src/transport/SLSWebTrackingAdapter.ts:456-493 | an empty queue does nothing; a transport that is not ready keeps only the entries at the ceiling; a ready one ends with exactly the entries at the ceiling followed by the resent entries whose send failed (`Requeued`), and sends exactly the records of those whose send succeeded (`DeliveredRecords`) |
| SlsAdapter.ResendRequeues | src/transport/SLSWebTrackingAdapter.ts:471-490 | on a ready transport, resending appends exactly the entries whose send fails, as fresh entries with their own data and the error message, in order |
| SlsAdapter.ResendDelivers | src/transport/SLSWebTrackingAdapter.ts:471-490 | on a ready transport, resending sends exactly the records of the entries whose send succeeds, in order |
| SlsAdapter.DeliveredOrRequeued | src/transport/SLSWebTrackingAdapter.ts:471-490 | every resent entry is either delivered or queued again, never both and never neither |
| SlsAdapter.ResendAccounting | src/transport/SLSWebTrackingAdapter.ts:471-490 | on a ready transport, the records sent plus the queue after a resend number the queue before plus the entries resent |
| SlsAdapter.ResendAllDelivered | src/transport/SLSWebTrackingAdapter.ts:471-490 | when every resend succeeds, each entry is delivered in order and the transport is unchanged |
| SlsAdapter.ResendKeepsFresh | src/transport/SLSWebTrackingAdapter.ts:471-490 | resending keeps every queue entry at retry count 0 |
| SlsAdapter.RequeueAllKeepsFresh | src/transport/SLSWebTrackingAdapter.ts:186-199 | re-queuing a batch keeps every queue entry at retry count 0 |
| SlsAdapter.FreshUnderPositiveCeiling | src/transport/SLSWebTrackingAdapter.ts:464-470 | when every entry has count 0 and the ceiling is positive, every entry is retried and none is kept |
| SlsAdapter.FreshUnderNonPositiveCeiling | src/transport/SLSWebTrackingAdapter.ts:464-470 | when every entry has count 0 and the ceiling is 0 or less, no entry is retried |
| SlsAdapter.TimersOnlyGrow | src/transport/SLSWebTrackingAdapter.ts:456-493 | a retry pass never cancels a scheduled timer |
| SlsAdapter.RetryPassResendsEverything | src/transport/SLSWebTrackingAdapter.ts:456-493 | with a ready transport and a positive ceiling, a retry pass resends every queued entry: it sends exactly the records of those whose send succeeds, the queue becomes exactly those whose send fails, and the queue stays fresh |
| SlsAdapter.RetryPassWithoutCeiling | src/transport/SLSWebTrackingAdapter.ts:464-470 | with a ceiling of 0 or less, a retry pass resends nothing and keeps every entry queued |
| SlsAdapter.FireTimer | src/transport/SLSWebTrackingAdapter.ts:447-452 | firing a scheduled timer runs a retry pass; firing an unscheduled one does nothing |
| SlsAdapter.Destroy | src/transport/SLSWebTrackingAdapter.ts:604-632 | teardown destroys the transport and drops its tracker and queue while keeping scheduled timers; a destroyed transport is left as it is |
| SlsAdapter.DestroyIdempotent | src/transport/SLSWebTrackingAdapter.ts:604-632 | destroying twice is destroying once |
| SlsAdapter.DestroyedIsFinal | src/transport/SLSWebTrackingAdapter.ts:512-528 | after teardown, init throws and sending, batches and retry passes do nothing |
| SlsAdapter.InitThenSend | src/__tests__/SLSWebTrackingAdapter.test.ts:31-45 | the test's sequence: an enabled transport initialises, delivers the log and reports itself initialised |
| SlsAdapter.SetUserId | src/transport/SLSWebTrackingAdapter.ts:568-570 | the user id changes and nothing else does |
| SlsAdapter.UpdateConfig | src/transport/SLSWebTrackingAdapter.ts:572-574 | per option: a given option overrides, an absent one keeps the old value, the user id is replaced unless undefined; an empty patch changes nothing |
| SlsAdapter.UpdateConfigIdempotent | src/transport/SLSWebTrackingAdapter.ts:572-574 | applying the same patch twice is applying it once |
| SlsAdapter.UpdateConfigLaterWins | src/transport/SLSWebTrackingAdapter.ts:572-574 | for every option, after two patches the later patch's value wins where it gives one, else the earlier patch's, else the value from before both (`userId` counts as given unless `undefined`) |
| SlsAdapter.DisableSilences | src/transport/SLSWebTrackingAdapter.ts:512-528 | a transport disabled through its configuration sends nothing |
| SlsAdapter.GetStats | src/transport/SLSWebTrackingAdapter.ts:580-602 | the stats report the lifecycle (never both initialised and destroyed) and the queue length |
| SlsAdapter.NewIsGood | src/transport/SLSWebTrackingAdapter.ts:31-43 | a new transport satisfies the invariant: consistent flags and all-fresh queue entries |
| SlsAdapter.InitKeepsGood | src/transport/SLSWebTrackingAdapter.ts:72-134 | init preserves the invariant |
| SlsAdapter.SendLogKeepsGood | src/transport/SLSWebTrackingAdapter.ts:136-169 | sending preserves the invariant |
| SlsAdapter.SendBatchKeepsGood | src/transport/SLSWebTrackingAdapter.ts:171-201 | batches preserve the invariant |
| SlsAdapter.RetryKeepsGood | src/transport/SLSWebTrackingAdapter.ts:456-493 | retry passes preserve the invariant |
| SlsAdapter.DestroyKeepsGood | src/transport/SLSWebTrackingAdapter.ts:604-632 | teardown preserves the invariant |
| MitoAdapter.New | src/core/MitoSLSAdapter.ts:27-37 | a new orchestrator has no transport, no capture instance, and is not initialised |
| MitoAdapter.EventCategory | src/core/MitoSLSAdapter.ts:315-329 | click and route are `user`, errors are `error`, performance is `performance`, and every other type is `general` |
| MitoAdapter.EventLevel | src/core/MitoSLSAdapter.ts:331-340 | errors are `error`, xhr is `warn`, and every other type is `info` |
| MitoAdapter.ErrorLevelMatchesCategory | src/core/MitoSLSAdapter.ts:315-340 | an event has level `error` iff its category is `error`, and user events are `info` |
| MitoAdapter.ShouldTrackMutationMeaning | src/core/MitoSLSAdapter.ts:356-359 | a mutation is tracked unless its type is one of the ignored ones |
| MitoAdapter.GetUserInfoFromStore | src/core/MitoSLSAdapter.ts:342-354 | the user id, name and account id follow their fallback chains |
| MitoAdapter.StoreReadersAgree | src/core/MitoSLSAdapter.ts:342-354 | for a user module without a nested `userInfo`, the orchestrator's store reader and `getUserInfo` agree on the account and on a stated id or name |
| MitoAdapter.TransformDataForSlsLog | src/core/MitoSLSAdapter.ts:304-313 | the flattened event has the base, event, dimension and raw keys, each overriding the earlier ones, with type, category and level defaults |
| MitoAdapter.FlattenedEventType | src/core/MitoSLSAdapter.ts:304-313 | for an envelope with a truthy data type, the flattened event type is that data type unless a dimension or the raw event supplies its own |
| MitoAdapter.EnvelopeDataTypeTruthy | src/core/config.ts:304 | every envelope built for a store with a well-formed user has a truthy data type |
| MitoAdapter.AddBreadcrumb | src/core/MitoSLSAdapter.ts:39-54 | a breadcrumb is kept iff the capture library offers `add` or `push`; nothing else changes |
| MitoAdapter.BreadcrumbsAccumulate | src/core/MitoSLSAdapter.ts:39-54 | successive breadcrumbs are appended in order when the capture library records them, and change nothing otherwise |
| MitoAdapter.SendToSls | src/core/MitoSLSAdapter.ts:276-302 | without a transport nothing is sent; with one the flattened event goes through `sendLog` |
| MitoAdapter.Report | src/core/MitoSLSAdapter.ts:235-241 | an event is forwarded iff sampled in and enriched, at most one record goes out, and the orchestrator's settings are kept |
| MitoAdapter.HandleDataReport | src/core/MitoSLSAdapter.ts:178-207 | the capture library always gets `false`, and the event takes the forwarding path |
| MitoAdapter.ForwardedEndToEnd | src/core/MitoSLSAdapter.ts:178-207 | a sampled, enriched event with a ready transport and a successful send is delivered as exactly one record |
| MitoAdapter.ForwardFailureQueues | src/core/MitoSLSAdapter.ts:276-302 | a failed send of a forwarded event queues it for retry |
| MitoAdapter.NotReadySendsNothing | src/core/MitoSLSAdapter.ts:276-302 | with no transport, or one that is not ready, nothing is delivered |
| MitoAdapter.RouteData | src/core/MitoSLSAdapter.ts:211-226 | the route event holds both ends' `fullPath`, name, params and query |
| MitoAdapter.HandleRouteChange | src/core/MitoSLSAdapter.ts:209-245 | a nullish end aborts the handler, and otherwise it leaves a breadcrumb and forwards |
| MitoAdapter.ErrorData | src/core/MitoSLSAdapter.ts:249-255 | the error event's message defaults to `Unknown error` |
| MitoAdapter.HandleError | src/core/MitoSLSAdapter.ts:247-274 | a breadcrumb, then the forwarding path |
| MitoAdapter.CustomData | src/core/MitoSLSAdapter.ts:363-367 | a custom event stamped with the time, where the caller's fields win |
| MitoAdapter.TrackEvent | src/core/MitoSLSAdapter.ts:361-386 | a custom breadcrumb, then the custom event goes down the forwarding path |
| MitoAdapter.TrackEventOneCrumb | src/core/MitoSLSAdapter.ts:361-386 | exactly one breadcrumb and at most one record per tracked event |
| MitoAdapter.HandleErrorOneCrumb | src/core/MitoSLSAdapter.ts:247-274 | exactly one breadcrumb and at most one record per error |
| MitoAdapter.RouteChangeOneCrumb | src/core/MitoSLSAdapter.ts:209-245 | exactly one breadcrumb and at most one record per route change |
| MitoAdapter.TrackedEventDelivered | src/core/MitoSLSAdapter.ts:361-386 | an untyped custom event is always sampled in, and is delivered when the transport is ready |
| MitoAdapter.OnMutation | src/core/MitoSLSAdapter.ts:130-146 | while a store is attached, a mutation that is neither `undefined` nor `null` and whose type is not ignored leaves its breadcrumb; an `undefined` or `null` mutation throws when its `type` is read (:358), the subscriber's `catch` swallows it, and nothing is left; the transport is untouched |
| MitoAdapter.SetUser | src/core/MitoSLSAdapter.ts:388-410 | a truthy user id is passed to the transport; otherwise nothing changes |
| MitoAdapter.SetUserReachesRecords | src/core/MitoSLSAdapter.ts:404-406 | after a truthy user id, records without their own id carry it; a falsy id changes no record |
| MitoAdapter.SlsConfigOptions | src/core/config.ts:78-92 | the transport options from the environment, enabled only by `VUE_APP_SLS_ENABLED=true` |
| MitoAdapter.MergeOptions | src/core/MitoSLSAdapter.ts:72-76 | per option: the override's given value wins, otherwise the configured one is kept |
| MitoAdapter.MergeOptionsIdentity | src/core/MitoSLSAdapter.ts:72-76 | merging with no options on either side changes nothing |
| MitoAdapter.MergeOptionsAssociative | src/core/MitoSLSAdapter.ts:72-76 | successive merges can be grouped either way |
| MitoAdapter.Init | src/core/MitoSLSAdapter.ts:56-122 | a second init does nothing; the transport is built from the configured options merged with the override; on success, including every init of a disabled transport, which ends with nothing sent, the capture library starts an empty trail; when the enabled transport's init throws, the result is exactly `handleError` of that message on the orchestrator left uninitialised |
| MitoAdapter.DisabledByDefault | src/core/config.ts:86 | unless enabled by the environment or the override, the transport delivers nothing |
| MitoAdapter.Destroy | src/core/MitoSLSAdapter.ts:421-446 | teardown destroys the transport and leaves the orchestrator uninitialised |
| MitoAdapter.RestartAfterDestroy | src/core/MitoSLSAdapter.ts:421-446 | nothing is forwarded after teardown, but a new init builds a fresh transport |
| RumManager.ShouldEnableRum | src/vue2/RUMManager.vue2.ts:77-93 | off when disabled by hand; an explicit `VUE_APP_RUM_ENABLED` decides; otherwise on except in `prod`/`production` mode |
| RumManager.ProductionIsOptIn | src/vue2/RUMManager.vue2.ts:77-93 | in production mode monitoring runs iff `VUE_APP_RUM_ENABLED` is `true`, and any other explicit value switches it off |
| RumManager.SetEnabled | src/vue2/RUMManager.vue2.ts:438-450 | only the hand switch changes |
| RumManager.Forward | src/vue2/RUMManager.vue2.ts:452-454 | tracking does nothing unless monitoring is enabled, initialised and has an orchestrator; otherwise the orchestrator's `trackEvent` runs |
| RumManager.EventPayload | src/vue2/RUMManager.vue2.ts:363-366 | the event name, overridden by the caller's fields |
| RumManager.PerformancePayload | src/vue2/RUMManager.vue2.ts:378-382 | the performance name and type, overridden by the caller's fields |
| RumManager.ActionPayload | src/vue2/RUMManager.vue2.ts:394-398 | the action name and action, overridden by the caller's fields |
| RumManager.MetricPayload | src/vue2/RUMManager.vue2.ts:413-418 | exactly the metric name, value and dimensions |
| RumManager.TrackEvent | src/vue2/RUMManager.vue2.ts:357-370 | nothing happens while unavailable, and at most one record goes out |
| RumManager.TrackPerformance | src/vue2/RUMManager.vue2.ts:372-386 | nothing happens while unavailable, and at most one record goes out |
| RumManager.TrackAction | src/vue2/RUMManager.vue2.ts:388-401 | nothing happens while unavailable, and at most one record goes out |
| RumManager.TrackMetric | src/vue2/RUMManager.vue2.ts:403-423 | nothing happens while unavailable, and at most one record goes out |
| RumManager.PerformanceNeverDelivered | src/vue2/RUMManager.vue2.ts:372-386 | under the configured rates, performance data without its own type is never delivered |
| RumManager.MetricDelivered | src/vue2/RUMManager.vue2.ts:403-423 | a metric travels as a custom event and is delivered when the transport is ready |
| RumManager.SetUserInfo | src/vue2/RUMManager.vue2.ts:95-116 | the store's user is pushed iff there is a store, an orchestrator and a truthy user id |
| RumManager.StoreMutation | src/vue2/RUMManager.vue2.ts:118-128 | both store subscriptions run, and the switches, the store and the orchestrator's presence are kept |
| RumManager.UserMutationPushesUser | src/vue2/RUMManager.vue2.ts:122-126 | after a mutation whose type mentions `user`, records carry the store's user id; after any other mutation the transport is unchanged |
| RumManager.InitialRoute | src/vue2/RUMManager.vue2.ts:296-305 | the route object has `path` but no `fullPath` |
| RumManager.TrackInitialRoute | src/vue2/RUMManager.vue2.ts:290-318 | without a router or orchestrator nothing happens; otherwise the current route is reported as a change from itself to itself |
| RumManager.InitialRouteHasNoPath | src/vue2/RUMManager.vue2.ts:299-312 | the initial route event has no path at either end |
| RumManager.Init | src/vue2/RUMManager.vue2.ts:18-75 | nothing happens when switched off or already running; otherwise the manager becomes available with the given context |
| RumManager.Destroy | src/vue2/RUMManager.vue2.ts:471-487 | teardown drops the orchestrator and the context and keeps the hand switch |
| RumManager.DestroyedCore | src/vue2/RUMManager.vue2.ts:473-476 | the dropped orchestrator is destroyed first |
| RumManager.DestroyedTracksNothing | src/vue2/RUMManager.vue2.ts:452-454 | after teardown, event, performance and action tracking do nothing |
| RumManager.AvailabilityFollowsSwitch | src/vue2/RUMManager.vue2.ts:452-454 | `checkRUMAvailable` after flipping the switch holds iff the switch is on and an initialised orchestrator is attached; never after disabling or destroying |
| RumManager.DisableThenEnable | src/vue2/RUMManager.vue2.ts:438-450 | disabling silences tracking, and enabling again restores the state |
| RumManager.Ancestry | src/vue2/RUMManager.vue2.ts:137-139 | the element and its element ancestors, innermost first |
| RumManager.Closest | src/vue2/RUMManager.vue2.ts:137-139 | `closest` finds a matching element among the element and its ancestors, and finds none only when none matches |
| RumManager.ClickTarget | src/vue2/RUMManager.vue2.ts:141-158 | the nearest marked element wins; else the nearest interactive one; else the clicked element itself iff it is an element with a pointer cursor |
| RumManager.ClickTargetIsAncestor | src/vue2/RUMManager.vue2.ts:141-158 | the target is the clicked element or an ancestor and is marked, interactive or a pointer; there is none iff no element on the chain qualifies |
| RumManager.PrimaryClass | src/vue2/RUMManager.vue2.ts:178-182 | the first class, or `no-class`: always non-empty and free of white space |
| RumManager.SafeLabel | src/vue2/RUMManager.vue2.ts:202-205 | the label is non-empty, at most 32 characters long and free of white space |
| RumManager.LabelFallbackOrder | src/vue2/RUMManager.vue2.ts:183-198 | the label is the first non-empty of trimmed text, `aria-label`, `title`, `alt`, `placeholder` and trimmed value, and empty iff all are |
| RumManager.SafeLabelKeepsSafe | src/vue2/RUMManager.vue2.ts:202-205 | an already safe label is kept as it is |
| RumManager.SafeLabelIdempotent | src/vue2/RUMManager.vue2.ts:202-205 | sanitising twice is sanitising once |
| RumManager.BuildRouteKey | src/vue2/RUMManager.vue2.ts:209-234 | the route's name, then its last matched path, then its path, then the page path, then `unknown_route` |
| RumManager.SameKindNodes | src/vue2/RUMManager.vue2.ts:241-245 | the siblings kept all share the target's tag and class |
| RumManager.SiblingIndexLocatesTarget | src/vue2/RUMManager.vue2.ts:238-251 | the index suffix is the position at which `indexOf` finds the target among same-kind siblings |
| RumManager.IndexSuffix | src/vue2/RUMManager.vue2.ts:234-250 | the suffix is empty iff there is no parent or the target is not among its children; otherwise it is `[k]` where `k` is the number of same-kind children before the target, which is where the same-kind children hold it |
| RumManager.SameKindSiblingsGetDistinctSuffixes | src/vue2/RUMManager.vue2.ts:238-245 | two different same-kind children get different suffixes, even when they are alike in every other respect, as `indexOf` on the element itself distinguishes them |
| RumManager.SameKindNodesByKind | src/vue2/RUMManager.vue2.ts:238-242 | the sibling filter depends only on the target's tag and class |
| RumManager.ComposeBizIdSplits | src/vue2/RUMManager.vue2.ts:252 | a generated id splits at `\|` into route key, element part and label when none contains `\|` |
| RumManager.GeneratedBizIdSplits | src/vue2/RUMManager.vue2.ts:209-252 | a generated business id splits back into the route key `buildRouteKey` chose, the element part and the label |
| RumManager.BizId | src/vue2/RUMManager.vue2.ts:169-252 | `rum-id`, then `rum-name`, then the generated id; never empty |
| RumManager.ExplicitIdIgnoresContext | src/vue2/RUMManager.vue2.ts:169-170 | an explicit marker makes the id independent of route and position |
| RumManager.SelectorNodes | src/vue2/RUMManager.vue2.ts:320-355 | at most six elements, the innermost being the start, with only the outermost allowed an id |
| RumManager.SelectorStopsAtId | src/vue2/RUMManager.vue2.ts:327-349 | the walk stops early only at an id or at the top of the element tree |
| RumManager.SegmentOf | src/vue2/RUMManager.vue2.ts:329-343 | the segment is the lower-cased tag with the id, or with the first non-blank class |
| RumManager.SegmentsStep | src/vue2/RUMManager.vue2.ts:337-351 | below depth 5, an element without an id adds its segment in front of its parent's segments |
| RumManager.SegmentsStop | src/vue2/RUMManager.vue2.ts:331-351 | an element with an id, or at depth 5, ends the selector |
| RumManager.SelectorPath | src/vue2/RUMManager.vue2.ts:325-352 | the loop yields exactly the recursively defined segments |
| RumManager.WalkStep | src/vue2/RUMManager.vue2.ts:328-351 | one pass puts the segment in front, and stops exactly with the full selector, or moves to the parent with the loop invariant kept |
| RumManager.TargetInfo | src/vue2/RUMManager.vue2.ts:255-261 | the target info carries the tag, class, id and selector of the element and the first 50 characters of its text |
| RumManager.GetCssSelector | src/vue2/RUMManager.vue2.ts:320-355 | the selector is the segments joined with ` > `, and empty for a non-element |
| RumManager.SelectorShape | src/vue2/RUMManager.vue2.ts:320-355 | a selector has one to six segments, and the last describes the element itself |
| RumManager.ClickData | src/vue2/RUMManager.vue2.ts:262-276 | the click event carries type, business id and position, and no event type or click id of its own |
| RumManager.ClickEventShape | src/vue2/RUMManager.vue2.ts:263-277 | the custom event built from a click is a click carrying the business id, with no event type, click id or custom data of its own |
| RumManager.OnClick | src/vue2/RUMManager.vue2.ts:130-286 | given the target's place among its parent's children: outside a browser or without a target nothing happens; otherwise exactly the click data of the target (business id, position, target info with its selector, page, time) is tracked as a `click` action |
| RumManager.ClickEnvelopeDimensions | src/core/config.ts:278-304 | a click's envelope holds its business id in the click dimensions, unshadowed, and is typed `click` |
| RumManager.ClickColumnOfEnvelope | src/core/MitoSLSAdapter.ts:304-313 | the flattened envelope of a click with a truthy business id fills the `clickBizId` column with it |
| RumManager.ClickBizIdReachesColumn | src/vue2/RUMManager.vue2.ts:254-276 | the business id of a tracked click reaches the `clickBizId` column of the transport's record |

## Left out

- Strings are sequences of Unicode scalar values, not UTF-16 code units. Lengths, `slice(0, 32)` and `substring(0, 50)` count characters.
- `toLowerCase` folds ASCII letters only.
- `Number(x)` trims surrounding white space and then parses an optional sign and decimal digits. Fractions, exponents, hexadecimal and `Infinity` are not modelled.
- A failed `send` is reduced to its message string (`Failed(message)`). A tracker that rejects with `null` or `undefined` is not modelled. In the source, `handleSendError` first queues the log (SLSWebTrackingAdapter.ts:447) and then `shouldRetry` reads `error.message` (:504), which throws. So `sendLog` rejects (:165-168); the `catch` of `retryFailedLogs` (:478-491) is then reached, and `init` throws after it has set `isInitialized` (:111, :122-132).
- Numbers are integers. Fractional metric values and durations are not modelled.
- The serialised size of a record that `handleBeforeSend` compares with its limit is an input, not computed by `JSON.stringify`.
- Console output and the debug logging around every branch are not modelled.
- The log-service tracker (`SlsTracker`) is modelled by its observable outcomes only: whether its constructor throws, and whether each `send` succeeds. Its own batching (`time`, `count`) and network I/O are not modelled.
- `setTimeout` is modelled as a list of scheduled retry passes that fire in any order the caller chooses. Real delays and clock ordering are not modelled.
- Promises are modelled as sequential steps. Interleavings of concurrent sends are not modelled.
- The capture library (Mito) is modelled by the breadcrumb methods it offers. `Mito.init` does not throw, and its own capture of errors, XHR and clicks is not modelled. Its `setUser`, `getBreadcrumbs` and `destroy` calls have no observable effect on the pipeline, and `getBreadcrumbs` is not modelled.
- The module-level singleton (`getMitoAdapter`, `initRUMCore`) is a parameter of `RumManager.Init`, and `getRUMCoreInstance` is not modelled.
- `getConfig` of the manager and of the transport only report settings, and are not modelled.
- Registering the document's click and `visibilitychange` listeners and the router's `afterEach` hook is not modelled. The handlers they call are.
- `RumManager.StoreMutation`: a mutation whose `type` is not a string is treated as not mentioning `user`. The source would throw inside the Vuex subscriber.
- `LogSchema.MakeConfig`: an option explicitly set to `undefined` is treated like an absent one. The same holds for `SlsAdapter.UpdateConfig`, and for spreads in `MitoAdapter.MergeOptions`.
- `RumManager.OnClick`: `getComputedStyle` is an input (`pointer`) of each element. On a clicked node that is not an element it throws, and the handler's `try` drops the click; the model drops it too. Other exceptions inside the handler are not modelled.
- The records an operation returns as sent are the ones handed to the tracker's `send`. The tracker then applies its `beforeSend` hook (`LogSchema.HandleBeforeSend`) to each of them. The model states that hook on its own and does not compose it into the returned records.
- Arrays have no holes and no named properties of their own, so spreading an array adds exactly its indices.
- `RumManager.Init`: `getRUMEnv` is the `env` parameter, and the Mito options merged from the caller are not modelled beyond the transport override.
- The Vue 3 manager and plugin are not part of this model.


=== FILE: host.dfy ===
/** What the pipeline reads from its surroundings: the environment
    variables, the browser globals (each of which may be missing outside a
    browser), the clock and session storage. All of them are explicit
    inputs here. */
module Host {
  import opened Wrappers
  import opened Strings

  /** Environment variables; a missing key is an unset variable. */
  type Env = map<string, string>

  /** `getEnv(key, default)`: the variable's value when it is set and
      non-empty, the default otherwise. */
  function GetEnv(env: Env, key: string, default: string): (r: string)
    ensures r == default || (key in env && r == env[key] && r != "")
    ensures key in env && env[key] != "" ==> r == env[key]
  {
    if key in env && env[key] != "" then env[key] else default
  }

  datatype Location = Location(href: string, pathname: string, search: string, hash: string)
  datatype Document = Document(title: string, referrer: string)
  datatype Navigator = Navigator(userAgent: string, platform: string, language: string)

  /** `window.location`, `document` and `navigator`; None where the global
      is undefined. */
  datatype Browser = Browser(
    location: Option<Location>,
    document: Option<Document>,
    navigator: Option<Navigator>)

  /** Inputs a send step reads: the clock (`Date.now()`), the browser
      globals and the environment variables. */
  datatype Ambient = Ambient(nowMs: nat, browser: Browser, env: Env)

  /** `session_${Date.now()}_${random}`. */
  function NewSessionId(nowMs: nat, randomPart: string): (r: string)
    ensures StartsWith(r, "session_")
  {
    "session_" + NatToString(nowMs) + "_" + randomPart
  }

  datatype SessionLookup = SessionLookup(id: string, storage: Option<map<string, string>>)

  /** Reads the session id stored under `key` in session storage, storing
      `generated` when none (or an empty one) is stored. Without session
      storage every call yields a fresh id. */
  function ResolveSessionId(storage: Option<map<string, string>>, key: string, generated: string): (r: SessionLookup)
    ensures storage.None? ==> r == SessionLookup(generated, None)
    ensures storage.Some? && key in storage.value && storage.value[key] != "" ==>
              r == SessionLookup(storage.value[key], storage)
    ensures storage.Some? && (key !in storage.value || storage.value[key] == "") ==>
              r == SessionLookup(generated, Some(storage.value[key := generated]))
  {
    match storage
    case None => SessionLookup(generated, None)
    case Some(m) =>
      if key in m && m[key] != "" then SessionLookup(m[key], storage)
      else SessionLookup(generated, Some(m[key := generated]))
  }

  /** With session storage, the id is generated once and then reused: a
      second lookup returns the first id whatever it would generate. */
  lemma SessionIdReused(storage: map<string, string>, key: string, g1: string, g2: string)
    requires g1 != ""
    ensures var first := ResolveSessionId(Some(storage), key, g1);
            var second := ResolveSessionId(first.storage, key, g2);
            second.id == first.id && second.storage == first.storage
  {
  }
}

=== FILE: js_value.dfy ===
/** The dynamically typed values the pipeline passes around: event payloads,
    store state and log records are plain JavaScript objects, read with
    property access, `||`, `??` and object spread. */
module JsValue {
  import opened Wrappers
  import opened Strings

  /** A JavaScript value. Numbers are integers; objects are finite maps from
      property names to values (prototype properties are not modelled). */
  datatype Value =
    | Undefined
    | Null
    | Bool(b: bool)
    | Num(n: int)
    | NaN
    | Str(s: string)
    | Arr(items: seq<Value>)
    | Obj(fields: map<string, Value>)

  /** A plain object used as a record. */
  type Record = map<string, Value>

  /** JavaScript truthiness. */
  predicate Truthy(v: Value) {
    match v
    case Undefined => false
    case Null => false
    case Bool(b) => b
    case Num(n) => n != 0
    case NaN => false
    case Str(s) => s != ""
    case Arr(_) => true
    case Obj(_) => true
  }

  /** `r[k]`: a missing property reads as `undefined`. */
  function Get(r: Record, k: string): Value {
    if k in r then r[k] else Undefined
  }

  /** `v?.k`: reading a property of anything but a plain object gives
      `undefined`. */
  function Prop(v: Value, k: string): Value {
    if v.Obj? then Get(v.fields, k) else Undefined
  }

  /** `a || b`. */
  function Or(a: Value, b: Value): Value {
    if Truthy(a) then a else b
  }

  /** `a ?? b`. */
  function Coalesce(a: Value, b: Value): Value {
    if a.Undefined? || a.Null? then b else a
  }

  /** The value `vs[i]` is the one `vs[0] || vs[1] || ... ` evaluates to:
      the first truthy operand, or the last operand when none is truthy. */
  ghost predicate IsFirstTruthy(vs: seq<Value>, r: Value)
    requires |vs| > 0
  {
    || (exists i :: 0 <= i < |vs| && Truthy(vs[i]) && r == vs[i] &&
                    forall j :: 0 <= j < i ==> !Truthy(vs[j]))
    || ((forall i :: 0 <= i < |vs| ==> !Truthy(vs[i])) && r == vs[|vs| - 1])
  }

  /** The value at `i` is what the `||` chain yields when it is the first
      truthy one, or the last one after only falsy values. */
  lemma FirstTruthyAt(vs: seq<Value>, i: nat)
    requires i < |vs|
    requires Truthy(vs[i]) || i == |vs| - 1
    requires forall j :: 0 <= j < i ==> !Truthy(vs[j])
    ensures IsFirstTruthy(vs, vs[i])
  {
  }

  /** `vs[0] || vs[1] || ... || vs[n-1]`. */
  function FirstTruthy(vs: seq<Value>): (r: Value)
    requires |vs| > 0
    ensures IsFirstTruthy(vs, r)
    ensures Truthy(r) <==> exists i :: 0 <= i < |vs| && Truthy(vs[i])
  {
    if |vs| == 1 || Truthy(vs[0]) then vs[0]
    else
      var r := FirstTruthy(vs[1..]);
      assert forall i :: 1 <= i < |vs| ==> vs[i] == vs[1..][i - 1];
      if exists i :: 0 <= i < |vs| - 1 && Truthy(vs[1..][i]) then
        var i :| 0 <= i < |vs| - 1 && Truthy(vs[1..][i]) && r == vs[1..][i] &&
                 forall j :: 0 <= j < i ==> !Truthy(vs[1..][j]);
        assert Truthy(vs[i + 1]) && r == vs[i + 1];
        assert forall j :: 0 <= j < i + 1 ==> !Truthy(vs[j]);
        r
      else
        r
  }

  /** The `||` chain yields its first truthy value. */
  lemma FirstTruthyIs(vs: seq<Value>, i: nat)
    requires i < |vs| && Truthy(vs[i])
    requires forall j :: 0 <= j < i ==> !Truthy(vs[j])
    ensures FirstTruthy(vs) == vs[i]
  {
    var r := FirstTruthy(vs);
    var k :| 0 <= k < |vs| && Truthy(vs[k]) && r == vs[k] && forall j :: 0 <= j < k ==> !Truthy(vs[j]);
    assert k == i;
  }

  /** The set of index property names `"0"`, ..., `"n-1"`. */
  function IndexKeys(n: nat): set<string> {
    set i | 0 <= i < n :: NatToString(i)
  }

  /** The index names grow by one name at a time. */
  lemma IndexKeysStep(n: nat)
    ensures IndexKeys(n + 1) == IndexKeys(n) + {NatToString(n)}
  {
    assert NatToString(n) in IndexKeys(n + 1);
  }

  /** An object whose index properties hold `items` in order, as arrays and
      strings present themselves to object spread. */
  function IndexRecord(items: seq<Value>): (r: Record)
    ensures r.Keys == IndexKeys(|items|)
    ensures forall i :: 0 <= i < |items| ==> r[NatToString(i)] == items[i]
    decreases |items|
  {
    if |items| == 0 then map[]
    else
      var n := |items| - 1;
      var prev := IndexRecord(items[..n]);
      var r := prev[NatToString(n) := items[n]];
      IndexKeysStep(n);
      assert forall i :: 0 <= i < |items| ==> r[NatToString(i)] == items[i] by {
        forall i | 0 <= i < |items| ensures r[NatToString(i)] == items[i] {
          if i < n {
            if NatToString(i) == NatToString(n) {
              NatToStringInjective(i, n);
            }
            assert NatToString(i) in prev;
            assert r[NatToString(i)] == prev[NatToString(i)];
            assert items[..n][i] == items[i];
          }
        }
      }
      r
  }

  /** The own enumerable properties object spread copies: those of a plain
      object, the indices of an array, the one-character indices of a
      string, and nothing for `undefined`, `null`, booleans and numbers. */
  function OwnProperties(v: Value): (r: Record)
    ensures v.Obj? ==> r == v.fields
    ensures v.Arr? ==> r.Keys == IndexKeys(|v.items|)
                       && forall i :: 0 <= i < |v.items| ==> r[NatToString(i)] == v.items[i]
    ensures v.Str? ==> r.Keys == IndexKeys(|v.s|)
                       && forall i :: 0 <= i < |v.s| ==> r[NatToString(i)] == Str([v.s[i]])
    ensures !(v.Obj? || v.Arr? || v.Str?) ==> r == map[]
  {
    match v
    case Obj(fields) => fields
    case Arr(items) => IndexRecord(items)
    case Str(s) => IndexRecord(seq(|s|, i requires 0 <= i < |s| => Str([s[i]])))
    case _ => map[]
  }

  /** `{ ...base, ...v }`: the own properties of `v` are added to `base`,
      overriding the properties they share. */
  function Spread(base: Record, v: Value): (r: Record)
    ensures r.Keys == base.Keys + OwnProperties(v).Keys
    ensures forall k :: k in OwnProperties(v) ==> r[k] == OwnProperties(v)[k]
    ensures forall k :: k in base && k !in OwnProperties(v) ==> r[k] == base[k]
  {
    base + OwnProperties(v)
  }

  /** `String(v)` and template-literal interpolation. */
  function ToJsString(v: Value): (r: string)
    ensures v.Str? ==> r == v.s
    ensures v.Num? ==> r == IntToString(v.n)
    ensures r == "" ==> v == Str("") || v.Arr?
    decreases v
  {
    match v
    case Undefined => "undefined"
    case Null => "null"
    case Bool(b) => if b then "true" else "false"
    case Num(n) => IntToString(n)
    case NaN => "NaN"
    case Str(s) => s
    case Arr(items) =>
      Join(seq(|items|, i requires 0 <= i < |items| =>
                 if items[i].Undefined? || items[i].Null? then "" else ToJsString(items[i])),
           ",")
    case Obj(_) => "[object Object]"
  }

  /** `Number(s)` for a string: blank is 0, an optional sign and decimal
      digits is that integer, anything else is NaN here. */
  function StringToNumber(s: string): Value {
    var t := Trim(s);
    if t == "" then Num(0)
    else match ParseInteger(t)
      case Some(n) => Num(n)
      case None => NaN
  }

  /** `Number(v)`. */
  function ToNumber(v: Value): (r: Value)
    ensures r.Num? || r.NaN?
    ensures v.Num? ==> r == v
  {
    match v
    case Undefined => NaN
    case Null => Num(0)
    case Bool(b) => Num(if b then 1 else 0)
    case Num(_) => v
    case NaN => NaN
    case Str(s) => StringToNumber(s)
    case Arr(_) => StringToNumber(ToJsString(v))
    case Obj(_) => NaN
  }

  /** `Number(String(n))` gives back the integer `n`. */
  lemma NumberOfStringRoundTrip(n: int)
    ensures ToNumber(Str(ToJsString(Num(n)))) == Num(n)
  {
    TrimUntouched(IntToString(n));
    IntToStringParses(n);
  }

  /** `Array.isArray(v) ? v.join(',') : ...` as used on `roles` and
      `permissions` after `|| []`: a falsy value joins as the empty array, an
      array joins its elements, anything else has no `join` and throws. */
  function JoinList(v: Value): (r: Option<string>)
    ensures r.None? <==> Truthy(v) && !v.Arr?
  {
    if !Truthy(v) then Some("")
    else if v.Arr? then Some(ToJsString(v))
    else None
  }
}

=== FILE: json.dfy ===
/** `JSON.stringify` of a string, the one JSON shape the adapter writes
    (`detail_json` is `JSON.stringify({ hash })`), and the matching parser. */
module Json {
  import opened Wrappers

  function HexDigit(d: nat): char
    requires d < 16
  {
    if d < 10 then '0' + d as char else 'a' + (d - 10) as char
  }

  function HexValue(c: char): Option<nat> {
    if '0' <= c <= '9' then Some(c as int - '0' as int)
    else if 'a' <= c <= 'f' then Some(c as int - 'a' as int + 10)
    else if 'A' <= c <= 'F' then Some(c as int - 'A' as int + 10)
    else None
  }

  lemma HexRoundTrip(d: nat)
    requires d < 16
    ensures HexValue(HexDigit(d)) == Some(d)
  {
  }

  /** The escape JSON.stringify writes for one character: the two-character
      escapes for quote, backslash, backspace, form feed, newline, carriage
      return and tab, `\u00XX` for the other control characters, the
      character itself otherwise. */
  function EscapeChar(c: char): (r: string)
    ensures |r| >= 1 && forall i :: 0 <= i < |r| ==> ' ' <= r[i]
    ensures r[0] == '\\' <==> c == '"' || c == '\\' || c < ' '
    ensures r[0] != '\\' ==> r == [c]
  {
    if c == '"' then "\\\""
    else if c == '\\' then "\\\\"
    else if c == '\U{0008}' then "\\b"
    else if c == '\U{000C}' then "\\f"
    else if c == '\n' then "\\n"
    else if c == '\r' then "\\r"
    else if c == '\t' then "\\t"
    else if c < ' ' then "\\u00" + [HexDigit(c as int / 16), HexDigit(c as int % 16)]
    else [c]
  }

  /** A character that JSON writes as itself. */
  predicate Plain(c: char) {
    ' ' <= c && c != '"' && c != '\\'
  }

  /** The body of a JSON string literal for `s`: no raw control character
      survives, nothing gets shorter, and text without quotes, backslashes
      or control characters is written as it is. */
  function Escape(s: string): (r: string)
    ensures |r| >= |s|
    ensures forall i :: 0 <= i < |r| ==> ' ' <= r[i]
    ensures (forall i :: 0 <= i < |s| ==> Plain(s[i])) ==> r == s
  {
    if |s| == 0 then "" else EscapeChar(s[0]) + Escape(s[1..])
  }

  /** `JSON.stringify(s)` for a string `s`. */
  function Quote(s: string): string {
    "\"" + Escape(s) + "\""
  }

  function Prepend(c: char, r: Option<string>): Option<string> {
    match r
    case Some(t) => Some([c] + t)
    case None => None
  }

  function SimpleEscape(c: char): Option<char> {
    if c == '"' then Some('"')
    else if c == '\\' then Some('\\')
    else if c == '/' then Some('/')
    else if c == 'b' then Some('\U{0008}')
    else if c == 'f' then Some('\U{000C}')
    else if c == 'n' then Some('\n')
    else if c == 'r' then Some('\r')
    else if c == 't' then Some('\t')
    else None
  }

  function Hex4(t: string): Option<nat>
    requires |t| >= 4
  {
    match (HexValue(t[0]), HexValue(t[1]), HexValue(t[2]), HexValue(t[3]))
    case (Some(a), Some(b), Some(c), Some(d)) => Some(((a * 16 + b) * 16 + c) * 16 + d)
    case _ => None
  }

  /** Decodes the body of a JSON string literal (the text between the
      quotes); None when it is not a well-formed body. Surrogate escapes
      are rejected. */
  function Unescape(t: string): Option<string>
    decreases |t|
  {
    if |t| == 0 then Some("")
    else if t[0] == '\\' then
      if |t| >= 2 && SimpleEscape(t[1]).Some? then
        Prepend(SimpleEscape(t[1]).value, Unescape(t[2..]))
      else if |t| >= 6 && t[1] == 'u' && Hex4(t[2..6]).Some? then
        var v := Hex4(t[2..6]).value;
        if 0xD800 <= v <= 0xDFFF then None
        else Prepend(v as char, Unescape(t[6..]))
      else None
    else if t[0] == '"' || t[0] < ' ' then None
    else Prepend(t[0], Unescape(t[1..]))
  }

  lemma UnescapeAfterEscapeChar(c: char, t: string)
    ensures Unescape(EscapeChar(c) + t) == Prepend(c, Unescape(t))
  {
    var e := EscapeChar(c);
    var u := e + t;
    if c == '"' || c == '\\' || c == '\U{0008}' || c == '\U{000C}' || c == '\n' || c == '\r' || c == '\t' {
      assert u[2..] == t;
    } else if c < ' ' {
      var hi := c as int / 16;
      var lo := c as int % 16;
      HexRoundTrip(hi);
      HexRoundTrip(lo);
      HexRoundTrip(0);
      assert u[2..6] == ['0', '0', HexDigit(hi), HexDigit(lo)];
      assert Hex4(u[2..6]) == Some(c as int);
      assert u[6..] == t;
    } else {
      assert u[1..] == t;
    }
  }

  /** Decoding the escaped body gives back the string. */
  lemma {:induction false} UnescapeEscape(s: string)
    ensures Unescape(Escape(s)) == Some(s)
  {
    if |s| > 0 {
      UnescapeEscape(s[1..]);
      UnescapeAfterEscapeChar(s[0], Escape(s[1..]));
      assert [s[0]] + s[1..] == s;
    }
  }

  const DetailPrefix: string := "{\"hash\":\""
  const DetailSuffix: string := "\"}"

  /** `JSON.stringify({ hash })`. */
  function DetailJson(hash: string): string {
    "{\"hash\":" + Quote(hash) + "}"
  }

  /** Reads the `hash` member back out of a one-member `{"hash": ...}`
      object; None for any other text. */
  function ParseDetailJson(t: string): Option<string> {
    if |t| >= |DetailPrefix| + |DetailSuffix|
       && t[..|DetailPrefix|] == DetailPrefix
       && t[|t| - |DetailSuffix|..] == DetailSuffix
    then Unescape(t[|DetailPrefix|..|t| - |DetailSuffix|])
    else None
  }

  /** The detail text is parseable JSON whose `hash` member is the hash. */
  lemma DetailJsonRoundTrip(hash: string)
    ensures ParseDetailJson(DetailJson(hash)) == Some(hash)
  {
    var t := DetailJson(hash);
    var body := Escape(hash);
    assert t == DetailPrefix + body + DetailSuffix;
    assert t[|DetailPrefix|..|t| - |DetailSuffix|] == body;
    UnescapeEscape(hash);
  }
}

=== FILE: log_schema.dfy ===
/** The SLS transport's settings and the flat log record it sends: the
    defaults of its constructor, `transformLogData` with its per-type field
    rules, the internal-user flag derived from the e-mail domain, and the
    `beforeSend` hook (size guard and sensitive-data filter). */
module LogSchema {
  import opened Wrappers
  import opened Strings
  import opened JsValue
  import opened Host
  import Json

  /** The transport's settings once the constructor has filled in defaults. */
  datatype AdapterConfig = AdapterConfig(
    host: string,
    project: string,
    logstore: string,
    time: int,
    count: int,
    topic: string,
    source: string,
    environment: string,
    debug: bool,
    enabled: bool,
    userId: Value,
    sessionId: string,
    appName: string,
    appVersion: string,
    retryCount: int,
    retryInterval: int)

  /** The options the transport is constructed with; None is an omitted
      option, and `userId` is `undefined`, `null` or a string. */
  datatype AdapterOptions = AdapterOptions(
    host: Option<string>,
    project: Option<string>,
    logstore: Option<string>,
    time: Option<int>,
    count: Option<int>,
    topic: Option<string>,
    source: Option<string>,
    environment: Option<string>,
    debug: Option<bool>,
    enabled: Option<bool>,
    userId: Value,
    sessionId: Option<string>,
    appName: Option<string>,
    appVersion: Option<string>,
    retryCount: Option<int>,
    retryInterval: Option<int>)

  const NoOptions: AdapterOptions := AdapterOptions(
    None, None, None, None, None, None, None, None, None, None, Undefined, None, None, None, None, None)

  /** `option || fallback` for a string option: an empty string falls back. */
  function StrOr(o: Option<string>, fallback: string): (r: string)
    ensures o.Some? && o.value != "" ==> r == o.value
    ensures (o.None? || o.value == "") ==> r == fallback
  {
    if o.Some? && o.value != "" then o.value else fallback
  }

  /** `option ?? fallback`: only an omitted option falls back. */
  function OptOr<T>(o: Option<T>, fallback: T): (r: T)
    ensures o.Some? ==> r == o.value
    ensures o.None? ==> r == fallback
  {
    if o.Some? then o.value else fallback
  }

  /** `r` is what `given || fallback` evaluates to for a string option:
      an omitted or empty option falls back. */
  predicate IsOrDefault(given: Option<string>, fallback: string, r: string) {
    if given.Some? && given.value != "" then r == given.value else r == fallback
  }

  /** `r` is what `given ?? fallback` evaluates to: only an omitted option
      falls back, so `0` and `false` are kept. */
  predicate IsCoalesceDefault<T(==)>(given: Option<T>, fallback: T, r: T) {
    if given.Some? then r == given.value else r == fallback
  }

  /** The constructor's settings. `generatedSessionId` is what the session
      id generator yields (see `Host.ResolveSessionId`); it is used only
      when no non-empty session id is given. */
  function MakeConfig(o: AdapterOptions, env: Env, generatedSessionId: string): (c: AdapterConfig)
    ensures IsOrDefault(o.host, GetEnv(env, "VUE_APP_SLS_HOST", ""), c.host)
    ensures IsOrDefault(o.project, GetEnv(env, "VUE_APP_SLS_PROJECT", ""), c.project)
    ensures IsOrDefault(o.logstore, GetEnv(env, "VUE_APP_SLS_LOGSTORE", ""), c.logstore)
    ensures IsCoalesceDefault(o.time, 10, c.time) && IsCoalesceDefault(o.count, 10, c.count)
    ensures IsOrDefault(o.topic, "rum-monitor", c.topic) && IsOrDefault(o.source, "web", c.source)
    ensures IsOrDefault(o.environment, GetEnv(env, "NODE_ENV", "development"), c.environment)
    ensures IsCoalesceDefault(o.debug, GetEnv(env, "VUE_APP_RUM_DEBUG", "false") == "true", c.debug)
    ensures IsCoalesceDefault(o.enabled, true, c.enabled)
    ensures o.userId.Undefined? || o.userId.Null? ==> c.userId == Null
    ensures !(o.userId.Undefined? || o.userId.Null?) ==> c.userId == o.userId
    ensures IsOrDefault(o.sessionId, generatedSessionId, c.sessionId)
    ensures IsOrDefault(o.appName, GetEnv(env, "VUE_APP_RUM_APP_NAME", "rum-app"), c.appName)
    ensures IsOrDefault(o.appVersion, GetEnv(env, "PACKAGE_VERSION", "1.0.0"), c.appVersion)
    ensures IsCoalesceDefault(o.retryCount, 3, c.retryCount)
    ensures IsCoalesceDefault(o.retryInterval, 2000, c.retryInterval)
  {
    AdapterConfig(
      StrOr(o.host, GetEnv(env, "VUE_APP_SLS_HOST", "")),
      StrOr(o.project, GetEnv(env, "VUE_APP_SLS_PROJECT", "")),
      StrOr(o.logstore, GetEnv(env, "VUE_APP_SLS_LOGSTORE", "")),
      OptOr(o.time, 10),
      OptOr(o.count, 10),
      StrOr(o.topic, "rum-monitor"),
      StrOr(o.source, "web"),
      StrOr(o.environment, GetEnv(env, "NODE_ENV", "development")),
      OptOr(o.debug, GetEnv(env, "VUE_APP_RUM_DEBUG", "false") == "true"),
      OptOr(o.enabled, true),
      Coalesce(o.userId, Null),
      StrOr(o.sessionId, generatedSessionId),
      StrOr(o.appName, GetEnv(env, "VUE_APP_RUM_APP_NAME", "rum-app")),
      StrOr(o.appVersion, GetEnv(env, "PACKAGE_VERSION", "1.0.0")),
      OptOr(o.retryCount, 3),
      OptOr(o.retryInterval, 2000))
  }

  /** With no options and no environment variables the transport is enabled,
      quiet, flushes every 10 seconds or 10 logs, and retries up to 3 times
      2 seconds apart. */
  lemma DefaultConfig(g: string)
    ensures var c := MakeConfig(NoOptions, map[], g);
            && c.host == "" && c.project == "" && c.logstore == ""
            && c.time == 10 && c.count == 10
            && c.topic == "rum-monitor" && c.source == "web"
            && c.environment == "development"
            && !c.debug && c.enabled && c.userId == Null
            && c.appName == "rum-app" && c.appVersion == "1.0.0"
            && c.retryCount == 3 && c.retryInterval == 2000
  {
  }

  /** `??` keeps explicit falsy settings where `||` would replace them:
      `time: 0`, `enabled: false`, `retryCount: 0` stay as given. */
  lemma ExplicitFalsySettingsKept(o: AdapterOptions, env: Env, g: string)
    requires o.time == Some(0) && o.enabled == Some(false) && o.retryCount == Some(0)
    ensures var c := MakeConfig(o, env, g);
            c.time == 0 && !c.enabled && c.retryCount == 0
  {
  }

  /** `||` treats an empty string option like an omitted one: the
      connection, naming and session options fall back either way. */
  lemma EmptyStringOptionsFallBack(o: AdapterOptions, env: Env, g: string)
    ensures MakeConfig(o.(host := Some(""), project := Some(""), logstore := Some(""), topic := Some(""),
                          source := Some(""), environment := Some(""), sessionId := Some(""),
                          appName := Some(""), appVersion := Some("")), env, g)
            == MakeConfig(o.(host := None, project := None, logstore := None, topic := None,
                             source := None, environment := None, sessionId := None,
                             appName := None, appVersion := None), env, g)
  {
  }

  /** Without options, the connection comes from the build environment: a
      variable that is set and non-empty is used as it is. */
  lemma ConfigFromEnvironment(env: Env, g: string)
    requires "VUE_APP_SLS_HOST" in env && env["VUE_APP_SLS_HOST"] != ""
    requires "VUE_APP_SLS_PROJECT" in env && env["VUE_APP_SLS_PROJECT"] != ""
    requires "VUE_APP_SLS_LOGSTORE" in env && env["VUE_APP_SLS_LOGSTORE"] != ""
    ensures var c := MakeConfig(NoOptions, env, g);
            && c.host == env["VUE_APP_SLS_HOST"]
            && c.project == env["VUE_APP_SLS_PROJECT"]
            && c.logstore == env["VUE_APP_SLS_LOGSTORE"]
  {
  }

  // ---------------------------------------------------------------------
  // The internal-user flag.

  /** One configured domain as compared: trimmed and lower-cased. */
  function NormalizeDomain(item: string): string {
    Lower(Trim(item))
  }

  /** `items.map(item => item.trim().toLowerCase()).filter(Boolean)`. */
  function NormalizeDomains(items: seq<string>): (ds: seq<string>)
    ensures forall i :: 0 <= i < |ds| ==> ds[i] != ""
  {
    if |items| == 0 then []
    else
      var d := NormalizeDomain(items[0]);
      if d == "" then NormalizeDomains(items[1..]) else [d] + NormalizeDomains(items[1..])
  }

  /** Every normalized domain comes from some configured item. */
  lemma {:induction false} NormalizeDomainsSound(items: seq<string>, d: string)
    requires d in NormalizeDomains(items)
    ensures exists j :: 0 <= j < |items| && d == NormalizeDomain(items[j])
  {
    if d != NormalizeDomain(items[0]) {
      NormalizeDomainsSound(items[1..], d);
      var j :| 0 <= j < |items[1..]| && d == NormalizeDomain(items[1..][j]);
      assert items[1..][j] == items[j + 1];
    }
  }

  /** Every configured item that is not blank is among the normalized
      domains. */
  lemma {:induction false} NormalizeDomainsComplete(items: seq<string>, j: nat)
    requires j < |items| && NormalizeDomain(items[j]) != ""
    ensures NormalizeDomain(items[j]) in NormalizeDomains(items)
  {
    if j > 0 {
      NormalizeDomainsComplete(items[1..], j - 1);
      assert items[1..][j - 1] == items[j];
    }
  }

  /** The internal domains read from `VUE_APP_RUM_INTERNAL_EMAIL_DOMAINS`. */
  function InternalDomains(configured: string): seq<string> {
    NormalizeDomains(Split(configured, ','))
  }

  /** The domain is the internal domain or one of its subdomains. */
  predicate DomainMatches(domain: string, internal: string) {
    domain == internal || EndsWith(domain, "." + internal)
  }

  /** `internalDomains.some(...)`. */
  function AnyDomainMatches(domain: string, ds: seq<string>): (r: bool)
    ensures r <==> exists i :: 0 <= i < |ds| && ds[i] != "" && DomainMatches(domain, ds[i])
  {
    if |ds| == 0 then false
    else if ds[0] != "" && DomainMatches(domain, ds[0]) then true
    else
      assert forall i :: 1 <= i < |ds| ==> ds[i] == ds[1..][i - 1];
      AnyDomainMatches(domain, ds[1..])
  }

  /** The part of an address after its first `@`. */
  function AfterAt(s: string): string
    requires '@' in s
  {
    s[IndexOf(s, '@') + 1..]
  }

  /** `isInternalUser` as computed: the address splits into exactly two
      parts at `@`, and its lower-cased domain is non-empty and matches one
      of the configured domains. */
  function InternalFlag(userEmail: Value, configured: string): bool {
    if userEmail.Str? && userEmail.s != "" then
      var parts := Split(userEmail.s, '@');
      if |parts| == 2 then
        var domain := Lower(parts[1]);
        var ds := InternalDomains(configured);
        |ds| > 0 && domain != "" && AnyDomainMatches(domain, ds)
      else false
    else false
  }

  /** The rule in words: a string address with exactly one `@`, whose
      lower-cased domain is non-empty and is, or is a subdomain of, some
      configured entry that is non-blank after trimming and lower-casing. */
  ghost predicate InternalEmail(userEmail: Value, configured: string) {
    && userEmail.Str?
    && '@' in userEmail.s
    && '@' !in AfterAt(userEmail.s)
    && var domain := Lower(AfterAt(userEmail.s));
       && domain != ""
       && exists j :: 0 <= j < |Split(configured, ',')|
            && NormalizeDomain(Split(configured, ',')[j]) != ""
            && DomainMatches(domain, NormalizeDomain(Split(configured, ',')[j]))
  }

  /** The computed flag is exactly the rule. */
  lemma IsInternalUserMeaning(userEmail: Value, configured: string)
    ensures InternalFlag(userEmail, configured) <==> InternalEmail(userEmail, configured)
  {
    if userEmail.Str? {
      var s := userEmail.s;
      SplitInTwo(s, '@');
      var pieces := Split(configured, ',');
      var ds := InternalDomains(configured);
      if '@' in s && '@' !in AfterAt(s) {
        var domain := Lower(AfterAt(s));
        if InternalFlag(userEmail, configured) {
          var i :| 0 <= i < |ds| && ds[i] != "" && DomainMatches(domain, ds[i]);
          NormalizeDomainsSound(pieces, ds[i]);
          var j :| 0 <= j < |pieces| && ds[i] == NormalizeDomain(pieces[j]);
          assert NormalizeDomain(pieces[j]) != "" && DomainMatches(domain, NormalizeDomain(pieces[j]));
        }
        if InternalEmail(userEmail, configured) {
          var j :| 0 <= j < |pieces| && NormalizeDomain(pieces[j]) != "" && DomainMatches(domain, NormalizeDomain(pieces[j]));
          NormalizeDomainsComplete(pieces, j);
          var i :| 0 <= i < |ds| && ds[i] == NormalizeDomain(pieces[j]);
          assert AnyDomainMatches(domain, ds);
        }
      }
    }
  }

  // ---------------------------------------------------------------------
  // Per-type columns.

  /** The columns only some event types carry. */
  datatype Column =
    | ErrorMessage | ErrorStack | ErrorFilename | ErrorLineno | ErrorColno | ErrorName
    | ApiUrl | ApiMethod | ApiStatus | ApiDuration | ApiResponseSize
    | ClickBizId | ClickTarget | ClickSelector | ClickText | ClickX | ClickY

  datatype ColumnGroup = ErrorInfo | ApiInfo | ClickInfo

  function GroupOf(c: Column): ColumnGroup {
    match c
    case ErrorMessage | ErrorStack | ErrorFilename | ErrorLineno | ErrorColno | ErrorName => ErrorInfo
    case ApiUrl | ApiMethod | ApiStatus | ApiDuration | ApiResponseSize => ApiInfo
    case ClickBizId | ClickTarget | ClickSelector | ClickText | ClickX | ClickY => ClickInfo
  }

  /** The name a column is sent under. */
  function ColumnName(c: Column): string {
    match c
    case ErrorMessage => "error_message"
    case ErrorStack => "error_stack"
    case ErrorFilename => "error_filename"
    case ErrorLineno => "error_lineno"
    case ErrorColno => "error_colno"
    case ErrorName => "error_name"
    case ApiUrl => "api_url"
    case ApiMethod => "api_method"
    case ApiStatus => "api_status"
    case ApiDuration => "api_duration"
    case ApiResponseSize => "api_response_size"
    case ClickBizId => "click_biz_id"
    case ClickTarget => "click_target"
    case ClickSelector => "click_selector"
    case ClickText => "click_text"
    case ClickX => "click_x"
    case ClickY => "click_y"
  }

  /** When a column is written: the source value is truthy, or is not
      `undefined`. */
  datatype Guard = WhenTruthy | WhenDefined

  /** How the source value is written: as it is, through `String()`, or
      through `Number()`. */
  datatype Conversion = Raw | AsString | AsNumber

  /** Where the source value comes from: one field, or the first truthy of
      two (`data.a || data.b`). */
  datatype Read = Field(name: string) | EitherField(first: string, second: string)

  /** One `if (data.x ...) logData.column = ...` line. */
  datatype Rule = Rule(column: Column, read: Read, guard: Guard, conversion: Conversion)

  function ReadValue(data: Record, read: Read): Value {
    match read
    case Field(n) => Get(data, n)
    case EitherField(a, b) => Or(Get(data, a), Get(data, b))
  }

  predicate Fires(data: Record, rule: Rule) {
    var v := ReadValue(data, rule.read);
    match rule.guard
    case WhenTruthy => Truthy(v)
    case WhenDefined => !v.Undefined?
  }

  function Convert(conversion: Conversion, v: Value): Value {
    match conversion
    case Raw => v
    case AsString => Str(ToJsString(v))
    case AsNumber => ToNumber(v)
  }

  predicate DistinctColumns(rules: seq<Rule>) {
    forall i, j :: 0 <= i < j < |rules| ==> rules[i].column != rules[j].column
  }

  function Columns(rules: seq<Rule>): set<Column> {
    set i | 0 <= i < |rules| :: rules[i].column
  }

  /** Applies the rules to an empty record. */
  function ApplyRules(data: Record, rules: seq<Rule>): (r: map<Column, Value>)
    ensures r.Keys <= Columns(rules)
  {
    if |rules| == 0 then map[]
    else
      var rest := ApplyRules(data, rules[1..]);
      assert Columns(rules[1..]) <= Columns(rules) by {
        forall k | k in Columns(rules[1..]) ensures k in Columns(rules) {
          var i :| 0 <= i < |rules[1..]| && rules[1..][i].column == k;
          assert rules[i + 1].column == k;
        }
      }
      var rule := rules[0];
      if Fires(data, rule) then rest[rule.column := Convert(rule.conversion, ReadValue(data, rule.read))]
      else rest
  }

  /** Each rule's column is present exactly when the rule fires, and then
      holds the converted source value. */
  lemma {:induction false} ApplyRulesMeaning(data: Record, rules: seq<Rule>, i: nat)
    requires DistinctColumns(rules) && i < |rules|
    ensures rules[i].column in ApplyRules(data, rules) <==> Fires(data, rules[i])
    ensures Fires(data, rules[i]) ==>
              ApplyRules(data, rules)[rules[i].column] == Convert(rules[i].conversion, ReadValue(data, rules[i].read))
  {
    if i == 0 {
      assert rules[0].column !in Columns(rules[1..]) by {
        forall j | 0 <= j < |rules[1..]| ensures rules[1..][j].column != rules[0].column {
          assert rules[1..][j] == rules[j + 1];
        }
      }
    } else {
      ApplyRulesMeaning(data, rules[1..], i - 1);
      assert rules[1..][i - 1] == rules[i];
    }
  }

  /** `addErrorFields`. */
  const ErrorRules: seq<Rule> := [
    Rule(ErrorMessage, Field("message"), WhenTruthy, AsString),
    Rule(ErrorStack, Field("stack"), WhenTruthy, AsString),
    Rule(ErrorFilename, Field("filename"), WhenTruthy, Raw),
    Rule(ErrorLineno, Field("lineno"), WhenTruthy, AsString),
    Rule(ErrorColno, Field("colno"), WhenTruthy, AsString),
    Rule(ErrorName, Field("name"), WhenTruthy, Raw)]

  /** `addApiFields`. */
  const ApiRules: seq<Rule> := [
    Rule(ApiUrl, Field("url"), WhenTruthy, Raw),
    Rule(ApiMethod, Field("method"), WhenTruthy, Raw),
    Rule(ApiStatus, Field("status"), WhenDefined, AsNumber),
    Rule(ApiDuration, Field("duration"), WhenDefined, AsNumber),
    Rule(ApiResponseSize, Field("responseSize"), WhenDefined, AsNumber)]

  /** `addClickFields`. */
  const ClickRules: seq<Rule> := [
    Rule(ClickBizId, EitherField("clickBizId", "bizId"), WhenTruthy, Raw),
    Rule(ClickTarget, Field("target"), WhenTruthy, Raw),
    Rule(ClickSelector, Field("selector"), WhenTruthy, Raw),
    Rule(ClickText, Field("text"), WhenTruthy, Raw),
    Rule(ClickX, Field("x"), WhenDefined, AsNumber),
    Rule(ClickY, Field("y"), WhenDefined, AsNumber)]

  /** Every rule of the table writes a column of group `g`. */
  predicate RulesIn(rules: seq<Rule>, g: ColumnGroup) {
    forall i :: 0 <= i < |rules| ==> GroupOf(rules[i].column) == g
  }

  lemma ErrorRuleTable()
    ensures DistinctColumns(ErrorRules) && RulesIn(ErrorRules, ErrorInfo)
  {
  }

  lemma ApiRuleTable()
    ensures DistinctColumns(ApiRules) && RulesIn(ApiRules, ApiInfo)
  {
  }

  lemma ClickRuleTable()
    ensures DistinctColumns(ClickRules) && RulesIn(ClickRules, ClickInfo)
  {
  }

  /** A table of one group writes only columns of that group. */
  lemma ApplyRulesGroup(data: Record, rules: seq<Rule>, g: ColumnGroup)
    requires RulesIn(rules, g)
    ensures forall k :: k in ApplyRules(data, rules) ==> GroupOf(k) == g
  {
    forall k | k in ApplyRules(data, rules) ensures GroupOf(k) == g {
      assert k in Columns(rules);
      var i :| 0 <= i < |rules| && rules[i].column == k;
    }
  }

  /** The rule table for an event type: error rules for `error`, API rules
      for `xhr` and `fetch`, click rules for `click`, none otherwise. */
  function RulesFor(eventType: Value): (rules: seq<Rule>)
    ensures eventType == Str("error") ==> rules == ErrorRules
    ensures eventType == Str("xhr") || eventType == Str("fetch") ==> rules == ApiRules
    ensures eventType == Str("click") ==> rules == ClickRules
    ensures eventType !in {Str("error"), Str("xhr"), Str("fetch"), Str("click")} ==> rules == []
  {
    if eventType == Str("error") then ErrorRules
    else if eventType == Str("xhr") || eventType == Str("fetch") then ApiRules
    else if eventType == Str("click") then ClickRules
    else []
  }

  /** The per-type columns of an event: a column of one event type appears
      only for that type. */
  function TypeFields(eventType: Value, data: Record): (r: map<Column, Value>)
    ensures forall k :: k in r && GroupOf(k) == ErrorInfo ==> eventType == Str("error")
    ensures forall k :: k in r && GroupOf(k) == ApiInfo ==> eventType == Str("xhr") || eventType == Str("fetch")
    ensures forall k :: k in r && GroupOf(k) == ClickInfo ==> eventType == Str("click")
  {
    ErrorRuleTable();
    ApiRuleTable();
    ClickRuleTable();
    ApplyRulesGroup(data, ErrorRules, ErrorInfo);
    ApplyRulesGroup(data, ApiRules, ApiInfo);
    ApplyRulesGroup(data, ClickRules, ClickInfo);
    ApplyRules(data, RulesFor(eventType))
  }

  /** A rule of the event's table writes its column exactly when it fires,
      with the converted source value. */
  lemma TypeFieldValue(eventType: Value, data: Record, i: nat)
    requires i < |RulesFor(eventType)|
    ensures var rule := RulesFor(eventType)[i];
            && (rule.column in TypeFields(eventType, data) <==> Fires(data, rule))
            && (Fires(data, rule) ==> TypeFields(eventType, data)[rule.column] == Convert(rule.conversion, ReadValue(data, rule.read)))
  {
    ErrorRuleTable();
    ApiRuleTable();
    ClickRuleTable();
    ApplyRulesMeaning(data, RulesFor(eventType), i);
  }

  // ---------------------------------------------------------------------
  // The log record.

  /** The record `transformLogData` builds. Optional columns are None when
      they are not written; `undefined`-valued columns (a missing document
      or navigator) are None in the Option-typed page fields. */
  datatype LogRecord = LogRecord(
    time: int,
    source: string,
    eventType: Value,
    category: Value,
    level: Value,
    clientTimestamp: int,
    appName: string,
    environment: string,
    sessionId: string,
    pageUrl: string,
    pageTitle: Option<string>,
    pagePath: string,
    referrer: Option<string>,
    userAgent: Option<string>,
    language: Option<string>,
    userId: Option<Value>,
    userName: Option<Value>,
    isInternalUser: bool,
    typeFields: map<Column, Value>,
    detailJson: string)

  /** `data.eventType || data.type || 'unknown'`. */
  function EventTypeOf(data: Record): (r: Value)
    ensures IsFirstTruthy([Get(data, "eventType"), Get(data, "type"), Str("unknown")], r)
    ensures Truthy(r)
  {
    FirstTruthy([Get(data, "eventType"), Get(data, "type"), Str("unknown")])
  }

  /** The referrer the record carries: the event's own referrer when it is a
      string, otherwise the document's. */
  function ReferrerOf(data: Record, b: Browser): (r: Option<string>)
    ensures Prop(Get(data, "event"), "referrer").Str? ==> r == Some(Prop(Get(data, "event"), "referrer").s)
    ensures !Prop(Get(data, "event"), "referrer").Str? ==>
              r == (if b.document.Some? then Some(b.document.value.referrer) else None)
  {
    var ev := Get(data, "event");
    if Truthy(ev) && Prop(ev, "referrer").Str? then Some(Prop(ev, "referrer").s)
    else if b.document.Some? then Some(b.document.value.referrer)
    else None
  }

  /** The user id column: the event's id when truthy, else the configured
      one when truthy, else absent. */
  function UserIdOf(c: AdapterConfig, data: Record): (r: Option<Value>)
    ensures r.Some? <==> Truthy(Get(data, "userId")) || Truthy(c.userId)
    ensures r.Some? ==> Truthy(r.value)
    ensures Truthy(Get(data, "userId")) ==> r == Some(Get(data, "userId"))
    ensures !Truthy(Get(data, "userId")) && Truthy(c.userId) ==> r == Some(c.userId)
  {
    var fromConfig := if Truthy(c.userId) then Some(c.userId) else None;
    if Truthy(Get(data, "userId")) then Some(Get(data, "userId")) else fromConfig
  }

  /** The hash `detail_json` keeps: the event's own string `hash`, else
      its dimensions' string `hash`, else the page's, else empty. */
  function DetailHash(data: Record, b: Browser): (h: string)
    ensures Get(data, "hash").Str? ==> h == Get(data, "hash").s
    ensures !Get(data, "hash").Str? && Truthy(Get(data, "dimensions")) && Prop(Get(data, "dimensions"), "hash").Str? ==>
              h == Prop(Get(data, "dimensions"), "hash").s
    ensures !Get(data, "hash").Str? && !Prop(Get(data, "dimensions"), "hash").Str? && b.location.Some? ==>
              h == b.location.value.hash
    ensures !Get(data, "hash").Str? && !Prop(Get(data, "dimensions"), "hash").Str? && b.location.None? ==> h == ""
  {
    var own := Get(data, "hash");
    var dims := Get(data, "dimensions");
    if own.Str? then own.s
    else if Truthy(dims) && Prop(dims, "hash").Str? then Prop(dims, "hash").s
    else if b.location.Some? then b.location.value.hash
    else ""
  }

  const InternalDomainsKey: string := "VUE_APP_RUM_INTERNAL_EMAIL_DOMAINS"
  const DefaultInternalDomainList: string := "polyv.net,polyv.com"

  /** `transformLogData`. */
  function TransformLogData(c: AdapterConfig, data: Record, amb: Ambient): (r: LogRecord)
    ensures r.time == amb.nowMs / 1000 && r.clientTimestamp == amb.nowMs
    ensures IsFirstTruthy([Get(data, "eventType"), Get(data, "type"), Str("unknown")], r.eventType)
    ensures IsFirstTruthy([Get(data, "category"), Str("general")], r.category)
    ensures IsFirstTruthy([Get(data, "level"), Str("info")], r.level)
    ensures r.source == c.source && r.appName == c.appName && r.environment == c.environment
    ensures r.sessionId == c.sessionId
    ensures r.userName.Some? <==> Truthy(Get(data, "userName"))
    ensures r.userName.Some? ==> r.userName.value == Get(data, "userName")
    ensures r.isInternalUser <==> InternalEmail(Get(data, "userEmail"), GetEnv(amb.env, InternalDomainsKey, DefaultInternalDomainList))
    ensures Json.ParseDetailJson(r.detailJson) == Some(DetailHash(data, amb.browser))
  {
    var b := amb.browser;
    var configured := GetEnv(amb.env, InternalDomainsKey, DefaultInternalDomainList);
    IsInternalUserMeaning(Get(data, "userEmail"), configured);
    Json.DetailJsonRoundTrip(DetailHash(data, b));
    var category := FirstTruthy([Get(data, "category"), Str("general")]);
    var level := FirstTruthy([Get(data, "level"), Str("info")]);
    LogRecord(
      amb.nowMs / 1000,
      c.source,
      EventTypeOf(data),
      category,
      level,
      amb.nowMs,
      c.appName,
      c.environment,
      c.sessionId,
      if b.location.Some? then b.location.value.href else "",
      if b.document.Some? then Some(b.document.value.title) else None,
      if b.location.Some? then b.location.value.pathname else "",
      ReferrerOf(data, b),
      if b.navigator.Some? then Some(b.navigator.value.userAgent) else None,
      if b.navigator.Some? then Some(b.navigator.value.language) else None,
      UserIdOf(c, data),
      if Truthy(Get(data, "userName")) then Some(Get(data, "userName")) else None,
      InternalFlag(Get(data, "userEmail"), configured),
      TypeFields(EventTypeOf(data), data),
      Json.DetailJson(DetailHash(data, b)))
  }

  /** The record's page columns follow the browser globals: without a
      location the URL and path are empty, without a document there is no
      title, and the referrer is the event's own when it gives one. */
  lemma TransformPageColumns(c: AdapterConfig, data: Record, amb: Ambient)
    ensures var r := TransformLogData(c, data, amb);
            && (amb.browser.location.None? ==> r.pageUrl == "" && r.pagePath == "")
            && (amb.browser.document.None? ==> r.pageTitle.None?)
            && r.referrer == ReferrerOf(data, amb.browser)
  {
  }

  /** The record's user id: the event's id wins over the configured one, and
      the column is written only when one of them is truthy. */
  lemma TransformUserColumns(c: AdapterConfig, data: Record, amb: Ambient)
    ensures var r := TransformLogData(c, data, amb);
            && (r.userId.Some? <==> Truthy(Get(data, "userId")) || Truthy(c.userId))
            && (Truthy(Get(data, "userId")) ==> r.userId == Some(Get(data, "userId")))
            && (!Truthy(Get(data, "userId")) && Truthy(c.userId) ==> r.userId == Some(c.userId))
  {
  }

  /** A per-type column appears only in records of its event type: error
      columns for `error`, API columns for `xhr`/`fetch`, click columns for
      `click`. */
  lemma TransformTypeColumns(c: AdapterConfig, data: Record, amb: Ambient, k: Column)
    requires k in TransformLogData(c, data, amb).typeFields
    ensures GroupOf(k) == ErrorInfo ==> TransformLogData(c, data, amb).eventType == Str("error")
    ensures GroupOf(k) == ApiInfo ==> TransformLogData(c, data, amb).eventType in {Str("xhr"), Str("fetch")}
    ensures GroupOf(k) == ClickInfo ==> TransformLogData(c, data, amb).eventType == Str("click")
  {
  }

  /** The click column `click_biz_id` of a click record is the event's
      `clickBizId`, or its `bizId` when that is falsy. */
  lemma ClickBizIdColumn(c: AdapterConfig, data: Record, amb: Ambient)
    requires EventTypeOf(data) == Str("click")
    ensures var t := TransformLogData(c, data, amb).typeFields;
            && (ClickBizId in t <==> Truthy(Get(data, "clickBizId")) || Truthy(Get(data, "bizId")))
            && (Truthy(Get(data, "clickBizId")) ==> t[ClickBizId] == Get(data, "clickBizId"))
            && (!Truthy(Get(data, "clickBizId")) && Truthy(Get(data, "bizId")) ==> t[ClickBizId] == Get(data, "bizId"))
  {
    TypeFieldValue(EventTypeOf(data), data, 0);
  }

  /** The API status of an `xhr` or `fetch` record is written whenever the
      event has one, converted with `Number()`. */
  lemma ApiStatusColumn(c: AdapterConfig, data: Record, amb: Ambient)
    requires EventTypeOf(data) == Str("xhr") || EventTypeOf(data) == Str("fetch")
    ensures var t := TransformLogData(c, data, amb).typeFields;
            && (ApiStatus in t <==> !Get(data, "status").Undefined?)
            && (ApiStatus in t ==> t[ApiStatus] == ToNumber(Get(data, "status")))
  {
    TypeFieldValue(EventTypeOf(data), data, 2);
  }

  /** The error message of an `error` record is the event's message passed
      through `String()`, written when the message is truthy. */
  lemma ErrorMessageColumn(c: AdapterConfig, data: Record, amb: Ambient)
    requires EventTypeOf(data) == Str("error")
    ensures var t := TransformLogData(c, data, amb).typeFields;
            && (ErrorMessage in t <==> Truthy(Get(data, "message")))
            && (ErrorMessage in t ==> t[ErrorMessage] == Str(ToJsString(Get(data, "message"))))
  {
    TypeFieldValue(EventTypeOf(data), data, 0);
  }

  function OptStr(o: Option<string>): Value {
    if o.Some? then Str(o.value) else Undefined
  }

  /** The record as the plain object handed to the tracker. */
  function Wire(r: LogRecord): Record {
    var base := map[
      "__time__" := Num(r.time), "__source__" := Str(r.source), "event_type" := r.eventType,
      "category" := r.category, "level" := r.level, "client_timestamp" := Num(r.clientTimestamp),
      "app_name" := Str(r.appName), "environment" := Str(r.environment), "session_id" := Str(r.sessionId),
      "page_url" := Str(r.pageUrl), "page_title" := OptStr(r.pageTitle), "page_path" := Str(r.pagePath),
      "referrer" := OptStr(r.referrer), "user_agent" := OptStr(r.userAgent), "language" := OptStr(r.language),
      "is_internal_user" := Bool(r.isInternalUser), "detail_json" := Str(r.detailJson)];
    var withId := if r.userId.Some? then base["user_id" := r.userId.value] else base;
    var withName := if r.userName.Some? then withId["user_name" := r.userName.value] else withId;
    withName + (map k | k in r.typeFields :: ColumnName(k) := r.typeFields[k])
  }

  // ---------------------------------------------------------------------
  // beforeSend.

  const SensitivePatterns: seq<string> := ["password", "token", "secret", "key", "auth", "credential"]
  const Filtered: string := "[FILTERED]"
  const MaxStringLength: nat := 500
  const MaxLogSize: nat := 1024 * 1024

  /** The key matches one of the case-insensitive sensitive patterns. */
  predicate IsSensitiveKey(k: string) {
    exists i :: 0 <= i < |SensitivePatterns| && Contains(Lower(k), SensitivePatterns[i])
  }

  /** A string value after masking and truncation. */
  function FilterString(k: string, s: string): (t: string)
    ensures IsSensitiveKey(k) ==> t == Filtered
    ensures !IsSensitiveKey(k) && |s| <= MaxStringLength ==> t == s
    ensures !IsSensitiveKey(k) && |s| > MaxStringLength ==> t == s[..MaxStringLength] + "..."
    ensures |t| <= MaxStringLength + 3
  {
    var masked := if IsSensitiveKey(k) then Filtered else s;
    if |masked| > MaxStringLength then masked[..MaxStringLength] + "..." else masked
  }

  /** `filterSensitiveData`: every string under a sensitive key is masked,
      every other long string truncated; other values are kept. */
  function FilterSensitiveData(data: Record): (r: Record)
    ensures r.Keys == data.Keys
    ensures forall k :: k in data && !data[k].Str? ==> r[k] == data[k]
    ensures forall k :: k in data && data[k].Str? ==> r[k] == Str(FilterString(k, data[k].s))
  {
    map k | k in data :: if data[k].Str? then Str(FilterString(k, data[k].s)) else data[k]
  }

  /** After filtering no string is longer than 503 characters and no
      sensitive key holds anything but the mask or a non-string. */
  lemma FilterBounds(data: Record, k: string)
    requires k in data && data[k].Str?
    ensures FilterSensitiveData(data)[k].Str?
    ensures |FilterSensitiveData(data)[k].s| <= MaxStringLength + 3
    ensures IsSensitiveKey(k) ==> FilterSensitiveData(data)[k] == Str(Filtered)
  {
  }

  /** Filtering twice is filtering once. */
  lemma {:induction false} FilterIdempotent(data: Record)
    ensures FilterSensitiveData(FilterSensitiveData(data)) == FilterSensitiveData(data)
  {
    var once := FilterSensitiveData(data);
    var twice := FilterSensitiveData(once);
    forall k | k in data
      ensures twice[k] == once[k]
    {
      if data[k].Str? {
        var t := FilterString(k, data[k].s);
        if !IsSensitiveKey(k) && |data[k].s| > MaxStringLength {
          assert t[..MaxStringLength] == data[k].s[..MaxStringLength];
        }
        assert FilterString(k, t) == t;
      }
    }
  }

  /** What the tracker is told: skip the log, or send the filtered one. */
  datatype BeforeSend = Skip | Send(record: Record)

  /** `handleBeforeSend`; `serializedLength` is the length of the record's
      JSON text. */
  function HandleBeforeSend(r: Record, serializedLength: nat): (d: BeforeSend)
    ensures d.Skip? <==> serializedLength > MaxLogSize
    ensures d.Send? ==> d.record.Keys == r.Keys
    ensures d.Send? ==> d.record == FilterSensitiveData(r)
    ensures d.Send? ==> forall k :: k in r && r[k].Str? && IsSensitiveKey(k) ==> d.record[k] == Str(Filtered)
    ensures d.Send? ==> forall k :: k in r && !r[k].Str? ==> d.record[k] == r[k]
    ensures d.Send? ==> forall k :: k in r && r[k].Str? ==> d.record[k].Str? && |d.record[k].s| <= MaxStringLength + 3
  {
    if serializedLength > MaxLogSize then Skip else Send(FilterSensitiveData(r))
  }

  /** A record the hook lets through passes it again unchanged: the filter
      is idempotent, and its output is what the tracker sends. */
  lemma BeforeSendStable(r: Record, n: nat, m: nat)
    requires n <= MaxLogSize && m <= MaxLogSize
    ensures HandleBeforeSend(HandleBeforeSend(r, n).record, m) == HandleBeforeSend(r, n)
  {
    FilterIdempotent(r);
  }
}

=== FILE: mito_adapter.dfy ===
/** The orchestrator (src/core/MitoSLSAdapter.ts): it receives events from
    the capture library, the router, the store and the application,
    records breadcrumbs, samples, enriches and flattens each event, and
    hands it to the SLS transport. The capture library itself is outside
    the model; what remains of it is its breadcrumb trail. */
module MitoAdapter {
  import opened Wrappers
  import opened Strings
  import opened JsValue
  import opened Host
  import opened RumConfig
  import opened LogSchema
  import Sls = SlsAdapter

  /** Which of `add` and `push` the capture library's breadcrumb object
      offers; `add` is preferred when both exist. */
  datatype SinkKind = WithAdd | WithPush | WithoutMethods

  /** The capture library's breadcrumb trail. */
  datatype Trail = Trail(kind: SinkKind, crumbs: seq<Record>)

  /** The orchestrator. `settings` are config.ts's load-time settings,
      `mito` is the capture library instance (None before `init`), `sls`
      the transport (None before `init`). */
  datatype Orchestrator = Orchestrator(
    settings: Settings,
    store: Value,
    router: Value,
    sls: Option<Sls.Adapter>,
    mito: Option<Trail>,
    isInitialized: bool)

  /** The inputs one event reads: the sampling draw, the clock, browser and
      session readings of the enrichment, those of the transport, and how
      the transport's send ends. */
  datatype Tick = Tick(draw: real, transform: TransformInputs, amb: Ambient, outcome: Sls.TransportResult)

  /** An orchestrator after an operation, and the records the transport
      handed to the tracker's `send` during it. */
  datatype Outcome = Outcome(state: Orchestrator, sent: seq<LogRecord>)

  /** The constructor: nothing is attached yet. */
  function New(settings: Settings): (m: Orchestrator)
    ensures m.sls.None? && m.mito.None? && !m.isInitialized
  {
    Orchestrator(settings, Undefined, Undefined, None, None, false)
  }

  // ---------------------------------------------------------------------
  // Tables.

  /** `getEventCategory`: errors, performance and user interactions have
      their own category; everything else is general. */
  function EventCategory(dataType: Value): (c: string)
    ensures c == "user" <==> dataType == Str("click") || dataType == Str("route")
    ensures c == "error" <==> dataType == Str("error")
    ensures c == "performance" <==> dataType == Str("performance")
    ensures c in {"error", "performance", "user", "general"}
  {
    if dataType == Str("error") then "error"
    else if dataType == Str("performance") then "performance"
    else if dataType == Str("click") || dataType == Str("route") then "user"
    else "general"
  }

  /** `getEventLevel`: errors are errors, XHR events warnings, the rest
      informational. */
  function EventLevel(dataType: Value): (l: string)
    ensures l == "error" <==> dataType == Str("error")
    ensures l == "warn" <==> dataType == Str("xhr")
    ensures l in {"error", "warn", "info"}
  {
    if dataType == Str("error") then "error"
    else if dataType == Str("xhr") then "warn"
    else "info"
  }

  /** The two tables agree on errors, and only on errors. */
  lemma ErrorLevelMatchesCategory(dataType: Value)
    ensures EventLevel(dataType) == "error" <==> EventCategory(dataType) == "error"
    ensures EventCategory(dataType) == "user" ==> EventLevel(dataType) == "info"
  {
  }

  const IgnoredMutations: seq<string> := ["SET_LOADING", "SET_CURRENT_PAGE", "UPDATE_MOUSE_POSITION"]

  /** `shouldTrackMutation`: every mutation but the three noisy ones. */
  predicate ShouldTrackMutation(mutation: Value) {
    !(Prop(mutation, "type").Str? && Prop(mutation, "type").s in IgnoredMutations)
  }

  /** Exactly the three ignored mutation types are not tracked. */
  lemma ShouldTrackMutationMeaning(mutation: Value)
    ensures !ShouldTrackMutation(mutation) <==>
              Prop(mutation, "type") in {Str("SET_LOADING"), Str("SET_CURRENT_PAGE"), Str("UPDATE_MOUSE_POSITION")}
  {
  }

  /** What `getUserInfoFromStore` returns. */
  datatype StoreUser = StoreUser(userId: Value, userName: Value, accountId: Value)

  /** `getUserInfoFromStore`: the store's `state.user` (or an empty
      object), with `userId || id` and `userName || name`. */
  function GetUserInfoFromStore(store: Value): (u: StoreUser)
    ensures var user := Or(Prop(Prop(store, "state"), "user"), Obj(map[]));
            && IsFirstTruthy([Prop(user, "userId"), Prop(user, "id")], u.userId)
            && IsFirstTruthy([Prop(user, "userName"), Prop(user, "name")], u.userName)
            && u.accountId == Prop(user, "accountId")
    ensures !Truthy(Prop(Prop(store, "state"), "user")) ==> u == StoreUser(Undefined, Undefined, Undefined)
  {
    var user := Or(Prop(Prop(store, "state"), "user"), Obj(map[]));
    StoreUser(
      FirstTruthy([Prop(user, "userId"), Prop(user, "id")]),
      FirstTruthy([Prop(user, "userName"), Prop(user, "name")]),
      Prop(user, "accountId"))
  }

  /** `getUserInfoFromStore` and the configuration's `getUserInfo` read
      the same user module: when it has no nested `userInfo` and the store
      has no `user/userId` getter, they agree on the account and on an id
      or name the module states. */
  lemma StoreReadersAgree(store: Value)
    requires Truthy(store) && Truthy(Prop(store, "state")) && Truthy(Prop(Prop(store, "state"), "user"))
    requires !Truthy(Prop(Prop(Prop(store, "state"), "user"), "userInfo"))
    ensures var u, s := GetUserInfo(store).value, GetUserInfoFromStore(store);
            var user := Prop(Prop(store, "state"), "user");
            && u.accountId == s.accountId
            && (Truthy(Prop(user, "userId")) ==> u.userId == s.userId == Prop(user, "userId"))
            && (Truthy(Prop(user, "userName")) ==> u.userName == s.userName == Prop(user, "userName"))
  {
    var user := Prop(Prop(store, "state"), "user");
    assert UserModule(store) == user;
    FirstTruthyIs([Prop(user, "userInfo"), user, Obj(map[])], 1);
  }

  // ---------------------------------------------------------------------
  // Flattening an envelope for the transport.

  const BaseLogKeys: set<string> := {"eventType", "category", "level"}

  /** The keys the spread of an optional object contributes. */
  function RawKeys(raw: Option<Record>): set<string> {
    if raw.Some? then raw.value.Keys else {}
  }

  /** `transformDataForSLSLog`: the event type, category and level first,
      then the spread of `event`, of `dimensions` and of `rawData`, each
      overriding what came before. */
  function TransformDataForSlsLog(e: Envelope): (r: Record)
    ensures r.Keys == BaseLogKeys + EventRecord(e.event).Keys + e.dimensions.Keys + RawKeys(e.rawData)
    ensures forall k :: k in RawKeys(e.rawData) ==> r[k] == e.rawData.value[k]
    ensures forall k :: k in e.dimensions && k !in RawKeys(e.rawData) ==> r[k] == e.dimensions[k]
    ensures forall k :: k in EventRecord(e.event) && k !in e.dimensions && k !in RawKeys(e.rawData) ==>
              r[k] == EventRecord(e.event)[k]
    ensures "eventType" !in e.dimensions && "eventType" !in RawKeys(e.rawData) ==>
              IsFirstTruthy([e.dataType, e.event.eventType, Str("unknown")], r["eventType"])
    ensures "category" !in e.dimensions && "category" !in RawKeys(e.rawData) ==>
              r["category"] == Str(EventCategory(e.dataType))
    ensures "level" !in e.dimensions && "level" !in RawKeys(e.rawData) ==>
              r["level"] == Str(EventLevel(e.dataType))
  {
    var base := map[
      "eventType" := FirstTruthy([e.dataType, e.event.eventType, Str("unknown")]),
      "category" := Str(EventCategory(e.dataType)),
      "level" := Str(EventLevel(e.dataType))];
    assert base.Keys == BaseLogKeys;
    var withEvent := base + EventRecord(e.event);
    var withDims := withEvent + e.dimensions;
    var r := if e.rawData.Some? then withDims + e.rawData.value else withDims;
    assert "eventType" !in e.dimensions && "eventType" !in RawKeys(e.rawData) ==>
             r["eventType"] == base["eventType"];
    r
  }

  /** Every envelope `transformDataForSLS` builds has a truthy `dataType`
      (`data.type || 'unknown'`). */
  lemma EnvelopeDataTypeTruthy(data: Record, store: Value, vue: Value, s: Settings, inp: TransformInputs)
    requires UserDimensions(GetUserInfo(store)).Some?
    ensures TransformDataForSls(data, store, vue, s, inp).Some?
    ensures Truthy(TransformDataForSls(data, store, vue, s, inp).value.dataType)
  {
    assert Truthy(Str("unknown"));
  }

  /** With a truthy `dataType` the `event.type` fallback of the flattened
      `eventType` never applies: unless a dimension or the raw event
      supplies its own, the flattened event type is the envelope's data
      type. */
  lemma FlattenedEventType(e: Envelope)
    requires Truthy(e.dataType)
    requires "eventType" !in e.dimensions && "eventType" !in RawKeys(e.rawData)
    ensures TransformDataForSlsLog(e)["eventType"] == e.dataType
  {
  }

  // ---------------------------------------------------------------------
  // Breadcrumbs.

  /** `addBreadcrumb`: appended through `add` or `push` when the capture
      library offers either; dropped otherwise. */
  function AddBreadcrumb(m: Orchestrator, payload: Record): (r: Orchestrator)
    ensures m.mito.None? || m.mito.value.kind == WithoutMethods ==> r == m
    ensures m.mito.Some? && m.mito.value.kind != WithoutMethods ==>
              r == m.(mito := Some(m.mito.value.(crumbs := m.mito.value.crumbs + [payload])))
    ensures CrumbCount(r) == CrumbCount(m) + (if m.mito.Some? && m.mito.value.kind != WithoutMethods then 1 else 0)
    ensures r.sls == m.sls && r.settings == m.settings && r.store == m.store && r.isInitialized == m.isInitialized
  {
    match m.mito
    case None => m
    case Some(t) =>
      if t.kind == WithoutMethods then m else m.(mito := Some(t.(crumbs := t.crumbs + [payload])))
  }

  /** Breadcrumbs added one after another, in order. */
  function AddBreadcrumbs(m: Orchestrator, payloads: seq<Record>): (r: Orchestrator)
    decreases |payloads|
  {
    if |payloads| == 0 then m else AddBreadcrumbs(AddBreadcrumb(m, payloads[0]), payloads[1..])
  }

  /** With a capture library that records breadcrumbs, a run of
      `addBreadcrumb` calls appends every payload in order and touches
      nothing else; without one, the orchestrator stays as it was. */
  lemma {:induction false} BreadcrumbsAccumulate(m: Orchestrator, payloads: seq<Record>)
    ensures m.mito.None? || m.mito.value.kind == WithoutMethods ==> AddBreadcrumbs(m, payloads) == m
    ensures m.mito.Some? && m.mito.value.kind != WithoutMethods ==>
              AddBreadcrumbs(m, payloads) == m.(mito := Some(m.mito.value.(crumbs := m.mito.value.crumbs + payloads)))
    decreases |payloads|
  {
    if |payloads| == 0 {
      if m.mito.Some? {
        assert m.mito.value.crumbs + payloads == m.mito.value.crumbs;
      }
    } else {
      var next := AddBreadcrumb(m, payloads[0]);
      BreadcrumbsAccumulate(next, payloads[1..]);
      assert AddBreadcrumbs(m, payloads) == AddBreadcrumbs(next, payloads[1..]);
      if m.mito.Some? && m.mito.value.kind != WithoutMethods {
        var t := m.mito.value;
        assert next == m.(mito := Some(t.(crumbs := t.crumbs + [payloads[0]])));
        assert t.crumbs + [payloads[0]] + payloads[1..] == t.crumbs + payloads;
      }
    }
  }

  /** The number of breadcrumbs recorded so far. */
  function CrumbCount(m: Orchestrator): nat {
    if m.mito.Some? then |m.mito.value.crumbs| else 0
  }

  // ---------------------------------------------------------------------
  // The forwarding path.

  /** `sendToSLS`: without a transport the envelope is only logged; with
      one it is flattened and sent. */
  function SendToSls(m: Orchestrator, e: Envelope, tick: Tick): (o: Outcome)
    ensures m.sls.None? ==> o == Outcome(m, [])
    ensures m.sls.Some? ==>
              var step := Sls.SendLog(m.sls.value, TransformDataForSlsLog(e), tick.amb, tick.outcome);
              o == Outcome(m.(sls := Some(step.adapter)), step.sent)
    ensures |o.sent| <= 1
    ensures m.sls.Some? ==>
              && o.state.sls.Some?
              && o.state.sls.value.lifecycle == m.sls.value.lifecycle
              && o.state.sls.value.config == m.sls.value.config
  {
    match m.sls
    case None => Outcome(m, [])
    case Some(a) =>
      var step := Sls.SendLog(a, TransformDataForSlsLog(e), tick.amb, tick.outcome);
      Outcome(m.(sls := Some(step.adapter)), step.sent)
  }

  /** Sample, enrich and forward one event: the common tail of every
      handler. A failing enrichment is caught and drops the event. The
      enrichment is given the store and router only, never the Vue
      constructor, so its Vue version always reads as unknown. */
  function Report(m: Orchestrator, data: Record, tick: Tick): (o: Outcome)
    ensures !ShouldReport(m.settings.rates, data, tick.draw) ==> o == Outcome(m, [])
    ensures TransformDataForSls(data, m.store, Undefined, m.settings, tick.transform).None? ==> o == Outcome(m, [])
    ensures ShouldReport(m.settings.rates, data, tick.draw) && TransformDataForSls(data, m.store, Undefined, m.settings, tick.transform).Some? ==>
              o == SendToSls(m, TransformDataForSls(data, m.store, Undefined, m.settings, tick.transform).value, tick)
    ensures o.state.settings == m.settings && o.state.store == m.store && o.state.mito == m.mito
    ensures o.state.isInitialized == m.isInitialized && o.state.sls.Some? == m.sls.Some?
    ensures m.sls.Some? ==>
              && o.state.sls.Some?
              && o.state.sls.value.lifecycle == m.sls.value.lifecycle
              && o.state.sls.value.config == m.sls.value.config
    ensures |o.sent| <= 1
  {
    if !ShouldReport(m.settings.rates, data, tick.draw) then Outcome(m, [])
    else match TransformDataForSls(data, m.store, Undefined, m.settings, tick.transform)
      case None => Outcome(m, [])
      case Some(e) => SendToSls(m, e, tick)
  }

  /** What `handleDataReport` returns to the capture library, and what it
      did. */
  datatype Reported = Reported(result: bool, outcome: Outcome)

  /** `handleDataReport`: the event takes the forwarding path, and the
      capture library is always told not to report it itself. */
  function HandleDataReport(m: Orchestrator, data: Record, tick: Tick): (r: Reported)
    ensures !r.result
    ensures r.outcome == Report(m, data, tick)
  {
    Reported(false, Report(m, data, tick))
  }

  /** A forwarded event is delivered as exactly one record: the transport's
      rendering of the flattened envelope. */
  lemma ForwardedEndToEnd(m: Orchestrator, data: Record, tick: Tick)
    requires ShouldReport(m.settings.rates, data, tick.draw)
    requires UserDimensions(GetUserInfo(m.store)).Some?
    requires m.sls.Some? && Sls.CheckReady(m.sls.value) && tick.outcome.Delivered?
    ensures var e := TransformDataForSls(data, m.store, Undefined, m.settings, tick.transform).value;
            HandleDataReport(m, data, tick).outcome.sent
              == [TransformLogData(m.sls.value.config, TransformDataForSlsLog(e), tick.amb)]
  {
  }

  /** A failed delivery leaves the flattened event in the transport's retry
      queue. */
  lemma ForwardFailureQueues(m: Orchestrator, data: Record, tick: Tick)
    requires ShouldReport(m.settings.rates, data, tick.draw)
    requires UserDimensions(GetUserInfo(m.store)).Some?
    requires m.sls.Some? && Sls.CheckReady(m.sls.value) && tick.outcome.Failed?
    ensures var e := TransformDataForSls(data, m.store, Undefined, m.settings, tick.transform).value;
            var o := Report(m, data, tick);
            && o.sent == []
            && o.state.sls.Some?
            && o.state.sls.value.retryQueue
               == m.sls.value.retryQueue + [Sls.RetryItem(TransformDataForSlsLog(e), tick.outcome.message, tick.amb.nowMs, 0)]
  {
  }

  /** A transport that is not ready makes the whole path silent. */
  lemma NotReadySendsNothing(m: Orchestrator, data: Record, tick: Tick)
    requires m.sls.None? || !Sls.CheckReady(m.sls.value)
    ensures Report(m, data, tick) == Outcome(m, [])
  {
    if m.sls.Some? && ShouldReport(m.settings.rates, data, tick.draw) {
      var a := m.sls.value;
      assert m.(sls := Some(a)) == m;
    }
  }

  // ---------------------------------------------------------------------
  // The handlers.

  /** `{ path: r.fullPath, name, params, query }` of a route. */
  function RouteSummary(route: Value): Record {
    map[
      "path" := Prop(route, "fullPath"),
      "name" := Prop(route, "name"),
      "params" := Prop(route, "params"),
      "query" := Prop(route, "query")]
  }

  /** The event `handleRouteChange` builds. */
  function RouteData(to: Value, from: Value, nowMs: nat): (r: Record)
    ensures Get(r, "type") == Str("route")
    ensures Prop(Get(r, "from"), "path") == Prop(from, "fullPath")
    ensures Prop(Get(r, "to"), "path") == Prop(to, "fullPath")
  {
    map[
      "type" := Str("route"),
      "from" := Obj(RouteSummary(from)),
      "to" := Obj(RouteSummary(to)),
      "timestamp" := Num(nowMs)]
  }

  /** Reading a property of `undefined` or `null` throws. */
  predicate Nullish(v: Value) {
    v.Undefined? || v.Null?
  }

  /** `handleRouteChange`: a navigation breadcrumb, then the route event
      takes the forwarding path. A missing route throws before anything
      happens, and the error is caught. */
  function HandleRouteChange(m: Orchestrator, to: Value, from: Value, tick: Tick): (o: Outcome)
    ensures Nullish(to) || Nullish(from) ==> o == Outcome(m, [])
    ensures !Nullish(to) && !Nullish(from) ==>
              o == Report(AddBreadcrumb(m, RouteCrumb(to, from, tick.amb.nowMs)), RouteData(to, from, tick.amb.nowMs), tick)
  {
    if Nullish(to) || Nullish(from) then Outcome(m, [])
    else
      var data := RouteData(to, from, tick.amb.nowMs);
      Report(AddBreadcrumb(m, RouteCrumb(to, from, tick.amb.nowMs)), data, tick)
  }

  function RouteCrumb(to: Value, from: Value, nowMs: nat): Record {
    map[
      "type" := Str("route"),
      "message" := Str("Route: " + ToJsString(Prop(from, "fullPath")) + " -> " + ToJsString(Prop(to, "fullPath"))),
      "category" := Str("navigation"),
      "data" := Obj(RouteData(to, from, nowMs))]
  }

  /** The event `handleError` builds from a thrown value. */
  function ErrorData(error: Value, nowMs: nat): (r: Record)
    ensures Get(r, "type") == Str("error")
    ensures Truthy(Prop(error, "message")) ==> Get(r, "message") == Prop(error, "message")
    ensures !Truthy(Prop(error, "message")) ==> Get(r, "message") == Str("Unknown error")
    ensures Truthy(Get(r, "message"))
  {
    map[
      "type" := Str("error"),
      "message" := Or(Prop(error, "message"), Str("Unknown error")),
      "stack" := Prop(error, "stack"),
      "name" := Prop(error, "name"),
      "timestamp" := Num(nowMs)]
  }

  function ErrorCrumb(data: Record): Record {
    map[
      "type" := Str("error"),
      "message" := Get(data, "message"),
      "category" := Str("error"),
      "data" := Obj(data)]
  }

  /** `handleError`: an error breadcrumb, then the error event takes the
      forwarding path. */
  function HandleError(m: Orchestrator, error: Value, tick: Tick): (o: Outcome)
    ensures o == Report(AddBreadcrumb(m, ErrorCrumb(ErrorData(error, tick.amb.nowMs))), ErrorData(error, tick.amb.nowMs), tick)
  {
    var data := ErrorData(error, tick.amb.nowMs);
    Report(AddBreadcrumb(m, ErrorCrumb(data)), data, tick)
  }

  /** The event `trackEvent` builds: a custom event stamped with the time,
      whose fields the caller's data overrides. */
  function CustomData(eventData: Record, nowMs: nat): (r: Record)
    ensures r.Keys == {"type", "timestamp"} + eventData.Keys
    ensures "type" !in eventData ==> r["type"] == Str("custom")
    ensures forall k :: k in eventData ==> r[k] == eventData[k]
  {
    map["type" := Str("custom"), "timestamp" := Num(nowMs)] + eventData
  }

  function CustomCrumb(eventData: Record, data: Record): Record {
    map[
      "type" := Str("custom"),
      "message" := Str("Custom Event: " + ToJsString(Or(Get(eventData, "name"), Str("unknown")))),
      "category" := Str("custom"),
      "data" := Obj(data)]
  }

  /** `trackEvent`: a custom breadcrumb, then the custom event takes the
      forwarding path. */
  function TrackEvent(m: Orchestrator, eventData: Record, tick: Tick): (o: Outcome)
    ensures o == Report(AddBreadcrumb(m, CustomCrumb(eventData, CustomData(eventData, tick.amb.nowMs))),
                        CustomData(eventData, tick.amb.nowMs), tick)
  {
    var data := CustomData(eventData, tick.amb.nowMs);
    Report(AddBreadcrumb(m, CustomCrumb(eventData, data)), data, tick)
  }

  /** Each handler leaves exactly one breadcrumb when the capture library
      keeps them, and delivers at most one record. */
  lemma TrackEventOneCrumb(m: Orchestrator, eventData: Record, tick: Tick)
    requires m.mito.Some? && m.mito.value.kind != WithoutMethods
    ensures CrumbCount(TrackEvent(m, eventData, tick).state) == CrumbCount(m) + 1
    ensures |TrackEvent(m, eventData, tick).sent| <= 1
  {
  }

  lemma HandleErrorOneCrumb(m: Orchestrator, error: Value, tick: Tick)
    requires m.mito.Some? && m.mito.value.kind != WithoutMethods
    ensures CrumbCount(HandleError(m, error, tick).state) == CrumbCount(m) + 1
    ensures |HandleError(m, error, tick).sent| <= 1
  {
  }

  lemma RouteChangeOneCrumb(m: Orchestrator, to: Value, from: Value, tick: Tick)
    requires m.mito.Some? && m.mito.value.kind != WithoutMethods
    requires !Nullish(to) && !Nullish(from)
    ensures CrumbCount(HandleRouteChange(m, to, from, tick).state) == CrumbCount(m) + 1
    ensures |HandleRouteChange(m, to, from, tick).sent| <= 1
  {
  }

  /** Custom events, errors and routes are sampled at rate 1 by default, so
      with a ready transport and a successful send each one is delivered. */
  lemma TrackedEventDelivered(m: Orchestrator, eventData: Record, tick: Tick)
    requires m.settings.rates == DefaultSampleRates(m.settings.isProduction)
    requires "type" !in eventData
    requires UserDimensions(GetUserInfo(m.store)).Some?
    requires m.sls.Some? && Sls.CheckReady(m.sls.value) && tick.outcome.Delivered?
    ensures |TrackEvent(m, eventData, tick).sent| == 1
  {
    var data := CustomData(eventData, tick.amb.nowMs);
    assert Get(data, "type") == Str("custom");
    assert RateFor(m.settings.rates, data) == 1.0;
  }

  /** The breadcrumb a tracked store mutation leaves. */
  function MutationCrumb(mutation: Value): Record {
    map[
      "type" := Str("vuex"),
      "message" := Str("Vuex: " + ToJsString(Prop(mutation, "type"))),
      "category" := Str("vuex"),
      "data" := Obj(map["mutation" := Prop(mutation, "type"), "payload" := Prop(mutation, "payload")])]
  }

  /** The store subscription: a breadcrumb for each tracked mutation while
      a store is attached. An `undefined` or `null` mutation throws when
      its `type` is read, and the subscriber's `catch` swallows the error,
      so it leaves nothing. A mutation never reaches the transport. */
  function OnMutation(m: Orchestrator, mutation: Value): (r: Orchestrator)
    ensures !Truthy(m.store) || Nullish(mutation) || !ShouldTrackMutation(mutation) ==> r == m
    ensures Truthy(m.store) && !Nullish(mutation) && ShouldTrackMutation(mutation) ==>
              r == AddBreadcrumb(m, MutationCrumb(mutation))
    ensures r.sls == m.sls
  {
    if Truthy(m.store) && !Nullish(mutation) && ShouldTrackMutation(mutation) then
      AddBreadcrumb(m, MutationCrumb(mutation))
    else m
  }

  /** `setUser`: the transport learns the user id only when it is
      truthy. */
  function SetUser(m: Orchestrator, userId: Value): (r: Orchestrator)
    ensures m.sls.Some? && Truthy(userId) ==> r == m.(sls := Some(Sls.SetUserId(m.sls.value, userId)))
    ensures m.sls.None? || !Truthy(userId) ==> r == m
  {
    if m.sls.Some? && Truthy(userId) then m.(sls := Some(Sls.SetUserId(m.sls.value, userId)))
    else m
  }

  /** After `setUser` with a truthy id, a record the transport builds for
      an event without its own user id carries the new id; a falsy id
      leaves the records as they were. */
  lemma SetUserReachesRecords(m: Orchestrator, userId: Value, data: Record, amb: Ambient)
    requires m.sls.Some? && !Truthy(Get(data, "userId"))
    ensures Truthy(userId) ==>
              TransformLogData(SetUser(m, userId).sls.value.config, data, amb).userId == Some(userId)
    ensures !Truthy(userId) ==>
              TransformLogData(SetUser(m, userId).sls.value.config, data, amb) == TransformLogData(m.sls.value.config, data, amb)
  {
  }

  // ---------------------------------------------------------------------
  // Initialisation and teardown.

  /** The transport options config.ts prepares (`slsConfig`): its
      endpoint from the environment, and enabled only when
      `VUE_APP_SLS_ENABLED` is `'true'`. */
  function SlsConfigOptions(env: Env): (o: AdapterOptions)
    ensures o.enabled == Some(GetEnv(env, "VUE_APP_SLS_ENABLED", "false") == "true")
    ensures o.environment.None? && o.sessionId.None? && o.userId == Undefined
  {
    AdapterOptions(
      Some(GetEnv(env, "VUE_APP_SLS_HOST", "")),
      Some(GetEnv(env, "VUE_APP_SLS_PROJECT", "")),
      Some(GetEnv(env, "VUE_APP_SLS_LOGSTORE", "")),
      Some(10),
      Some(10),
      Some("rum-monitor"),
      Some("web"),
      None,
      Some(GetEnv(env, "VUE_APP_RUM_DEBUG", "false") == "true"),
      Some(GetEnv(env, "VUE_APP_SLS_ENABLED", "false") == "true"),
      Undefined,
      None,
      Some(GetEnv(env, "VUE_APP_RUM_APP_NAME", "rum-app")),
      Some(GetEnv(env, "PACKAGE_VERSION", "1.0.0")),
      Some(3),
      Some(2000))
  }

  /** One option of `{ ...base, ...override }`: a given override wins. */
  function Prefer<T>(over: Option<T>, base: Option<T>): (r: Option<T>)
    ensures over.Some? ==> r == over
    ensures over.None? ==> r == base
  {
    if over.Some? then over else base
  }

  /** `r` is one option of `{ ...base, ...over }`: a given override wins,
      an omitted one keeps the base. */
  predicate Overrides<T(==)>(over: Option<T>, base: Option<T>, r: Option<T>) {
    if over.Some? then r == over else r == base
  }

  /** `{ ...base, ...override }` over transport options: a given override
      wins. */
  function MergeOptions(base: AdapterOptions, over: AdapterOptions): (r: AdapterOptions)
    ensures Overrides(over.host, base.host, r.host)
    ensures Overrides(over.project, base.project, r.project)
    ensures Overrides(over.logstore, base.logstore, r.logstore)
    ensures Overrides(over.time, base.time, r.time)
    ensures Overrides(over.count, base.count, r.count)
    ensures Overrides(over.topic, base.topic, r.topic)
    ensures Overrides(over.source, base.source, r.source)
    ensures Overrides(over.environment, base.environment, r.environment)
    ensures Overrides(over.debug, base.debug, r.debug)
    ensures Overrides(over.enabled, base.enabled, r.enabled)
    ensures over.userId.Undefined? ==> r.userId == base.userId
    ensures !over.userId.Undefined? ==> r.userId == over.userId
    ensures Overrides(over.sessionId, base.sessionId, r.sessionId)
    ensures Overrides(over.appName, base.appName, r.appName)
    ensures Overrides(over.appVersion, base.appVersion, r.appVersion)
    ensures Overrides(over.retryCount, base.retryCount, r.retryCount)
    ensures Overrides(over.retryInterval, base.retryInterval, r.retryInterval)
  {
    AdapterOptions(
      Prefer(over.host, base.host),
      Prefer(over.project, base.project),
      Prefer(over.logstore, base.logstore),
      Prefer(over.time, base.time),
      Prefer(over.count, base.count),
      Prefer(over.topic, base.topic),
      Prefer(over.source, base.source),
      Prefer(over.environment, base.environment),
      Prefer(over.debug, base.debug),
      Prefer(over.enabled, base.enabled),
      if over.userId.Undefined? then base.userId else over.userId,
      Prefer(over.sessionId, base.sessionId),
      Prefer(over.appName, base.appName),
      Prefer(over.appVersion, base.appVersion),
      Prefer(over.retryCount, base.retryCount),
      Prefer(over.retryInterval, base.retryInterval))
  }

  /** An empty override changes nothing, and merging into no options
      gives the override. */
  lemma MergeOptionsIdentity(o: AdapterOptions)
    ensures MergeOptions(o, NoOptions) == o
    ensures MergeOptions(NoOptions, o) == o
  {
  }

  /** Merging is associative: overriding in two steps is overriding once
      with the merged overrides. */
  lemma MergeOptionsAssociative(a: AdapterOptions, b: AdapterOptions, c: AdapterOptions)
    ensures MergeOptions(MergeOptions(a, b), c) == MergeOptions(a, MergeOptions(b, c))
  {
  }

  /** What `init` is given and what its foreign calls do: the store, router
      and Vue constructor of the context, the transport override, the
      session id the transport generates, whether the tracker constructor
      throws, and the breadcrumb methods of the capture library. */
  datatype InitContext = InitContext(
    store: Value,
    router: Value,
    vue: Value,
    override: AdapterOptions,
    generatedSessionId: string,
    trackerError: Option<string>,
    sink: SinkKind)

  /** `init`. A second call does nothing. Otherwise the transport is
      created and initialised; if that throws, the error is handled (and
      forwarded) and the orchestrator stays uninitialised with its
      half-built transport; if not, the capture library starts with an
      empty breadcrumb trail. */
  function Init(m: Orchestrator, ctx: InitContext, tick: Tick): (o: Outcome)
    ensures m.isInitialized ==> o == Outcome(m, [])
    ensures !m.isInitialized ==> o.state.sls.Some? && o.state.store == ctx.store
    ensures !m.isInitialized ==>
              o.state.sls.value.config == MakeConfig(MergeOptions(SlsConfigOptions(tick.amb.env), ctx.override), tick.amb.env, ctx.generatedSessionId)
    ensures !m.isInitialized && (ctx.trackerError.None? || !o.state.sls.value.config.enabled) ==>
              o.state.isInitialized && o.state.mito == Some(Trail(ctx.sink, []))
    ensures var created := Sls.New(MergeOptions(SlsConfigOptions(tick.amb.env), ctx.override), tick.amb.env, ctx.generatedSessionId);
            !m.isInitialized && !created.config.enabled ==>
              o == Outcome(m.(store := ctx.store, router := ctx.router, sls := Some(created),
                              mito := Some(Trail(ctx.sink, [])), isInitialized := true), [])
    ensures !m.isInitialized && ctx.trackerError.Some? && o.state.sls.value.config.enabled ==>
              !o.state.isInitialized && o.state.sls.value.lifecycle == Sls.Uninitialized
    ensures var created := Sls.New(MergeOptions(SlsConfigOptions(tick.amb.env), ctx.override), tick.amb.env, ctx.generatedSessionId);
            !m.isInitialized && ctx.trackerError.Some? && created.config.enabled ==>
              o == HandleError(m.(store := ctx.store, router := ctx.router, sls := Some(created)),
                               Obj(map["message" := Str(ctx.trackerError.value)]), tick)
  {
    if m.isInitialized then Outcome(m, [])
    else
      var created := Sls.New(MergeOptions(SlsConfigOptions(tick.amb.env), ctx.override), tick.amb.env, ctx.generatedSessionId);
      var attached := m.(store := ctx.store, router := ctx.router);
      var started := Sls.Init(created, tick.amb, ctx.trackerError, tick.outcome);
      if started.Threw? then
        HandleError(attached.(sls := Some(created)), Obj(map["message" := Str(started.message)]), tick)
      else
        Outcome(attached.(sls := Some(started.step.adapter), mito := Some(Trail(ctx.sink, [])), isInitialized := true),
                started.step.sent)
  }

  /** Unless enabled by `VUE_APP_SLS_ENABLED` or the override, the
      transport the orchestrator builds is disabled, and the forwarding
      path delivers nothing. */
  lemma DisabledByDefault(m: Orchestrator, ctx: InitContext, tick: Tick, data: Record, next: Tick)
    requires !m.isInitialized && ctx.override.enabled.None?
    requires GetEnv(tick.amb.env, "VUE_APP_SLS_ENABLED", "false") != "true"
    ensures var o := Init(m, ctx, tick);
            && o.sent == []
            && Report(o.state, data, next).sent == []
  {
    var created := Sls.New(MergeOptions(SlsConfigOptions(tick.amb.env), ctx.override), tick.amb.env, ctx.generatedSessionId);
    assert !created.config.enabled;
    var o := Init(m, ctx, tick);
    NotReadySendsNothing(o.state, data, next);
  }

  /** `destroy`: the transport is destroyed and the orchestrator is no
      longer initialised; the capture library instance and the transport
      object stay attached. */
  function Destroy(m: Orchestrator): (r: Orchestrator)
    ensures !r.isInitialized
    ensures r.sls.Some? <==> m.sls.Some?
    ensures r.sls.Some? ==> r.sls.value == Sls.Destroy(m.sls.value)
    ensures r.mito == m.mito && r.store == m.store
  {
    m.(sls := if m.sls.Some? then Some(Sls.Destroy(m.sls.value)) else None, isInitialized := false)
  }

  /** After `destroy` nothing is forwarded, yet `init` may be called again
      and then builds a new transport: the orchestrator, unlike the
      transport, can be restarted. */
  lemma RestartAfterDestroy(m: Orchestrator, data: Record, tick: Tick, ctx: InitContext, next: Tick)
    requires m.sls.Some?
    ensures Report(Destroy(m), data, tick) == Outcome(Destroy(m), [])
    ensures var o := Init(Destroy(m), ctx, next);
            && o.state.sls.Some?
            && o.state.sls.value.lifecycle != Sls.Destroyed
  {
    NotReadySendsNothing(Destroy(m), data, tick);
  }
}

=== FILE: rum_config.dfy ===
/** The sampling and enrichment stage (src/core/config.ts): whether an event
    is reported, and the envelope a raw event is turned into. */
module RumConfig {
  import opened Wrappers
  import opened Strings
  import opened JsValue
  import opened Host

  /** Sampling rate per event type. */
  type SampleRates = map<string, real>

  /** What config.ts derives from the environment when it is loaded. */
  datatype Settings = Settings(isProduction: bool, debug: bool, environment: string, rates: SampleRates)

  /** The configured rates: errors, routes and custom events always;
      clicks and XHR always outside production and at 10% / 50% in it. No
      other type (performance, fetch, system, ...) has a rate. */
  function DefaultSampleRates(isProduction: bool): (rates: SampleRates)
    ensures rates.Keys == {"error", "click", "route", "custom", "xhr"}
    ensures rates["error"] == 1.0 && rates["route"] == 1.0 && rates["custom"] == 1.0
    ensures rates["click"] == (if isProduction then 0.1 else 1.0)
    ensures rates["xhr"] == (if isProduction then 0.5 else 1.0)
  {
    map[
      "error" := 1.0,
      "click" := if isProduction then 0.1 else 1.0,
      "route" := 1.0,
      "custom" := 1.0,
      "xhr" := if isProduction then 0.5 else 1.0]
  }

  function SettingsFrom(env: Env): (s: Settings)
    ensures s.isProduction <==> "NODE_ENV" in env && env["NODE_ENV"] == "production"
    ensures s.debug <==> "VUE_APP_RUM_DEBUG" in env && env["VUE_APP_RUM_DEBUG"] == "true"
    ensures "NODE_ENV" in env && env["NODE_ENV"] != "" ==> s.environment == env["NODE_ENV"]
    ensures !("NODE_ENV" in env && env["NODE_ENV"] != "") ==> s.environment == "development"
    ensures s.rates == DefaultSampleRates(s.isProduction)
  {
    var isProduction := GetEnv(env, "NODE_ENV", "") == "production";
    Settings(
      isProduction,
      GetEnv(env, "VUE_APP_RUM_DEBUG", "false") == "true",
      GetEnv(env, "NODE_ENV", "development"),
      DefaultSampleRates(isProduction))
  }

  /** `sampleRate[data.type] || 0`: the rate of the event's type, 0 when the
      type has no rate (or is not a string naming one). */
  function RateFor(rates: SampleRates, data: Record): real {
    var t := Get(data, "type");
    if t.Str? && t.s in rates then rates[t.s] else 0.0
  }

  /** Sampling decision with the uniform draw `draw` (`Math.random()`). */
  function ShouldReport(rates: SampleRates, data: Record, draw: real): (r: bool)
    ensures RateFor(rates, data) == 0.0 ==> !r
    ensures RateFor(rates, data) == 1.0 ==> r
    ensures 0.0 <= draw < 1.0 && 0.0 <= RateFor(rates, data) <= 1.0 ==>
              (r <==> draw < RateFor(rates, data))
  {
    var rate := RateFor(rates, data);
    if rate == 0.0 then false
    else if rate == 1.0 then true
    else draw < rate
  }

  /** With the configured rates an error is always reported and a type
      without a rate never is, whatever the draw and the environment. */
  lemma DefaultSampling(isProduction: bool, draw: real)
    ensures ShouldReport(DefaultSampleRates(isProduction), map["type" := Str("error")], draw)
    ensures !ShouldReport(DefaultSampleRates(isProduction), map["type" := Str("unknown-type")], draw)
    ensures !ShouldReport(DefaultSampleRates(isProduction), map["type" := Str("performance")], draw)
  {
  }

  /** Types `getMetricType` knows. */
  const MetricTypedEvents: set<string> := {"performance", "xhr", "fetch", "click", "route", "error"}

  /** `getMetricType`. */
  function MetricType(data: Record): (r: string)
    ensures r == "duration" <==> Get(data, "type") == Str("performance")
    ensures r == "unknown" <==> !(Get(data, "type").Str? && Get(data, "type").s in MetricTypedEvents)
    ensures r != "duration" && r != "unknown" ==> Get(data, "type") == Str(r)
  {
    match Get(data, "type")
    case Str(t) =>
      if t == "performance" then "duration"
      else if t in {"xhr", "fetch", "click", "route", "error"} then t
      else "unknown"
    case _ => "unknown"
  }

  /** `extractValue`. */
  function ExtractValue(data: Record): (r: Value)
    ensures Get(data, "type") == Str("performance") ==>
              IsFirstTruthy([Get(data, "duration"), Num(0)], r)
    ensures Get(data, "type") == Str("xhr") || Get(data, "type") == Str("fetch") ==>
              IsFirstTruthy([Get(data, "duration"), Get(data, "status"), Num(0)], r)
    ensures !(Get(data, "type") in {Str("performance"), Str("xhr"), Str("fetch")}) ==> r == Num(1)
    ensures Truthy(r) || r == Num(0)
  {
    var t := Get(data, "type");
    if t == Str("performance") then FirstTruthy([Get(data, "duration"), Num(0)])
    else if t == Str("xhr") || t == Str("fetch") then
      FirstTruthy([Get(data, "duration"), Get(data, "status"), Num(0)])
    else Num(1)
  }

  /** The metric type and the value agree: counted kinds (click, route,
      error and unknown types) always carry 1, timed kinds carry their
      truthy duration, and a value of 0 only comes from a timed kind. */
  lemma MetricValueMatchesType(data: Record)
    ensures MetricType(data) in {"click", "route", "error", "unknown"} ==> ExtractValue(data) == Num(1)
    ensures MetricType(data) in {"duration", "xhr", "fetch"} && Truthy(Get(data, "duration")) ==>
              ExtractValue(data) == Get(data, "duration")
    ensures ExtractValue(data) == Num(0) ==> MetricType(data) in {"duration", "xhr", "fetch"}
  {
  }

  /** The identity `getUserInfo` reads from the store. */
  datatype UserInfo = UserInfo(
    userId: Value,
    userName: Value,
    accountId: Value,
    email: Value,
    roles: Value,
    permissions: Value)

  /** `store.state.user || {}`. */
  function UserModule(store: Value): Value {
    Or(Prop(Prop(store, "state"), "user"), Obj(map[]))
  }

  /** `userModule.userInfo || userModule || {}`. */
  function UserSource(store: Value): Value {
    FirstTruthy([Prop(UserModule(store), "userInfo"), UserModule(store), Obj(map[])])
  }

  /** `(store.getters || {})[name]`. */
  function GetterValue(store: Value, name: string): Value {
    Prop(Or(Prop(store, "getters"), Obj(map[])), name)
  }

  /** `getUserInfo`: None is the empty object returned when there is no
      store or no state. */
  function GetUserInfo(store: Value): (r: Option<UserInfo>)
    ensures r.None? <==> !Truthy(store) || !Truthy(Prop(store, "state"))
    ensures r.Some? ==>
              var u := UserSource(store);
              && IsFirstTruthy([Prop(u, "userId"), Prop(u, "id"), GetterValue(store, "user/userId")], r.value.userId)
              && IsFirstTruthy([Prop(u, "userName"), Prop(u, "contact"), Prop(u, "name")], r.value.userName)
              && r.value.accountId == Prop(u, "accountId")
              && r.value.email == Prop(u, "email")
              && IsFirstTruthy([Prop(u, "roles"), Arr([])], r.value.roles)
              && IsFirstTruthy([GetterValue(store, "user/permissions"), Prop(u, "permissions"), Arr([])], r.value.permissions)
    ensures r.Some? ==> Truthy(r.value.roles) && Truthy(r.value.permissions)
  {
    if !Truthy(store) || !Truthy(Prop(store, "state")) then None
    else
      var u := UserSource(store);
      Some(UserInfo(
        FirstTruthy([Prop(u, "userId"), Prop(u, "id"), GetterValue(store, "user/userId")]),
        FirstTruthy([Prop(u, "userName"), Prop(u, "contact"), Prop(u, "name")]),
        Prop(u, "accountId"),
        Prop(u, "email"),
        FirstTruthy([Prop(u, "roles"), Arr([])]),
        FirstTruthy([GetterValue(store, "user/permissions"), Prop(u, "permissions"), Arr([])])))
  }

  datatype EventInfo = EventInfo(eventType: Value, url: string, userAgent: string, referrer: Value)
  datatype TechStack = TechStack(vue: Value, platform: string, language: string)

  /** The enriched envelope `transformDataForSLS` returns. */
  datatype Envelope = Envelope(
    time: int,
    source: string,
    timestamp: string,
    environment: string,
    sessionId: string,
    user: Option<UserInfo>,
    dataType: Value,
    metricType: string,
    value: Value,
    event: EventInfo,
    techStack: TechStack,
    rawData: Option<Record>,
    dimensions: Record)

  /** The clock readings (`Date.now()`, `new Date().toISOString()`), the
      session id and the browser globals one transformation reads. */
  datatype TransformInputs = TransformInputs(nowMs: nat, isoNow: string, sessionId: string, browser: Browser)

  /** The envelope's `event` sub-record as a plain object. */
  function EventRecord(e: EventInfo): Record {
    map["type" := e.eventType, "url" := Str(e.url), "userAgent" := Str(e.userAgent), "referrer" := e.referrer]
  }

  const PageKeys: set<string> := {"pageTitle", "path", "search", "hash"}
  const UserKeys: set<string> := {"userId", "userName", "accountId", "userEmail", "userRoles", "userPermissions"}
  const ClickKeys: set<string> := {
    "clickBizId", "clickTargetTag", "clickTargetId", "clickTargetClass", "clickTargetSelector",
    "clickTargetText", "clickPageUrl", "clickPagePath", "clickPageTitle", "clickX", "clickY"}

  function PageDimensions(b: Browser): (r: Record)
    ensures r.Keys == PageKeys
  {
    map[
      "pageTitle" := Str(if b.document.Some? then b.document.value.title else ""),
      "path" := Str(if b.location.Some? then b.location.value.pathname else ""),
      "search" := Str(if b.location.Some? then b.location.value.search else ""),
      "hash" := Str(if b.location.Some? then b.location.value.hash else "")]
  }

  /** The user keys of `dimensions`; None when joining roles or permissions
      throws (a truthy value that is not an array). */
  function UserDimensions(u: Option<UserInfo>): (r: Option<Record>)
    ensures r.Some? ==> r.value.Keys == UserKeys
    ensures r.None? <==> u.Some? && (JoinList(u.value.roles).None? || JoinList(u.value.permissions).None?)
  {
    match u
    case None =>
      Some(map[
        "userId" := Undefined, "userName" := Undefined, "accountId" := Undefined,
        "userEmail" := Undefined, "userRoles" := Str(""), "userPermissions" := Str("")])
    case Some(ui) =>
      match (JoinList(ui.roles), JoinList(ui.permissions))
      case (Some(roles), Some(permissions)) =>
        Some(map[
          "userId" := ui.userId, "userName" := ui.userName, "accountId" := ui.accountId,
          "userEmail" := ui.email, "userRoles" := Str(roles), "userPermissions" := Str(permissions)])
      case _ => None
  }

  /** The flattened click keys. */
  function ClickDimensions(data: Record): (r: Record)
    ensures r.Keys == ClickKeys
  {
    var target := Or(Get(data, "target"), Obj(map[]));
    var page := Or(Get(data, "page"), Obj(map[]));
    map[
      "clickBizId" := Get(data, "bizId"),
      "clickTargetTag" := Prop(target, "tagName"),
      "clickTargetId" := Prop(target, "id"),
      "clickTargetClass" := Prop(target, "className"),
      "clickTargetSelector" := Prop(target, "selector"),
      "clickTargetText" := Prop(target, "textContent"),
      "clickPageUrl" := Prop(page, "url"),
      "clickPagePath" := Prop(page, "path"),
      "clickPageTitle" := Prop(page, "title"),
      "clickX" := Get(data, "x"),
      "clickY" := Get(data, "y")]
  }

  lemma KeySetsDisjoint()
    ensures PageKeys !! UserKeys && PageKeys !! ClickKeys && UserKeys !! ClickKeys
  {
  }

  /** Keys the caller's `customData` contributes through spread: an
      object's properties, or the indices of an array or a string. */
  function CustomKeys(data: Record): set<string> {
    OwnProperties(Get(data, "customData")).Keys
  }

  predicate IsClick(data: Record) {
    Get(data, "type") == Str("click")
  }

  /** The `dimensions` mapping: page keys, then user keys, then the caller's
      `customData` (overriding both), then for click events the click keys
      (overriding all). */
  function Dimensions(data: Record, u: Option<UserInfo>, b: Browser): (r: Option<Record>)
    ensures r.None? <==> UserDimensions(u).None?
    ensures r.Some? && !IsClick(data) ==> r.value.Keys == PageKeys + UserKeys + CustomKeys(data)
    ensures r.Some? && IsClick(data) ==> r.value.Keys == PageKeys + UserKeys + CustomKeys(data) + ClickKeys
  {
    match UserDimensions(u)
    case None => None
    case Some(ud) =>
      var withCustom := Spread(PageDimensions(b) + ud, Get(data, "customData"));
      Some(if IsClick(data) then withCustom + ClickDimensions(data) else withCustom)
  }

  /** Keys from `customData` override the page and user keys (and are
      themselves overridden only by the click keys of a click event). */
  lemma DimensionsCustomWins(data: Record, u: Option<UserInfo>, b: Browser, k: string)
    requires UserDimensions(u).Some?
    requires k in CustomKeys(data) && !(IsClick(data) && k in ClickKeys)
    ensures Dimensions(data, u, b).value[k] == OwnProperties(Get(data, "customData"))[k]
  {
  }

  /** A string `customData` spreads its characters under index keys, as
      `{ ...'ab' }` does. */
  lemma StringCustomDataSpreads(b: Browser)
    ensures var d := Dimensions(map["type" := Str("custom"), "customData" := Str("ab")], None, b);
            d.Some? && "0" in d.value && "1" in d.value && d.value["0"] == Str("a") && d.value["1"] == Str("b")
  {
    var data := map["type" := Str("custom"), "customData" := Str("ab")];
    var own := OwnProperties(Str("ab"));
    assert NatToString(0) == "0" && NatToString(1) == "1";
    assert own["0"] == Str("a") && own["1"] == Str("b") by {
      assert own[NatToString(0)] == Str(["ab"[0]]);
      assert own[NatToString(1)] == Str(["ab"[1]]);
    }
    assert Get(data, "customData") == Str("ab");
    assert !IsClick(data);
    assert UserDimensions(None).Some?;
    DimensionsCustomWins(data, None, b, "0");
    DimensionsCustomWins(data, None, b, "1");
  }

  /** A page key the caller does not override holds the page's value. */
  lemma DimensionsPageDefaults(data: Record, u: Option<UserInfo>, b: Browser, k: string)
    requires UserDimensions(u).Some?
    requires k in PageKeys && k !in CustomKeys(data)
    ensures Dimensions(data, u, b).value[k] == PageDimensions(b)[k]
  {
    KeySetsDisjoint();
    var ud := UserDimensions(u).value;
    var base := PageDimensions(b) + ud;
    assert base[k] == PageDimensions(b)[k];
    var withCustom := Spread(base, Get(data, "customData"));
    assert withCustom[k] == base[k];
  }

  /** Every click key of a click event holds the click value. */
  lemma DimensionsClickWins(data: Record, u: Option<UserInfo>, b: Browser, k: string)
    requires UserDimensions(u).Some?
    requires IsClick(data) && k in ClickKeys
    ensures Dimensions(data, u, b).value[k] == ClickDimensions(data)[k]
  {
  }

  /** The click keys copy the event's own fields. */
  lemma ClickDimensionsCopyFields(data: Record)
    ensures var d := ClickDimensions(data);
            var target := Or(Get(data, "target"), Obj(map[]));
            var page := Or(Get(data, "page"), Obj(map[]));
            && d["clickBizId"] == Get(data, "bizId")
            && d["clickX"] == Get(data, "x") && d["clickY"] == Get(data, "y")
            && d["clickTargetTag"] == Prop(target, "tagName")
            && d["clickTargetId"] == Prop(target, "id")
            && d["clickTargetClass"] == Prop(target, "className")
            && d["clickTargetSelector"] == Prop(target, "selector")
            && d["clickTargetText"] == Prop(target, "textContent")
            && d["clickPageUrl"] == Prop(page, "url")
            && d["clickPagePath"] == Prop(page, "path")
            && d["clickPageTitle"] == Prop(page, "title")
  {
  }

  /** `transformDataForSLS`; None when the transformation throws. */
  function TransformDataForSls(data: Record, store: Value, vue: Value, s: Settings, inp: TransformInputs): (r: Option<Envelope>)
    ensures r.None? <==> Dimensions(data, GetUserInfo(store), inp.browser).None?
    ensures r.Some? ==> r.value.dimensions == Dimensions(data, GetUserInfo(store), inp.browser).value
    ensures r.Some? ==> r.value.user == GetUserInfo(store)
    ensures r.Some? ==> r.value.time == inp.nowMs / 1000 && r.value.timestamp == inp.isoNow
    ensures r.Some? ==> r.value.source == "live-admin-v3" && r.value.environment == s.environment
    ensures r.Some? ==> r.value.sessionId == inp.sessionId
    ensures r.Some? ==> IsFirstTruthy([Get(data, "type"), Str("unknown")], r.value.dataType)
    ensures r.Some? ==> r.value.metricType == MetricType(data) && r.value.value == ExtractValue(data)
    ensures r.Some? ==> r.value.event.eventType == Get(data, "type")
    ensures r.Some? ==> r.value.rawData == (if s.debug then Some(data) else None)
  {
    var u := GetUserInfo(store);
    var b := inp.browser;
    match Dimensions(data, u, b)
    case None => None
    case Some(dims) =>
      Some(Envelope(
        inp.nowMs / 1000,
        "live-admin-v3",
        inp.isoNow,
        s.environment,
        inp.sessionId,
        u,
        FirstTruthy([Get(data, "type"), Str("unknown")]),
        MetricType(data),
        ExtractValue(data),
        EventInfo(
          Get(data, "type"),
          if b.location.Some? then b.location.value.href else "",
          if b.navigator.Some? then b.navigator.value.userAgent else "unknown",
          if b.document.Some? then Str(b.document.value.referrer) else Undefined),
        TechStack(
          FirstTruthy([Prop(vue, "version"), Str("unknown")]),
          if b.navigator.Some? then b.navigator.value.platform else "unknown",
          if b.navigator.Some? then b.navigator.value.language else "unknown"),
        if s.debug then Some(data) else None,
        dims))
  }

  /** The dimensions and user of an envelope depend on the event, the store
      and the page only: two transformations at different times, with
      different session ids or settings, agree on them. */
  lemma TransformStableBesidesClock(data: Record, store: Value, vue: Value, s1: Settings, s2: Settings,
                                    i1: TransformInputs, i2: TransformInputs)
    requires i1.browser == i2.browser
    ensures TransformDataForSls(data, store, vue, s1, i1).Some? == TransformDataForSls(data, store, vue, s2, i2).Some?
    ensures TransformDataForSls(data, store, vue, s1, i1).Some? ==>
              TransformDataForSls(data, store, vue, s1, i1).value.dimensions == TransformDataForSls(data, store, vue, s2, i2).value.dimensions
              && TransformDataForSls(data, store, vue, s1, i1).value.user == TransformDataForSls(data, store, vue, s2, i2).value.user
  {
  }

  /** The store and click event of `src/__tests__/config.test.ts`. */
  const ExampleUser: Value := Obj(map[
    "userId" := Str("u1"), "userName" := Str("tester"), "accountId" := Str("acc1"),
    "email" := Str("test@example.com"), "roles" := Arr([Str("admin")]), "permissions" := Arr([Str("p1")])])
  const ExampleStore: Value := Obj(map["state" := Obj(map["user" := ExampleUser]), "getters" := Obj(map[])])
  const ExampleClick: Record := map["type" := Str("click"), "bizId" := Str("btn_test"), "x" := Num(10), "y" := Num(20)]

  /** The example store keeps its user record under `state.user`. */
  lemma ExampleUserSource()
    ensures UserSource(ExampleStore) == ExampleUser
  {
    var user := ExampleUser;
    assert UserModule(ExampleStore) == user;
    var vs := [Prop(user, "userInfo"), user, Obj(map[])];
    assert !Truthy(vs[0]);
    assert vs[1..] == [user, Obj(map[])];
    assert FirstTruthy(vs[1..]) == user;
  }

  lemma ExampleUserId()
    ensures GetUserInfo(ExampleStore).Some?
    ensures GetUserInfo(ExampleStore).value.userId == Str("u1")
  {
    ExampleUserSource();
    var ids := [Prop(ExampleUser, "userId"), Prop(ExampleUser, "id"), GetterValue(ExampleStore, "user/userId")];
    assert Truthy(ids[0]);
  }

  lemma ExampleRoles()
    ensures GetUserInfo(ExampleStore).Some?
    ensures GetUserInfo(ExampleStore).value.roles == Arr([Str("admin")])
  {
    ExampleUserSource();
    var rs := [Prop(ExampleUser, "roles"), Arr([])];
    assert Truthy(rs[0]);
  }

  lemma ExamplePermissions()
    ensures GetUserInfo(ExampleStore).Some?
    ensures GetUserInfo(ExampleStore).value.permissions == Arr([Str("p1")])
  {
    ExampleUserSource();
    var ps := [GetterValue(ExampleStore, "user/permissions"), Prop(ExampleUser, "permissions"), Arr([])];
    assert !Truthy(ps[0]);
    assert Prop(ExampleUser, "permissions") == Arr([Str("p1")]);
    assert ps[1..] == [Arr([Str("p1")]), Arr([])];
    assert FirstTruthy(ps[1..]) == Arr([Str("p1")]);
  }

  /** The identity `src/__tests__/config.test.ts` expects from its example store. */
  lemma ExampleUserInfo()
    ensures GetUserInfo(ExampleStore).Some?
    ensures GetUserInfo(ExampleStore).value.userId == Str("u1")
    ensures GetUserInfo(ExampleStore).value.roles == Arr([Str("admin")])
    ensures GetUserInfo(ExampleStore).value.permissions == Arr([Str("p1")])
  {
    ExampleUserId();
    ExampleRoles();
    ExamplePermissions();
  }

  /** The example user's roles and permissions are arrays, so the user keys
      of `dimensions` exist. */
  lemma ExampleUserDimensions()
    ensures UserDimensions(GetUserInfo(ExampleStore)).Some?
  {
    ExampleUserInfo();
  }

  /** The click keys of the example event carry its business id and
      coordinates, whatever the page. */
  lemma ExampleClickDimensions(b: Browser)
    ensures Dimensions(ExampleClick, GetUserInfo(ExampleStore), b).Some?
    ensures Dimensions(ExampleClick, GetUserInfo(ExampleStore), b).value["clickBizId"] == Str("btn_test")
    ensures Dimensions(ExampleClick, GetUserInfo(ExampleStore), b).value["clickX"] == Num(10)
  {
    ExampleUserDimensions();
    var u := GetUserInfo(ExampleStore);
    assert IsClick(ExampleClick);
    DimensionsClickWins(ExampleClick, u, b, "clickBizId");
    DimensionsClickWins(ExampleClick, u, b, "clickX");
    ClickDimensionsCopyFields(ExampleClick);
  }

  /** The expectations of `src/__tests__/config.test.ts`: the user id, the data type
      and the flattened business id and coordinates. */
  lemma ClickExample(s: Settings, inp: TransformInputs)
    ensures
      var r := TransformDataForSls(ExampleClick, ExampleStore, Undefined, s, inp);
      && r.Some?
      && r.value.user.Some? && r.value.user.value.userId == Str("u1")
      && r.value.dataType == Str("click")
      && r.value.dimensions["clickBizId"] == Str("btn_test")
      && r.value.dimensions["clickX"] == Num(10)
  {
    ExampleUserInfo();
    ExampleClickDimensions(inp.browser);
    var r := TransformDataForSls(ExampleClick, ExampleStore, Undefined, s, inp);
    var ts := [Get(ExampleClick, "type"), Str("unknown")];
    assert Truthy(ts[0]);
  }
}

=== FILE: rum_manager.dfy ===
/** The Vue 2 manager (src/vue2/RUMManager.vue2.ts): whether monitoring is
    switched on, the guard in front of every tracking call, pushing the
    store's user to the pipeline, and the business id and CSS selector a
    click is reported with. DOM elements are records with a parent link. */
module RumManager {
  import opened Wrappers
  import opened Strings
  import opened JsValue
  import opened Host
  import opened RumConfig
  import opened LogSchema
  import Sls = SlsAdapter
  import Mito = MitoAdapter

  // ---------------------------------------------------------------------
  // Switching monitoring on.

  /** `shouldEnableRUM`: off when disabled by hand; otherwise an explicit
      `VUE_APP_RUM_ENABLED` decides, and without one monitoring runs
      everywhere but in production mode. */
  function ShouldEnableRum(isEnabled: bool, env: Env): (r: bool)
    ensures !isEnabled ==> !r
    ensures isEnabled && "VUE_APP_RUM_ENABLED" in env ==> (r <==> env["VUE_APP_RUM_ENABLED"] == "true")
    ensures isEnabled && "VUE_APP_RUM_ENABLED" !in env ==>
              (r <==> !("MODE" in env && (env["MODE"] == "prod" || env["MODE"] == "production")))
  {
    if !isEnabled then false
    else if "VUE_APP_RUM_ENABLED" in env then env["VUE_APP_RUM_ENABLED"] == "true"
    else !("MODE" in env && (env["MODE"] == "prod" || env["MODE"] == "production"))
  }

  /** Production monitoring is opt-in: in production mode it runs exactly
      when `VUE_APP_RUM_ENABLED` is `'true'`, and an explicit value other
      than `'true'` switches it off in every mode. */
  lemma ProductionIsOptIn(env: Env, v: string)
    requires "MODE" in env && env["MODE"] == "production"
    ensures ShouldEnableRum(true, env) <==> "VUE_APP_RUM_ENABLED" in env && env["VUE_APP_RUM_ENABLED"] == "true"
    ensures v != "true" ==> !ShouldEnableRum(true, env["VUE_APP_RUM_ENABLED" := v])
  {
  }

  // ---------------------------------------------------------------------
  // The manager and its guard.

  /** The manager: the hand switch, whether `init` completed, the
      orchestrator it drives, and the store, router and Vue of its
      context. */
  datatype Manager = Manager(
    isEnabled: bool,
    isInitialized: bool,
    adapter: Option<Mito.Orchestrator>,
    store: Value,
    router: Value,
    vue: Value)

  const Fresh: Manager := Manager(true, false, None, Undefined, Undefined, Undefined)

  /** `checkRUMAvailable`. */
  predicate CheckRumAvailable(m: Manager) {
    m.isEnabled && m.isInitialized && m.adapter.Some?
  }

  /** Flipping the hand switch decides availability only for a manager
      with an initialised orchestrator attached; after `destroy` nothing is
      available until `init` runs again. */
  lemma AvailabilityFollowsSwitch(m: Manager, on: bool)
    ensures CheckRumAvailable(SetEnabled(m, on)) <==> on && m.isInitialized && m.adapter.Some?
    ensures CheckRumAvailable(m) ==> CheckRumAvailable(SetEnabled(m, true))
    ensures !CheckRumAvailable(SetEnabled(m, false)) && !CheckRumAvailable(Destroy(SetEnabled(m, on)))
  {
  }

  /** A manager after an operation, and the records handed to the
      tracker's `send` during it. */
  datatype Outcome = Outcome(state: Manager, sent: seq<LogRecord>)

  /** `enable` and `disable` flip the hand switch only. */
  function SetEnabled(m: Manager, on: bool): (r: Manager)
    ensures r.isEnabled == on
    ensures r.(isEnabled := m.isEnabled) == m
  {
    m.(isEnabled := on)
  }

  /** Hands a payload to the orchestrator's `trackEvent` when monitoring is
      available. */
  function Forward(m: Manager, payload: Record, tick: Mito.Tick): (o: Outcome)
    ensures !CheckRumAvailable(m) ==> o == Outcome(m, [])
    ensures CheckRumAvailable(m) ==>
              var r := Mito.TrackEvent(m.adapter.value, payload, tick);
              o == Outcome(m.(adapter := Some(r.state)), r.sent)
    ensures |o.sent| <= 1
    ensures o.state.isEnabled == m.isEnabled && o.state.isInitialized == m.isInitialized
  {
    if !CheckRumAvailable(m) then Outcome(m, [])
    else
      var r := Mito.TrackEvent(m.adapter.value, payload, tick);
      Outcome(m.(adapter := Some(r.state)), r.sent)
  }

  /** `{ name, ...eventData }` of `trackEvent`. */
  function EventPayload(name: string, eventData: Record): (r: Record)
    ensures r.Keys == {"name"} + eventData.Keys
    ensures "name" !in eventData ==> r["name"] == Str(name)
    ensures forall k :: k in eventData ==> r[k] == eventData[k]
  {
    map["name" := Str(name)] + eventData
  }

  /** `{ name: 'performance', type: 'performance', ...performanceData }`. */
  function PerformancePayload(performanceData: Record): (r: Record)
    ensures r.Keys == {"name", "type"} + performanceData.Keys
    ensures "type" !in performanceData ==> r["type"] == Str("performance")
    ensures forall k :: k in performanceData ==> r[k] == performanceData[k]
  {
    map["name" := Str("performance"), "type" := Str("performance")] + performanceData
  }

  /** `{ name: 'user_action', action, ...actionData }`. */
  function ActionPayload(action: string, actionData: Record): (r: Record)
    ensures r.Keys == {"name", "action"} + actionData.Keys
    ensures "action" !in actionData ==> r["action"] == Str(action)
    ensures forall k :: k in actionData ==> r[k] == actionData[k]
  {
    map["name" := Str("user_action"), "action" := Str(action)] + actionData
  }

  /** `{ name: 'metric', metricName, value, dimensions }`. */
  function MetricPayload(metricName: string, value: int, dimensions: Record): (r: Record)
    ensures r.Keys == {"name", "metricName", "value", "dimensions"}
    ensures r["metricName"] == Str(metricName) && r["value"] == Num(value) && r["dimensions"] == Obj(dimensions)
  {
    map["name" := Str("metric"), "metricName" := Str(metricName), "value" := Num(value), "dimensions" := Obj(dimensions)]
  }

  function TrackEvent(m: Manager, name: string, eventData: Record, tick: Mito.Tick): (o: Outcome)
    ensures !CheckRumAvailable(m) ==> o == Outcome(m, [])
    ensures |o.sent| <= 1
  {
    Forward(m, EventPayload(name, eventData), tick)
  }

  function TrackPerformance(m: Manager, performanceData: Record, tick: Mito.Tick): (o: Outcome)
    ensures !CheckRumAvailable(m) ==> o == Outcome(m, [])
    ensures |o.sent| <= 1
  {
    Forward(m, PerformancePayload(performanceData), tick)
  }

  function TrackAction(m: Manager, action: string, actionData: Record, tick: Mito.Tick): (o: Outcome)
    ensures !CheckRumAvailable(m) ==> o == Outcome(m, [])
    ensures |o.sent| <= 1
  {
    Forward(m, ActionPayload(action, actionData), tick)
  }

  function TrackMetric(m: Manager, metricName: string, value: int, dimensions: Record, tick: Mito.Tick): (o: Outcome)
    ensures !CheckRumAvailable(m) ==> o == Outcome(m, [])
    ensures |o.sent| <= 1
  {
    Forward(m, MetricPayload(metricName, value, dimensions), tick)
  }

  /** The orchestrator samples with config.ts's table, which has no rate
      for performance: a performance measurement is never delivered, unless
      its data names another type. */
  lemma PerformanceNeverDelivered(m: Manager, performanceData: Record, tick: Mito.Tick)
    requires m.adapter.Some? ==> m.adapter.value.settings.rates == DefaultSampleRates(m.adapter.value.settings.isProduction)
    requires "type" !in performanceData
    ensures TrackPerformance(m, performanceData, tick).sent == []
  {
    if CheckRumAvailable(m) {
      var payload := PerformancePayload(performanceData);
      var data := Mito.CustomData(payload, tick.amb.nowMs);
      assert Get(data, "type") == Str("performance");
      assert RateFor(m.adapter.value.settings.rates, data) == 0.0;
    }
  }

  /** A metric carries no type of its own, so it travels as a custom event,
      which is always sampled in; with a ready transport and a successful
      send it is delivered. */
  lemma MetricDelivered(m: Manager, metricName: string, value: int, dimensions: Record, tick: Mito.Tick)
    requires CheckRumAvailable(m)
    requires var a := m.adapter.value;
             && a.settings.rates == DefaultSampleRates(a.settings.isProduction)
             && a.sls.Some? && Sls.CheckReady(a.sls.value) && tick.outcome.Delivered?
             && UserDimensions(GetUserInfo(a.store)).Some?
    ensures |TrackMetric(m, metricName, value, dimensions, tick).sent| == 1
  {
    var payload := MetricPayload(metricName, value, dimensions);
    assert "type" !in payload;
    Mito.TrackedEventDelivered(m.adapter.value, payload, tick);
  }

  // ---------------------------------------------------------------------
  // The store's user.

  /** `setUserInfo`: the user of the store (its `userInfo`, or the user
      module itself) is pushed to the orchestrator when it has a truthy
      `userId`. */
  function SetUserInfo(m: Manager): (r: Manager)
    ensures var id := Prop(UserSource(m.store), "userId");
            && (Truthy(m.store) && m.adapter.Some? && Truthy(id) ==>
                  r == m.(adapter := Some(Mito.SetUser(m.adapter.value, id))))
            && (!Truthy(m.store) || m.adapter.None? || !Truthy(id) ==> r == m)
  {
    var id := Prop(UserSource(m.store), "userId");
    if Truthy(m.store) && m.adapter.Some? && Truthy(id) then m.(adapter := Some(Mito.SetUser(m.adapter.value, id)))
    else m
  }

  /** A store mutation: the orchestrator's breadcrumb subscription, then the
      manager's, which pushes the user again after any mutation whose type
      mentions `user`. */
  function StoreMutation(m: Manager, mutation: Value): (r: Manager)
    ensures r.isEnabled == m.isEnabled && r.isInitialized == m.isInitialized && r.store == m.store
    ensures r.adapter.Some? == m.adapter.Some?
  {
    var crumbed := if m.adapter.Some? then m.(adapter := Some(Mito.OnMutation(m.adapter.value, mutation))) else m;
    var t := Prop(mutation, "type");
    if Truthy(m.store) && t.Str? && Contains(t.s, "user") then SetUserInfo(crumbed) else crumbed
  }

  /** The user reaches the transport exactly through a mutation whose type
      mentions `user`: after one, a record built without its own user id
      carries the store's id; after any other mutation the transport's
      settings are as they were. */
  lemma UserMutationPushesUser(m: Manager, mutation: Value, data: Record, amb: Ambient)
    requires Truthy(m.store) && m.adapter.Some? && m.adapter.value.sls.Some?
    requires !Truthy(Get(data, "userId"))
    ensures var id := Prop(UserSource(m.store), "userId");
            var t := Prop(mutation, "type");
            var r := StoreMutation(m, mutation);
            && (t.Str? && Contains(t.s, "user") && Truthy(id) ==>
                  TransformLogData(r.adapter.value.sls.value.config, data, amb).userId == Some(id))
            && (!(t.Str? && Contains(t.s, "user")) ==>
                  r.adapter.value.sls == m.adapter.value.sls)
  {
    var id := Prop(UserSource(m.store), "userId");
    var crumbed := m.(adapter := Some(Mito.OnMutation(m.adapter.value, mutation)));
    Mito.SetUserReachesRecords(crumbed.adapter.value, id, data, amb);
  }

  // ---------------------------------------------------------------------
  // Initialisation and teardown.

  /** `{ path: fullPath || path, name, params, query }` of the router's
      current route, as `trackInitialRoute` passes it for both ends. */
  function InitialRoute(router: Value): (r: Value)
    ensures r.Obj? && "fullPath" !in r.fields
  {
    var current := FirstTruthy([Prop(router, "currentRoute"), Prop(Prop(router, "app"), "$route"), Obj(map[])]);
    Obj(map[
      "path" := Or(Prop(current, "fullPath"), Prop(current, "path")),
      "name" := Prop(current, "name"),
      "params" := Prop(current, "params"),
      "query" := Prop(current, "query")])
  }

  /** `trackInitialRoute`: the current route is reported as a route change
      from itself to itself. */
  function TrackInitialRoute(m: Manager, tick: Mito.Tick): (o: Outcome)
    ensures !Truthy(m.router) || m.adapter.None? ==> o == Outcome(m, [])
    ensures Truthy(m.router) && m.adapter.Some? ==>
              var r := Mito.HandleRouteChange(m.adapter.value, InitialRoute(m.router), InitialRoute(m.router), tick);
              o == Outcome(m.(adapter := Some(r.state)), r.sent)
  {
    if !Truthy(m.router) || m.adapter.None? then Outcome(m, [])
    else
      var route := InitialRoute(m.router);
      var r := Mito.HandleRouteChange(m.adapter.value, route, route, tick);
      Outcome(m.(adapter := Some(r.state)), r.sent)
  }

  /** The initial route is passed with `path` where the route handler reads
      `fullPath`, so the route event it reports has no path at either
      end. */
  lemma InitialRouteHasNoPath(router: Value, nowMs: nat)
    ensures var route := InitialRoute(router);
            var data := Mito.RouteData(route, route, nowMs);
            Prop(Get(data, "from"), "path") == Undefined && Prop(Get(data, "to"), "path") == Undefined
  {
  }

  /** `init`: nothing when monitoring is switched off or already running;
      otherwise the orchestrator (`core`, the module's single instance) is
      initialised with the context, the store's user is pushed, the initial
      route is reported, and the manager is initialised. `env` is what
      `getRUMEnv` returns. */
  function Init(m: Manager, env: Env, core: Mito.Orchestrator, ctx: Mito.InitContext,
                initTick: Mito.Tick, routeTick: Mito.Tick): (o: Outcome)
    ensures !ShouldEnableRum(m.isEnabled, env) || m.isInitialized ==> o == Outcome(m, [])
    ensures ShouldEnableRum(m.isEnabled, env) && !m.isInitialized ==>
              && o.state.isInitialized && o.state.adapter.Some?
              && o.state.store == ctx.store && o.state.router == ctx.router
              && CheckRumAvailable(o.state)
  {
    if !ShouldEnableRum(m.isEnabled, env) || m.isInitialized then Outcome(m, [])
    else
      var started := Mito.Init(core, ctx, initTick);
      var attached := m.(adapter := Some(started.state), store := ctx.store, router := ctx.router, vue := ctx.vue);
      var withUser := SetUserInfo(attached);
      var routed := TrackInitialRoute(withUser, routeTick);
      Outcome(routed.state.(isInitialized := true), started.sent + routed.sent)
  }

  /** `destroy`: the orchestrator is destroyed and dropped, and the context
      is cleared. */
  function Destroy(m: Manager): (r: Manager)
    ensures !r.isInitialized && r.adapter.None? && !CheckRumAvailable(r)
    ensures r.isEnabled == m.isEnabled
    ensures r.store == Undefined && r.router == Undefined
  {
    m.(isInitialized := false, adapter := None, store := Undefined, router := Undefined, vue := Undefined)
  }

  /** The orchestrator the manager drops, after its own teardown. */
  function DestroyedCore(m: Manager): (c: Option<Mito.Orchestrator>)
    ensures c.Some? <==> m.adapter.Some?
    ensures c.Some? ==> !c.value.isInitialized
  {
    if m.adapter.Some? then Some(Mito.Destroy(m.adapter.value)) else None
  }

  /** After `destroy` every tracking call does nothing until `init` runs
      again. */
  lemma DestroyedTracksNothing(m: Manager, name: string, data: Record, tick: Mito.Tick)
    ensures TrackEvent(Destroy(m), name, data, tick) == Outcome(Destroy(m), [])
    ensures TrackPerformance(Destroy(m), data, tick) == Outcome(Destroy(m), [])
    ensures TrackAction(Destroy(m), name, data, tick) == Outcome(Destroy(m), [])
  {
  }

  /** Disabling by hand silences tracking while keeping the orchestrator;
      enabling again restores it. */
  lemma DisableThenEnable(m: Manager, name: string, data: Record, tick: Mito.Tick)
    ensures TrackEvent(SetEnabled(m, false), name, data, tick).sent == []
    ensures SetEnabled(SetEnabled(m, false), true) == m.(isEnabled := true)
  {
  }

  // ---------------------------------------------------------------------
  // DOM elements.

  /** A DOM node as the click handler sees it: whether it is an element,
      its tag, id, class attribute, attributes, text content, form value
      (when it is a string), whether its computed cursor is a pointer, and
      its parent element. */
  datatype Node = Node(
    isElement: bool,
    tagName: string,
    id: string,
    className: string,
    attrs: map<string, string>,
    text: string,
    value: Option<string>,
    pointer: bool,
    parent: Option<Node>)

  /** The element itself and its element ancestors, innermost first. */
  function Ancestry(n: Option<Node>): (chain: seq<Node>)
    ensures forall i :: 0 <= i < |chain| ==> chain[i].isElement
    ensures chain == [] <==> n.None? || !n.value.isElement
    ensures chain != [] ==> chain[0] == n.value
    decreases n
  {
    if n.None? || !n.value.isElement then [] else [n.value] + Ancestry(n.value.parent)
  }

  /** The two `closest` selectors of the click handler. */
  datatype Selector =
    | RumMarked    // `[rum-id],[rum-name]`
    | Interactive  // `button, a, [role="button"], [role="link"]`

  predicate Matches(sel: Selector, n: Node) {
    match sel
    case RumMarked => "rum-id" in n.attrs || "rum-name" in n.attrs
    case Interactive =>
      || Lower(n.tagName) == "button" || Lower(n.tagName) == "a"
      || ("role" in n.attrs && (n.attrs["role"] == "button" || n.attrs["role"] == "link"))
  }

  /** `el.closest(selector)`: the nearest element, starting with `n`
      itself, that matches. */
  function Closest(n: Option<Node>, sel: Selector): (r: Option<Node>)
    ensures r.Some? ==> Matches(sel, r.value) && r.value in Ancestry(n)
    ensures r.None? ==> forall x :: x in Ancestry(n) ==> !Matches(sel, x)
    decreases n
  {
    if n.None? || !n.value.isElement then None
    else if Matches(sel, n.value) then n
    else Closest(n.value.parent, sel)
  }

  /** The element a click is attributed to: the nearest marked element,
      else the nearest interactive one, else the clicked element itself
      when its computed cursor is a pointer. `getComputedStyle` throws on
      a node that is not an element, and the listener's `try` then drops
      the click, so only an element can be the pointer fallback. */
  function ClickTarget(clicked: Option<Node>): (t: Option<Node>)
    ensures var marked := Closest(clicked, RumMarked);
            marked.Some? ==> t == marked
    ensures var marked, interactive := Closest(clicked, RumMarked), Closest(clicked, Interactive);
            marked.None? && interactive.Some? ==> t == interactive
    ensures var marked, interactive := Closest(clicked, RumMarked), Closest(clicked, Interactive);
            marked.None? && interactive.None? ==>
              (t.Some? <==> clicked.Some? && clicked.value.isElement && clicked.value.pointer)
              && (t.Some? ==> t == clicked)
  {
    var marked := Closest(clicked, RumMarked);
    if marked.Some? then marked
    else
      var interactive := Closest(clicked, Interactive);
      if interactive.Some? then interactive
      else if clicked.Some? && clicked.value.isElement && clicked.value.pointer then clicked
      else None
  }

  /** The target is always the clicked element or one of its ancestors,
      and it is marked, interactive or shows a pointer cursor. */
  lemma ClickTargetIsAncestor(clicked: Option<Node>)
    ensures var t := ClickTarget(clicked);
            t.Some? ==> t.value in Ancestry(clicked)
                        && (Matches(RumMarked, t.value) || Matches(Interactive, t.value) || t.value.pointer)
    ensures ClickTarget(clicked).None? <==>
              forall x :: x in Ancestry(clicked) ==>
                (!Matches(RumMarked, x) && !Matches(Interactive, x) && (x == clicked.value ==> !x.pointer))
  {
  }

  /** `getAttribute(name)`, with a missing attribute read as empty (both
      are falsy to the `||` chains that read it). */
  function Attr(n: Node, name: string): string {
    if name in n.attrs then n.attrs[name] else ""
  }

  // ---------------------------------------------------------------------
  // The generated business id.

  /** The first class of the element, or `no-class`. */
  function PrimaryClass(n: Node): (c: string)
    ensures c != "" && NoWhitespace(c)
    ensures Words(n.className) != [] ==> c == Words(n.className)[0]
    ensures Words(n.className) == [] ==> c == "no-class"
  {
    var ws := Words(n.className);
    if |ws| > 0 then ws[0] else "no-class"
  }

  /** The label candidates in the order `getLabel` tries them: trimmed
      text, `aria-label`, `title`, `alt`, `placeholder`, trimmed string
      value. */
  function LabelSources(n: Node): seq<Value> {
    [Str(Trim(n.text)), Str(Attr(n, "aria-label")), Str(Attr(n, "title")), Str(Attr(n, "alt")),
     Str(Attr(n, "placeholder")), Str(if n.value.Some? then Trim(n.value.value) else "")]
  }

  /** `getLabel`: the trimmed text, else the first non-empty of
      `aria-label`, `title`, `alt`, `placeholder`, else the trimmed form
      value, else empty. */
  function Label(n: Node): string {
    if Trim(n.text) != "" then Trim(n.text)
    else if Attr(n, "aria-label") != "" then Attr(n, "aria-label")
    else if Attr(n, "title") != "" then Attr(n, "title")
    else if Attr(n, "alt") != "" then Attr(n, "alt")
    else if Attr(n, "placeholder") != "" then Attr(n, "placeholder")
    else if n.value.Some? && Trim(n.value.value) != "" then Trim(n.value.value)
    else ""
  }

  /** The label is the `||` chain of its candidates: the first non-empty
      one in order, and empty only when all of them are. */
  lemma LabelFallbackOrder(n: Node)
    ensures IsFirstTruthy(LabelSources(n), Str(Label(n)))
    ensures Label(n) == "" <==> forall i :: 0 <= i < |LabelSources(n)| ==> LabelSources(n)[i] == Str("")
  {
    var src := LabelSources(n);
    if Trim(n.text) != "" {
      FirstTruthyAt(src, 0);
    } else if Attr(n, "aria-label") != "" {
      FirstTruthyAt(src, 1);
    } else if Attr(n, "title") != "" {
      FirstTruthyAt(src, 2);
    } else if Attr(n, "alt") != "" {
      FirstTruthyAt(src, 3);
    } else if Attr(n, "placeholder") != "" {
      FirstTruthyAt(src, 4);
    } else {
      FirstTruthyAt(src, 5);
    }
  }

  const MaxLabelLength: nat := 32

  /** `(label || primaryClass).replace(/\s+/g, '_').slice(0, 32) ||
      'no_label'`. */
  function SafeLabel(caption: string, primaryClass: string): (r: string)
    ensures r != "" && |r| <= MaxLabelLength && NoWhitespace(r)
  {
    var chosen := if caption != "" then caption else primaryClass;
    var collapsed := CollapseWhitespace(chosen);
    CollapseWhitespaceShape(chosen);
    var cut := if |collapsed| > MaxLabelLength then collapsed[..MaxLabelLength] else collapsed;
    if cut != "" then cut else "no_label"
  }

  /** Collapsing a string without white space leaves it as it is. */
  lemma {:induction false} CollapseKeepsClean(s: string)
    requires NoWhitespace(s)
    ensures CollapseWhitespace(s) == s
    decreases |s|
  {
    if |s| > 0 {
      CollapseKeepsClean(s[1..]);
      assert [s[0]] + s[1..] == s;
    }
  }

  /** A label that is already safe is kept as it is, so sanitising twice is
      sanitising once. */
  lemma SafeLabelKeepsSafe(caption: string, primaryClass: string)
    requires caption != "" && |caption| <= MaxLabelLength && NoWhitespace(caption)
    ensures SafeLabel(caption, primaryClass) == caption
  {
    CollapseKeepsClean(caption);
  }

  lemma SafeLabelIdempotent(caption: string, primaryClass: string)
    ensures SafeLabel(SafeLabel(caption, primaryClass), primaryClass) == SafeLabel(caption, primaryClass)
  {
    SafeLabelKeepsSafe(SafeLabel(caption, primaryClass), primaryClass);
  }

  /** `r.matched[r.matched.length - 1].path` when there is such a truthy
      path. */
  function MatchedPath(route: Value): Option<Value> {
    var matched := Prop(route, "matched");
    if matched.Arr? && |matched.items| > 0 then
      var last := matched.items[|matched.items| - 1];
      if Truthy(last) && Truthy(Prop(last, "path")) then Some(Prop(last, "path")) else None
    else None
  }

  /** `buildRouteKey`: the route's name, else the path of its last matched
      record, else its path, else the page's path, else `unknown_route`. */
  function BuildRouteKey(route: Value, pathname: string): (k: string)
    ensures !Truthy(route) ==> k == "unknown_route"
    ensures Truthy(route) && Truthy(Prop(route, "name")) ==> k == ToJsString(Prop(route, "name"))
    ensures Truthy(route) && !Truthy(Prop(route, "name")) && MatchedPath(route).Some? ==>
              k == ToJsString(MatchedPath(route).value)
    ensures Truthy(route) && !Truthy(Prop(route, "name")) && MatchedPath(route).None? && Truthy(Prop(route, "path")) ==>
              k == ToJsString(Prop(route, "path"))
    ensures Truthy(route) && !Truthy(Prop(route, "name")) && MatchedPath(route).None? && !Truthy(Prop(route, "path")) ==>
              k == (if pathname != "" then pathname else "unknown_route")
  {
    if !Truthy(route) then "unknown_route"
    else if Truthy(Prop(route, "name")) then ToJsString(Prop(route, "name"))
    else if MatchedPath(route).Some? then ToJsString(MatchedPath(route).value)
    else if Truthy(Prop(route, "path")) then ToJsString(Prop(route, "path"))
    else if pathname != "" then pathname
    else "unknown_route"
  }

  /** Where the clicked element sits among its parent's children: its
      position (out of range when it is not among them), or no parent with
      children. Position stands in for the identity `indexOf` compares. */
  datatype Siblings = NoParent | Children(nodes: seq<Node>, at: nat)

  predicate SameKind(a: Node, b: Node) {
    a.tagName == b.tagName && a.className == b.className
  }

  /** The children with the target's tag and class, in order. */
  function SameKindNodes(nodes: seq<Node>, target: Node): (r: seq<Node>)
    ensures |r| <= |nodes|
    ensures forall i :: 0 <= i < |r| ==> SameKind(r[i], target)
  {
    if |nodes| == 0 then []
    else if SameKind(nodes[0], target) then [nodes[0]] + SameKindNodes(nodes[1..], target)
    else SameKindNodes(nodes[1..], target)
  }

  lemma {:induction false} SameKindNodesAppend(a: seq<Node>, b: seq<Node>, target: Node)
    ensures SameKindNodes(a + b, target) == SameKindNodes(a, target) + SameKindNodes(b, target)
    decreases |a|
  {
    if |a| == 0 {
      assert a + b == b;
    } else {
      assert (a + b)[0] == a[0];
      assert (a + b)[1..] == a[1..] + b;
      SameKindNodesAppend(a[1..], b, target);
    }
  }

  /** `sib` describes where `t` sits: no parent when `t` has none, else
      `t`'s position among its parent's children. */
  predicate SiblingsOf(sib: Siblings, t: Node) {
    match sib
    case NoParent => t.parent.None?
    case Children(nodes, at) => t.parent.Some? && at < |nodes| && nodes[at] == t
  }

  /** The `[index]` suffix: the target's position among the same-kind
      children, or nothing when it has no parent or is not found. The
      position counts the same-kind children before the target, so two
      equal siblings still get different indices, as `indexOf` on the
      element itself gives them. */
  function IndexSuffix(sib: Siblings): (r: string)
    ensures r == "" <==> sib.NoParent? || sib.at >= |sib.nodes|
    ensures r != "" ==>
              var same := SameKindNodes(sib.nodes, sib.nodes[sib.at]);
              exists k :: 0 <= k < |same| && same[k] == sib.nodes[sib.at] && r == "[" + NatToString(k) + "]"
    ensures r != "" ==> r == "[" + NatToString(|SameKindNodes(sib.nodes[..sib.at], sib.nodes[sib.at])|) + "]"
  {
    match sib
    case NoParent => ""
    case Children(nodes, at) =>
      if at < |nodes| then
        SiblingIndexLocatesTarget(nodes, at);
        "[" + NatToString(|SameKindNodes(nodes[..at], nodes[at])|) + "]"
      else ""
  }

  /** The index in the suffix is where `indexOf` finds the target among the
      same-kind children. */
  lemma SiblingIndexLocatesTarget(nodes: seq<Node>, at: nat)
    requires at < |nodes|
    ensures var same := SameKindNodes(nodes, nodes[at]);
            var k := |SameKindNodes(nodes[..at], nodes[at])|;
            k < |same| && same[k] == nodes[at]
  {
    assert nodes == nodes[..at] + nodes[at..];
    SameKindNodesAppend(nodes[..at], nodes[at..], nodes[at]);
    assert nodes[at..][0] == nodes[at];
  }

  /** Only the target's tag and class select the same-kind children. */
  lemma {:induction false} SameKindNodesByKind(nodes: seq<Node>, t1: Node, t2: Node)
    requires SameKind(t1, t2)
    ensures SameKindNodes(nodes, t1) == SameKindNodes(nodes, t2)
    decreases |nodes|
  {
    if |nodes| > 0 {
      SameKindNodesByKind(nodes[1..], t1, t2);
    }
  }

  /** Two different children of the same kind never share a suffix, even
      when they are equal in every other respect. */
  lemma SameKindSiblingsGetDistinctSuffixes(nodes: seq<Node>, at1: nat, at2: nat)
    requires at1 < at2 < |nodes| && SameKind(nodes[at1], nodes[at2])
    ensures IndexSuffix(Children(nodes, at1)) != IndexSuffix(Children(nodes, at2))
  {
    var t := nodes[at2];
    var mid := nodes[at1..at2];
    SameKindNodesByKind(nodes[..at1], nodes[at1], t);
    assert nodes[..at2] == nodes[..at1] + mid;
    SameKindNodesAppend(nodes[..at1], mid, t);
    assert mid[0] == nodes[at1];
    assert |SameKindNodes(mid, t)| >= 1;
    var k1 := |SameKindNodes(nodes[..at1], nodes[at1])|;
    var k2 := |SameKindNodes(nodes[..at2], t)|;
    assert k1 < k2;
    var s1 := "[" + NatToString(k1) + "]";
    var s2 := "[" + NatToString(k2) + "]";
    if s1 == s2 {
      assert s1[1..|s1| - 1] == NatToString(k1);
      assert s2[1..|s2| - 1] == NatToString(k2);
      NatToStringInjective(k1, k2);
    }
  }

  /** `${routeKey}|${tagName}.${primaryClass}${indexSuffix}|${safeLabel}`. */
  function ComposeBizId(routeKey: string, element: string, caption: string): string {
    routeKey + "|" + element + "|" + caption
  }

  /** The three parts of a generated id come back out of it when none of
      them contains the separator. */
  lemma ComposeBizIdSplits(routeKey: string, element: string, caption: string)
    requires '|' !in routeKey && '|' !in element && '|' !in caption
    ensures Split(ComposeBizId(routeKey, element, caption), '|') == [routeKey, element, caption]
  {
    var parts := [routeKey, element, caption];
    assert Join(parts[2..], "|") == caption;
    assert Join(parts[1..], "|") == element + "|" + caption;
    assert Join(parts, "|") == ComposeBizId(routeKey, element, caption);
    SplitJoin(parts, '|');
  }

  /** The element part of a generated id: lower-cased tag (or `element`),
      first class, sibling index. */
  function ElementPart(target: Node, sib: Siblings): string {
    var tag := if target.tagName != "" then Lower(target.tagName) else "element";
    tag + "." + PrimaryClass(target) + IndexSuffix(sib)
  }

  /** The id a click is reported with: `rum-id`, else `rum-name`, else one
      generated from the route, the element and its label. */
  function BizId(target: Node, route: Value, pathname: string, sib: Siblings): (id: string)
    ensures Attr(target, "rum-id") != "" ==> id == Attr(target, "rum-id")
    ensures Attr(target, "rum-id") == "" && Attr(target, "rum-name") != "" ==> id == Attr(target, "rum-name")
    ensures Attr(target, "rum-id") == "" && Attr(target, "rum-name") == "" ==>
              id == ComposeBizId(BuildRouteKey(route, pathname), ElementPart(target, sib),
                                 SafeLabel(Label(target), PrimaryClass(target)))
    ensures id != ""
  {
    if Attr(target, "rum-id") != "" then Attr(target, "rum-id")
    else if Attr(target, "rum-name") != "" then Attr(target, "rum-name")
    else ComposeBizId(BuildRouteKey(route, pathname), ElementPart(target, sib),
                      SafeLabel(Label(target), PrimaryClass(target)))
  }

  /** A generated id ends with the sanitised label, which has no white
      space; an explicit marker suppresses the generated id whatever the
      route and the element. */
  lemma ExplicitIdIgnoresContext(target: Node, r1: Value, r2: Value, p1: string, p2: string, s1: Siblings, s2: Siblings)
    requires Attr(target, "rum-id") != "" || Attr(target, "rum-name") != ""
    ensures BizId(target, r1, p1, s1) == BizId(target, r2, p2, s2)
  {
  }

  /** A generated id splits back into the route key `buildRouteKey`
      chose, the element part and the sanitised label, when none of them
      holds the separator. */
  lemma GeneratedBizIdSplits(target: Node, route: Value, pathname: string, sib: Siblings)
    requires Attr(target, "rum-id") == "" && Attr(target, "rum-name") == ""
    requires '|' !in BuildRouteKey(route, pathname) && '|' !in ElementPart(target, sib)
    requires '|' !in SafeLabel(Label(target), PrimaryClass(target))
    ensures Split(BizId(target, route, pathname, sib), '|') ==
              [BuildRouteKey(route, pathname), ElementPart(target, sib), SafeLabel(Label(target), PrimaryClass(target))]
  {
    ComposeBizIdSplits(BuildRouteKey(route, pathname), ElementPart(target, sib),
                       SafeLabel(Label(target), PrimaryClass(target)));
  }

  // ---------------------------------------------------------------------
  // The CSS selector.

  /** One selector segment: the lower-cased tag with `#id`, or with the
      first class of the class attribute split on single spaces. */
  function Segment(n: Node): string {
    var tag := Lower(n.tagName);
    if n.id != "" then tag + "#" + n.id
    else
      var first := FirstNonBlank(Split(n.className, ' '));
      if n.className != "" && first.Some? then tag + "." + first.value else tag
  }

  /** The elements the selector describes, outermost first, when the walk
      up starts at `cur` with `depth` segments already taken: it stops after
      an element with an id, after the sixth segment, or at a non-element. */
  function SelectorNodes(cur: Option<Node>, depth: nat): (v: seq<Node>)
    ensures |v| <= (if depth >= 5 then 1 else 6 - depth)
    ensures v == [] <==> cur.None? || !cur.value.isElement
    ensures v != [] ==> v[|v| - 1] == cur.value
    ensures forall i :: 0 <= i < |v| ==> v[i].isElement
    ensures forall i :: 0 < i < |v| ==> v[i].id == ""
    decreases cur
  {
    if cur.None? || !cur.value.isElement then []
    else
      var n := cur.value;
      if n.id != "" || depth >= 5 then [n]
      else SelectorNodes(n.parent, depth + 1) + [n]
  }

  /** The walk stops early only at an id or at the top of the element
      tree: an outermost element without an id, reached before the sixth
      segment, has no element parent. */
  lemma {:induction false} SelectorStopsAtId(cur: Option<Node>, depth: nat)
    requires depth <= 5
    ensures var v := SelectorNodes(cur, depth);
            v != [] && v[0].id == "" && depth + |v| < 6 ==>
              v[0].parent.None? || !v[0].parent.value.isElement
    decreases cur
  {
    if cur.Some? && cur.value.isElement && cur.value.id == "" && depth < 5 {
      var n := cur.value;
      SelectorStopsAtId(n.parent, depth + 1);
    }
  }

  /** The segments of the selector, outermost first. */
  function SelectorSegments(cur: Option<Node>, depth: nat): (segs: seq<string>)
    decreases cur
  {
    if cur.None? || !cur.value.isElement then []
    else
      var n := cur.value;
      if n.id != "" || depth >= 5 then [Segment(n)]
      else SelectorSegments(n.parent, depth + 1) + [Segment(n)]
  }

  /** Segments and nodes correspond one to one. */
  lemma {:induction false} SegmentsOfNodes(cur: Option<Node>, depth: nat)
    ensures var v := SelectorNodes(cur, depth);
            SelectorSegments(cur, depth) == seq(|v|, i requires 0 <= i < |v| => Segment(v[i]))
    decreases cur
  {
    if cur.Some? && cur.value.isElement && cur.value.id == "" && depth < 5 {
      SegmentsOfNodes(cur.value.parent, depth + 1);
    }
  }

  /** The selector segment of one element, as the loop body builds it. */
  method SegmentOf(n: Node) returns (selector: string)
    ensures selector == Segment(n)
  {
    selector := Lower(n.tagName);
    if n.id != "" {
      selector := selector + "#" + n.id;
      return;
    }
    if n.className != "" {
      var classes := FirstNonBlank(Split(n.className, ' '));
      if classes.Some? {
        selector := selector + "." + classes.value;
      }
    }
  }

  /** One step of the walk: an element without an id, before the sixth
      segment, contributes its segment after those of its ancestors. */
  lemma SegmentsStep(n: Node, depth: nat)
    requires n.isElement && n.id == "" && depth < 5
    ensures SelectorSegments(Some(n), depth) == SelectorSegments(n.parent, depth + 1) + [Segment(n)]
  {
  }

  /** The walk ends at an element with an id or at the sixth segment. */
  lemma SegmentsStop(n: Node, depth: nat)
    requires n.isElement && (n.id != "" || depth >= 5)
    ensures SelectorSegments(Some(n), depth) == [Segment(n)]
  {
  }

  /** One pass of the loop of `getCSSSelector` at element `n` with `path`
      taken so far: the segment goes in front, and the walk stops at an id
      or once six segments are taken, else moves on to the parent. */
  method WalkStep(n: Node, path: seq<string>, ghost whole: seq<string>)
    returns (next: Option<Node>, path': seq<string>, stop: bool)
    requires n.isElement && |path| <= 5
    requires whole == SelectorSegments(Some(n), |path|) + path
    ensures |path'| == |path| + 1
    ensures stop ==> path' == whole
    ensures !stop ==> |path'| <= 5 && whole == SelectorSegments(next, |path'|) + path'
  {
    var selector := SegmentOf(n);
    if n.id != "" {
      SegmentsStop(n, |path|);
      return None, [selector] + path, true;
    }
    next := n.parent;
    path' := [selector] + path;
    if |path'| > 5 {
      SegmentsStop(n, |path|);
      return next, path', true;
    }
    SegmentsStep(n, |path|);
    stop := false;
  }

  /** The loop of `getCSSSelector`: walks up from `element`, putting each
      segment in front of those already taken. */
  method SelectorPath(element: Option<Node>) returns (path: seq<string>)
    ensures path == SelectorSegments(element, 0)
  {
    ghost var whole := SelectorSegments(element, 0);
    path := [];
    var current := element;
    while current.Some? && current.value.isElement
      invariant |path| <= 5
      invariant whole == SelectorSegments(current, |path|) + path
      decreases 5 - |path|
    {
      var stop;
      current, path, stop := WalkStep(current.value, path, whole);
      if stop {
        return;
      }
    }
    assert SelectorSegments(current, |path|) == [];
  }

  /** `getCSSSelector`: the segments from the outermost described element
      down to `element`, joined with ` > `; empty for a non-element. */
  method GetCssSelector(element: Option<Node>) returns (s: string)
    ensures s == Join(SelectorSegments(element, 0), " > ")
    ensures element.None? || !element.value.isElement ==> s == ""
  {
    if element.None? || !element.value.isElement {
      return "";
    }
    var path := SelectorPath(element);
    s := Join(path, " > ");
  }

  /** A selector has at most six segments, the last of which describes the
      element itself. */
  lemma SelectorShape(element: Node)
    requires element.isElement
    ensures var segs := SelectorSegments(Some(element), 0);
            1 <= |segs| <= 6 && segs[|segs| - 1] == Segment(element)
  {
    SegmentsOfNodes(Some(element), 0);
  }

  // ---------------------------------------------------------------------
  // Reporting a click.

  /** `targetInfo`: the element's tag, class attribute and id, the first
      50 characters of its text, and its selector. */
  function TargetInfo(target: Node, selector: string): (r: Record)
    ensures Get(r, "tagName") == Str(target.tagName) && Get(r, "className") == Str(target.className)
    ensures Get(r, "id") == Str(target.id) && Get(r, "selector") == Str(selector)
    ensures var t := Get(r, "textContent");
            t.Str? && |t.s| == (if |target.text| > 50 then 50 else |target.text|) && t.s <= target.text
  {
    map[
      "tagName" := Str(target.tagName),
      "className" := Str(target.className),
      "id" := Str(target.id),
      "textContent" := Str(if |target.text| > 50 then target.text[..50] else target.text),
      "selector" := Str(selector)]
  }

  /** The data of a click event. */
  function ClickData(bizId: string, x: int, y: int, info: Record, loc: Location, doc: Document, nowMs: nat): (r: Record)
    ensures Get(r, "type") == Str("click") && Get(r, "bizId") == Str(bizId)
    ensures Get(r, "x") == Num(x) && Get(r, "y") == Num(y)
    ensures "eventType" !in r && "clickBizId" !in r && "customData" !in r
  {
    map[
      "type" := Str("click"),
      "bizId" := Str(bizId),
      "x" := Num(x),
      "y" := Num(y),
      "target" := Obj(info),
      "page" := Obj(map["url" := Str(loc.href), "title" := Str(doc.title), "path" := Str(loc.pathname)]),
      "timestamp" := Num(nowMs)]
  }

  /** The document's click listener: no listener outside a browser, no
      report without a target; otherwise the click is tracked as the
      `click` action with its business id, position, target and page.
      The DOM the caller passes is consistent: `sib` is the target's
      place among its parent's children. */
  method OnClick(m: Manager, clicked: Option<Node>, x: int, y: int, sib: Siblings, tick: Mito.Tick)
    returns (o: Outcome, reported: Option<Record>)
    requires ClickTarget(clicked).Some? ==> SiblingsOf(sib, ClickTarget(clicked).value)
    ensures reported.None? ==> o == Outcome(m, [])
    ensures reported.Some? ==> o == TrackAction(m, "click", reported.value, tick)
    ensures reported.Some? ==>
              var t := ClickTarget(clicked);
              && t.Some? && tick.amb.browser.location.Some?
              && Get(reported.value, "type") == Str("click")
              && Get(reported.value, "bizId") ==
                   Str(BizId(t.value, CurrentRoute(m), tick.amb.browser.location.value.pathname, sib))
    ensures tick.amb.browser.location.None? || tick.amb.browser.document.None? || ClickTarget(clicked).None? ==>
              reported.None?
    ensures var b := tick.amb.browser;
            var t := ClickTarget(clicked);
            b.location.Some? && b.document.Some? && t.Some? ==>
              reported == Some(ClickData(BizId(t.value, CurrentRoute(m), b.location.value.pathname, sib), x, y,
                                         TargetInfo(t.value, Join(SelectorSegments(t, 0), " > ")),
                                         b.location.value, b.document.value, tick.amb.nowMs))
  {
    var b := tick.amb.browser;
    if b.location.None? || b.document.None? {
      return Outcome(m, []), None;
    }
    var target := ClickTarget(clicked);
    if target.None? {
      return Outcome(m, []), None;
    }
    var t := target.value;
    var bizId := BizId(t, CurrentRoute(m), b.location.value.pathname, sib);
    var selector := GetCssSelector(Some(t));
    var data := ClickData(bizId, x, y, TargetInfo(t, selector), b.location.value, b.document.value, tick.amb.nowMs);
    o := TrackAction(m, "click", data, tick);
    reported := Some(data);
  }

  /** The event `trackAction('click', ...)` hands on is a click with the
      business id, and brings no event type, click id or custom dimensions
      of its own. */
  lemma ClickEventShape(bizId: string, x: int, y: int, info: Record, loc: Location, doc: Document, nowMs: nat)
    ensures var d := Mito.CustomData(ActionPayload("click", ClickData(bizId, x, y, info, loc, doc, nowMs)), nowMs);
            && IsClick(d) && Get(d, "bizId") == Str(bizId)
            && "eventType" !in d && "clickBizId" !in d && "customData" !in d
  {
    var click := ClickData(bizId, x, y, info, loc, doc, nowMs);
    var a := ActionPayload("click", click);
    assert "type" in click && "bizId" in click;
    assert "eventType" !in a && "clickBizId" !in a && "customData" !in a;
  }

  /** No dimension is named `eventType`. */
  lemma EventTypeIsNoDimension()
    ensures "eventType" !in PageKeys && "eventType" !in UserKeys && "eventType" !in ClickKeys
  {
  }

  /** For such a click, the envelope's dimensions hold the business id and
      neither they nor the raw event carry an event type or click id that
      would shadow it. */
  lemma ClickEnvelopeDimensions(d: Record, store: Value, vue: Value, s: Settings, inp: TransformInputs)
    requires IsClick(d) && "eventType" !in d && "clickBizId" !in d && "customData" !in d
    requires UserDimensions(GetUserInfo(store)).Some?
    ensures var e := TransformDataForSls(d, store, vue, s, inp).value;
            && "clickBizId" in e.dimensions && e.dimensions["clickBizId"] == Get(d, "bizId")
            && "eventType" !in e.dimensions && "eventType" !in Mito.RawKeys(e.rawData)
            && "clickBizId" !in Mito.RawKeys(e.rawData)
            && e.dataType == Str("click")
  {
    assert CustomKeys(d) == {};
    EventTypeIsNoDimension();
    DimensionsClickWins(d, GetUserInfo(store), inp.browser, "clickBizId");
    ClickDimensionsCopyFields(d);
  }

  /** The flattened click record is typed `click` and holds the business
      id, which lands in the `clickBizId` column. */
  lemma ClickColumnOfEnvelope(d: Record, store: Value, vue: Value, s: Settings, inp: TransformInputs,
                              c: AdapterConfig, amb: Ambient)
    requires IsClick(d) && "eventType" !in d && "clickBizId" !in d && "customData" !in d
    requires Truthy(Get(d, "bizId"))
    requires UserDimensions(GetUserInfo(store)).Some?
    ensures var e := TransformDataForSls(d, store, vue, s, inp).value;
            var t := TransformLogData(c, Mito.TransformDataForSlsLog(e), amb).typeFields;
            ClickBizId in t && t[ClickBizId] == Get(d, "bizId")
  {
    ClickEnvelopeDimensions(d, store, vue, s, inp);
    var e := TransformDataForSls(d, store, vue, s, inp).value;
    Mito.FlattenedEventType(e);
    var f := Mito.TransformDataForSlsLog(e);
    assert Get(f, "clickBizId") == Get(d, "bizId");
    assert EventTypeOf(f) == Str("click");
    ClickBizIdColumn(c, f, amb);
  }

  /** The business id of a click reaches the `clickBizId` column of the
      record the transport builds from it. */
  lemma ClickBizIdReachesColumn(bizId: string, x: int, y: int, info: Record, loc: Location, doc: Document,
                                o: Mito.Orchestrator, tick: Mito.Tick, c: AdapterConfig, amb: Ambient)
    requires bizId != ""
    requires UserDimensions(GetUserInfo(o.store)).Some?
    ensures var d := Mito.CustomData(ActionPayload("click", ClickData(bizId, x, y, info, loc, doc, tick.amb.nowMs)), tick.amb.nowMs);
            var e := TransformDataForSls(d, o.store, Undefined, o.settings, tick.transform).value;
            var t := TransformLogData(c, Mito.TransformDataForSlsLog(e), amb).typeFields;
            ClickBizId in t && t[ClickBizId] == Str(bizId)
  {
    ClickEventShape(bizId, x, y, info, loc, doc, tick.amb.nowMs);
    var d := Mito.CustomData(ActionPayload("click", ClickData(bizId, x, y, info, loc, doc, tick.amb.nowMs)), tick.amb.nowMs);
    ClickColumnOfEnvelope(d, o.store, Undefined, o.settings, tick.transform, c, amb);
  }

  /** `router.currentRoute || {}`. */
  function CurrentRoute(m: Manager): Value {
    Or(Prop(m.router, "currentRoute"), Obj(map[]))
  }
}

=== FILE: sls_adapter.dfy ===
/** The SLS transport's lifecycle and delivery: initialisation, sending one
    log or a batch, the retry queue and its timed passes, configuration
    updates and teardown. Every transport outcome (`slsTracker.send`
    resolving or rejecting) is an input. */
module SlsAdapter {
  import opened Wrappers
  import opened Strings
  import opened JsValue
  import opened Host
  import opened LogSchema

  /** Where the transport is in its life: the source's `isInitialized` and
      `isDestroyed` flags, which are never both set. */
  datatype Lifecycle = Uninitialized | Initialized | Destroyed

  /** A log whose delivery failed, waiting in the retry queue. */
  datatype RetryItem = RetryItem(data: Record, error: string, timestamp: nat, retryCount: int)

  /** The transport. `hasTracker` is whether a tracker instance exists;
      `timers` holds the delays of the retry passes scheduled and not yet
      run. */
  datatype Adapter = Adapter(
    config: AdapterConfig,
    lifecycle: Lifecycle,
    hasTracker: bool,
    retryQueue: seq<RetryItem>,
    timers: seq<int>)

  /** How one `slsTracker.send` ended. */
  datatype TransportResult = Delivered | Failed(message: string)

  /** An adapter after an operation, and the records it handed to the
      tracker's `send`. */
  datatype Step = Step(adapter: Adapter, sent: seq<LogRecord>)

  /** The constructor: settings with defaults, nothing initialised. */
  function New(o: AdapterOptions, env: Env, generatedSessionId: string): (a: Adapter)
    ensures a.lifecycle == Uninitialized && !a.hasTracker
    ensures a.retryQueue == [] && a.timers == []
    ensures a.config == MakeConfig(o, env, generatedSessionId)
  {
    Adapter(MakeConfig(o, env, generatedSessionId), Uninitialized, false, [], [])
  }

  /** The tracker exists exactly while the adapter is initialised. */
  predicate Valid(a: Adapter) {
    a.hasTracker <==> a.lifecycle == Initialized
  }

  /** `checkReady`. */
  predicate CheckReady(a: Adapter) {
    a.config.enabled && a.lifecycle == Initialized && a.hasTracker
  }

  const RetryableErrors: seq<string> := ["Network timeout", "Connection failed", "Service unavailable", "Rate limit exceeded"]

  /** `shouldRetry`: the error message mentions one of the transient
      failures. */
  predicate ShouldRetry(message: string) {
    exists i :: 0 <= i < |RetryableErrors| && Contains(message, RetryableErrors[i])
  }

  /** A transient failure is recognised wherever its phrase sits in the
      message, and a message too short for any phrase (the empty one in
      particular) never schedules a retry. */
  lemma ShouldRetryInContext(pre: string, message: string, post: string)
    ensures ShouldRetry(message) ==> ShouldRetry(pre + message + post)
    ensures |message| < 15 ==> !ShouldRetry(message)
  {
    var whole := pre + message + post;
    forall i | 0 <= i < |RetryableErrors|
      ensures Contains(message, RetryableErrors[i]) ==> Contains(whole, RetryableErrors[i])
      ensures |message| < 15 ==> !Contains(message, RetryableErrors[i])
    {
      var pat := RetryableErrors[i];
      ContainsMeansOccurs(message, pat);
      ContainsMeansOccurs(whole, pat);
      if Contains(message, pat) {
        var j :| OccursAt(message, pat, j);
        assert whole[|pre| + j..|pre| + j + |pat|] == message[j..j + |pat|];
        assert OccursAt(whole, pat, |pre| + j);
      }
    }
  }

  /** For an adapter whose tracker exists exactly while it is initialised,
      readiness is the enabled switch together with initialisation. */
  lemma ReadyIsEnabledAndInitialised(a: Adapter)
    requires Valid(a)
    ensures CheckReady(a) <==> a.config.enabled && a.lifecycle == Initialized
  {
  }

  /** `handleSendError`: the failed log joins the queue with a zero retry
      count; a transient failure also schedules a retry pass. */
  function HandleSendError(a: Adapter, data: Record, message: string, nowMs: nat): (r: Adapter)
    ensures r.retryQueue == a.retryQueue + [RetryItem(data, message, nowMs, 0)]
    ensures r.timers == if ShouldRetry(message) then a.timers + [a.config.retryInterval] else a.timers
    ensures r.config == a.config && r.lifecycle == a.lifecycle && r.hasTracker == a.hasTracker
  {
    var queued := a.(retryQueue := a.retryQueue + [RetryItem(data, message, nowMs, 0)]);
    if ShouldRetry(message) then queued.(timers := a.timers + [a.config.retryInterval]) else queued
  }

  /** `sendLog`: nothing happens unless the adapter is ready; a delivered
      log is sent as its transformed record; a failed one is queued. */
  function SendLog(a: Adapter, data: Record, amb: Ambient, outcome: TransportResult): (s: Step)
    ensures !CheckReady(a) ==> s == Step(a, [])
    ensures CheckReady(a) && outcome.Delivered? ==> s == Step(a, [TransformLogData(a.config, data, amb)])
    ensures CheckReady(a) && outcome.Failed? ==>
              s.sent == [] && s.adapter == HandleSendError(a, data, outcome.message, amb.nowMs)
  {
    if !CheckReady(a) then Step(a, [])
    else match outcome
      case Delivered => Step(a, [TransformLogData(a.config, data, amb)])
      case Failed(message) => Step(HandleSendError(a, data, message, amb.nowMs), [])
  }

  /** The log `init` sends once the tracker exists. */
  function InitRecord(nowMs: nat): Record {
    map[
      "type" := Str("system"),
      "category" := Str("init"),
      "message" := Str("SLS WebTracking adapter initialized successfully"),
      "level" := Str("info"),
      "timestamp" := Num(nowMs)]
  }

  const DestroyedMessage: string := "SLSWebTrackingAdapter has been destroyed, cannot reinitialize"

  /** `init` either completes, or rejects with a message. */
  datatype InitOutcome = Started(step: Step) | Threw(message: string)

  /** `init`. `trackerError` is the error the tracker's constructor throws,
      if it does; `outcome` is how sending the initialisation log ends. */
  function Init(a: Adapter, amb: Ambient, trackerError: Option<string>, outcome: TransportResult): (r: InitOutcome)
    ensures a.lifecycle == Initialized ==> r == Started(Step(a, []))
    ensures a.lifecycle == Destroyed ==> r == Threw(DestroyedMessage)
    ensures a.lifecycle == Uninitialized && !a.config.enabled ==> r == Started(Step(a, []))
    ensures a.lifecycle == Uninitialized && a.config.enabled && trackerError.Some? ==> r == Threw(trackerError.value)
    ensures a.lifecycle == Uninitialized && a.config.enabled && trackerError.None? ==>
              r.Started? && r.step.adapter.lifecycle == Initialized && r.step.adapter.hasTracker
              && CheckReady(r.step.adapter)
  {
    if a.lifecycle == Initialized then Started(Step(a, []))
    else if a.lifecycle == Destroyed then Threw(DestroyedMessage)
    else if !a.config.enabled then Started(Step(a, []))
    else if trackerError.Some? then Threw(trackerError.value)
    else
      var ready := a.(lifecycle := Initialized, hasTracker := true);
      Started(SendLog(ready, InitRecord(amb.nowMs), amb, outcome))
  }

  /** A successful `init` of an enabled adapter delivers exactly the
      initialisation record, or queues it when its send fails. */
  lemma InitSendsSystemRecord(a: Adapter, amb: Ambient, outcome: TransportResult)
    requires a.lifecycle == Uninitialized && a.config.enabled
    ensures outcome.Delivered? ==>
              Init(a, amb, None, outcome).step.sent == [TransformLogData(a.config, InitRecord(amb.nowMs), amb)]
    ensures outcome.Failed? ==>
              && Init(a, amb, None, outcome).step.sent == []
              && Init(a, amb, None, outcome).step.adapter.retryQueue
                 == a.retryQueue + [RetryItem(InitRecord(amb.nowMs), outcome.message, amb.nowMs, 0)]
  {
  }

  /** Index of the first failed send among the first `n`, or `n`. */
  function FirstFailure(outcome: nat -> TransportResult, n: nat): (k: nat)
    ensures k <= n
    ensures forall i :: 0 <= i < k ==> outcome(i).Delivered?
    ensures k < n ==> outcome(k).Failed?
  {
    if n == 0 then 0
    else
      var k := FirstFailure(outcome, n - 1);
      if k < n - 1 then k
      else if outcome(n - 1).Failed? then n - 1
      else n
  }

  /** `handleSendError` for each log in order, all with the same error. */
  function RequeueAll(a: Adapter, logs: seq<Record>, message: string, nowMs: nat): (r: Adapter)
    ensures |r.retryQueue| == |a.retryQueue| + |logs|
    ensures r.retryQueue[..|a.retryQueue|] == a.retryQueue
    ensures forall i :: 0 <= i < |logs| ==> r.retryQueue[|a.retryQueue| + i] == RetryItem(logs[i], message, nowMs, 0)
    ensures r.config == a.config && r.lifecycle == a.lifecycle && r.hasTracker == a.hasTracker
    decreases |logs|
  {
    if |logs| == 0 then a
    else
      var r := RequeueAll(HandleSendError(a, logs[0], message, nowMs), logs[1..], message, nowMs);
      assert forall i :: 1 <= i < |logs| ==> logs[i] == logs[1..][i - 1];
      r
  }

  /** `sendBatchLogs`. `outcome(i)` is how the send of the i-th log ends;
      sends stop at the first failure, and then every log of the batch,
      including those already delivered, is queued for retry. */
  function SendBatchLogs(a: Adapter, logs: seq<Record>, amb: Ambient, outcome: nat -> TransportResult): (s: Step)
    ensures !CheckReady(a) || |logs| == 0 ==> s == Step(a, [])
    ensures CheckReady(a) && |logs| > 0 ==>
              |s.sent| == FirstFailure(outcome, |logs|)
    ensures CheckReady(a) && |logs| > 0 ==>
              forall i :: 0 <= i < |s.sent| ==> s.sent[i] == TransformLogData(a.config, logs[i], amb)
    ensures CheckReady(a) && FirstFailure(outcome, |logs|) == |logs| ==> s.adapter == a
    ensures CheckReady(a) && FirstFailure(outcome, |logs|) < |logs| ==>
              s.adapter == RequeueAll(a, logs, outcome(FirstFailure(outcome, |logs|)).message, amb.nowMs)
  {
    if !CheckReady(a) || |logs| == 0 then Step(a, [])
    else
      var k := FirstFailure(outcome, |logs|);
      var sent := seq(k, i requires 0 <= i < k => TransformLogData(a.config, logs[i], amb));
      if k == |logs| then Step(a, sent)
      else Step(RequeueAll(a, logs, outcome(k).message, amb.nowMs), sent)
  }

  /** A batch whose second send fails has delivered its first log and still
      queues it for another delivery. */
  lemma BatchFailureRequeuesDelivered(a: Adapter, logs: seq<Record>, amb: Ambient, outcome: nat -> TransportResult)
    requires CheckReady(a) && |logs| >= 2
    requires outcome(0).Delivered? && outcome(1).Failed?
    ensures var s := SendBatchLogs(a, logs, amb, outcome);
            && s.sent == [TransformLogData(a.config, logs[0], amb)]
            && s.adapter.retryQueue[|a.retryQueue|].data == logs[0]
            && |s.adapter.retryQueue| == |a.retryQueue| + |logs|
  {
    assert FirstFailure(outcome, |logs|) == 1;
  }

  /** The queued items a pass resends: those under the retry ceiling. */
  function BelowCeiling(q: seq<RetryItem>, ceiling: int): (r: seq<RetryItem>)
    ensures |r| <= |q|
    ensures forall i :: 0 <= i < |r| ==> r[i] in q && r[i].retryCount < ceiling
    ensures forall x :: x in q && x.retryCount < ceiling ==> x in r
  {
    if |q| == 0 then []
    else if q[0].retryCount < ceiling then [q[0]] + BelowCeiling(q[1..], ceiling)
    else BelowCeiling(q[1..], ceiling)
  }

  /** The queued items a pass keeps: those at or over the ceiling. */
  function AtCeiling(q: seq<RetryItem>, ceiling: int): (r: seq<RetryItem>)
    ensures |r| <= |q|
    ensures forall i :: 0 <= i < |r| ==> r[i] in q && r[i].retryCount >= ceiling
    ensures forall x :: x in q && x.retryCount >= ceiling ==> x in r
  {
    if |q| == 0 then []
    else if q[0].retryCount >= ceiling then [q[0]] + AtCeiling(q[1..], ceiling)
    else AtCeiling(q[1..], ceiling)
  }

  /** Together the two filters keep every queued item exactly once. */
  lemma {:induction false} CeilingSplit(q: seq<RetryItem>, ceiling: int)
    ensures |BelowCeiling(q, ceiling)| + |AtCeiling(q, ceiling)| == |q|
  {
    if |q| > 0 {
      CeilingSplit(q[1..], ceiling);
    }
  }

  /** Resends the items in order, the i-th with `outcome(offset + i)`. */
  function ResendAll(a: Adapter, items: seq<RetryItem>, amb: Ambient, outcome: nat -> TransportResult, offset: nat): (s: Step)
    ensures s.adapter.config == a.config && s.adapter.lifecycle == a.lifecycle && s.adapter.hasTracker == a.hasTracker
    ensures !CheckReady(a) ==> s == Step(a, [])
    ensures |s.adapter.retryQueue| >= |a.retryQueue| && s.adapter.retryQueue[..|a.retryQueue|] == a.retryQueue
    ensures |s.adapter.timers| >= |a.timers|
    decreases |items|
  {
    if |items| == 0 then Step(a, [])
    else
      var first := SendLog(a, items[0].data, amb, outcome(offset));
      var rest := ResendAll(first.adapter, items[1..], amb, outcome, offset + 1);
      assert rest.adapter.retryQueue[..|a.retryQueue|] == rest.adapter.retryQueue[..|first.adapter.retryQueue|][..|a.retryQueue|];
      Step(rest.adapter, first.sent + rest.sent)
  }

  /** What a resend of `items` queues again, independent of the adapter:
      each item whose send fails, as a new entry with its own data, the
      error's message, the time and a zero count, in order. */
  function Requeued(items: seq<RetryItem>, amb: Ambient, outcome: nat -> TransportResult, offset: nat): (r: seq<RetryItem>)
    ensures |r| <= |items|
    ensures AllFresh(r)
    decreases |items|
  {
    if |items| == 0 then []
    else
      var head := if outcome(offset).Failed? then [RetryItem(items[0].data, outcome(offset).message, amb.nowMs, 0)] else [];
      head + Requeued(items[1..], amb, outcome, offset + 1)
  }

  /** What a resend of `items` delivers: the record of each item whose send
      succeeds, in order. */
  function DeliveredRecords(c: AdapterConfig, items: seq<RetryItem>, amb: Ambient,
                            outcome: nat -> TransportResult, offset: nat): (r: seq<LogRecord>)
    ensures |r| <= |items|
    decreases |items|
  {
    if |items| == 0 then []
    else
      var head := if outcome(offset).Delivered? then [TransformLogData(c, items[0].data, amb)] else [];
      head + DeliveredRecords(c, items[1..], amb, outcome, offset + 1)
  }

  /** Every item goes to exactly one of the two: delivered or queued again. */
  lemma {:induction false} DeliveredOrRequeued(c: AdapterConfig, items: seq<RetryItem>, amb: Ambient,
                                               outcome: nat -> TransportResult, offset: nat)
    ensures |DeliveredRecords(c, items, amb, outcome, offset)| + |Requeued(items, amb, outcome, offset)| == |items|
    decreases |items|
  {
    if |items| > 0 {
      DeliveredOrRequeued(c, items[1..], amb, outcome, offset + 1);
    }
  }

  /** One send of a resend, seen from the queue: a failure appends one
      fresh entry for the item, a success leaves the queue alone, and the
      adapter stays ready either way. */
  lemma ResendHeadQueue(a: Adapter, item: RetryItem, amb: Ambient, result: TransportResult)
    requires CheckReady(a)
    ensures var first := SendLog(a, item.data, amb, result);
            && CheckReady(first.adapter)
            && first.adapter.retryQueue
               == a.retryQueue + (if result.Failed? then [RetryItem(item.data, result.message, amb.nowMs, 0)] else [])
  {
    if result.Delivered? {
      assert a.retryQueue + [] == a.retryQueue;
    }
  }

  /** `ResendAll` one item at a time. */
  lemma ResendAllStep(a: Adapter, items: seq<RetryItem>, amb: Ambient, outcome: nat -> TransportResult, offset: nat)
    requires |items| > 0
    ensures var first := SendLog(a, items[0].data, amb, outcome(offset));
            var rest := ResendAll(first.adapter, items[1..], amb, outcome, offset + 1);
            ResendAll(a, items, amb, outcome, offset) == Step(rest.adapter, first.sent + rest.sent)
  {
  }

  /** A resend on a ready adapter appends exactly the items whose send
      fails, each with its own data and in order. */
  lemma {:induction false} ResendRequeues(a: Adapter, items: seq<RetryItem>, amb: Ambient,
                                          outcome: nat -> TransportResult, offset: nat)
    requires CheckReady(a)
    ensures ResendAll(a, items, amb, outcome, offset).adapter.retryQueue == a.retryQueue + Requeued(items, amb, outcome, offset)
    decreases |items|
  {
    if |items| == 0 {
      assert a.retryQueue + [] == a.retryQueue;
    } else {
      var first := SendLog(a, items[0].data, amb, outcome(offset));
      ResendHeadQueue(a, items[0], amb, outcome(offset));
      ResendAllStep(a, items, amb, outcome, offset);
      ResendRequeues(first.adapter, items[1..], amb, outcome, offset + 1);
      var head := if outcome(offset).Failed? then [RetryItem(items[0].data, outcome(offset).message, amb.nowMs, 0)] else [];
      var rest := Requeued(items[1..], amb, outcome, offset + 1);
      assert Requeued(items, amb, outcome, offset) == head + rest;
      AppendAssociative(a.retryQueue, head, rest);
    }
  }

  lemma AppendAssociative<T>(x: seq<T>, y: seq<T>, z: seq<T>)
    ensures (x + y) + z == x + (y + z)
  {
  }

  /** A resend on a ready adapter sends exactly the records of the items
      whose send succeeds, in order. */
  lemma {:induction false} ResendDelivers(a: Adapter, items: seq<RetryItem>, amb: Ambient,
                                          outcome: nat -> TransportResult, offset: nat)
    requires CheckReady(a)
    ensures ResendAll(a, items, amb, outcome, offset).sent == DeliveredRecords(a.config, items, amb, outcome, offset)
    decreases |items|
  {
    if |items| > 0 {
      var first := SendLog(a, items[0].data, amb, outcome(offset));
      ResendDelivers(first.adapter, items[1..], amb, outcome, offset + 1);
    }
  }

  /** `retryFailedLogs`: the items under the ceiling leave the queue and are
      sent again; each that fails again re-enters as a new item. */
  function RetryFailedLogs(a: Adapter, amb: Ambient, outcome: nat -> TransportResult): (s: Step)
    ensures a.retryQueue == [] ==> s == Step(a, [])
    ensures a.retryQueue != [] && !CheckReady(a) ==>
              s == Step(a.(retryQueue := AtCeiling(a.retryQueue, a.config.retryCount)), [])
    ensures a.retryQueue != [] ==>
              var kept := AtCeiling(a.retryQueue, a.config.retryCount);
              |s.adapter.retryQueue| >= |kept| && s.adapter.retryQueue[..|kept|] == kept
    ensures a.retryQueue != [] && CheckReady(a) ==>
              var toRetry := BelowCeiling(a.retryQueue, a.config.retryCount);
              && s.adapter.retryQueue == AtCeiling(a.retryQueue, a.config.retryCount) + Requeued(toRetry, amb, outcome, 0)
              && s.sent == DeliveredRecords(a.config, toRetry, amb, outcome, 0)
    ensures s.adapter.config == a.config && s.adapter.lifecycle == a.lifecycle && s.adapter.hasTracker == a.hasTracker
  {
    if |a.retryQueue| == 0 then Step(a, [])
    else
      var ceiling := a.config.retryCount;
      var toRetry := BelowCeiling(a.retryQueue, ceiling);
      var start := a.(retryQueue := AtCeiling(a.retryQueue, ceiling));
      if CheckReady(a) then
        ResendRequeues(start, toRetry, amb, outcome, 0);
        ResendDelivers(start, toRetry, amb, outcome, 0);
        ResendAll(start, toRetry, amb, outcome, 0)
      else
        ResendAll(start, toRetry, amb, outcome, 0)
  }

  /** Runs the `i`-th scheduled retry pass; with no such timer nothing
      happens. */
  function FireTimer(a: Adapter, i: nat, amb: Ambient, outcome: nat -> TransportResult): (s: Step)
    ensures i >= |a.timers| ==> s == Step(a, [])
    ensures i < |a.timers| ==> |s.adapter.timers| >= |a.timers| - 1
  {
    if i >= |a.timers| then Step(a, [])
    else
      var a' := a.(timers := a.timers[..i] + a.timers[i + 1..]);
      TimersOnlyGrow(a', amb, outcome);
      RetryFailedLogs(a', amb, outcome)
  }

  /** Each resent item is either delivered or back in the queue, so no log
      is lost while the adapter is ready. */
  lemma {:induction false} ResendAccounting(a: Adapter, items: seq<RetryItem>, amb: Ambient,
                                            outcome: nat -> TransportResult, offset: nat)
    requires CheckReady(a)
    ensures var s := ResendAll(a, items, amb, outcome, offset);
            |s.sent| + |s.adapter.retryQueue| == |a.retryQueue| + |items|
    decreases |items|
  {
    if |items| > 0 {
      var first := SendLog(a, items[0].data, amb, outcome(offset));
      ResendAccounting(first.adapter, items[1..], amb, outcome, offset + 1);
    }
  }

  /** A pass never cancels a scheduled timer. */
  lemma TimersOnlyGrow(a: Adapter, amb: Ambient, outcome: nat -> TransportResult)
    ensures |RetryFailedLogs(a, amb, outcome).adapter.timers| >= |a.timers|
  {
  }

  /** Every queued item has never been retried. */
  predicate AllFresh(q: seq<RetryItem>) {
    forall i :: 0 <= i < |q| ==> q[i].retryCount == 0
  }

  /** Resending keeps the queue fresh: a log that fails again re-enters as
      a new item with a zero count. */
  lemma {:induction false} ResendKeepsFresh(a: Adapter, items: seq<RetryItem>, amb: Ambient,
                                            outcome: nat -> TransportResult, offset: nat)
    requires AllFresh(a.retryQueue)
    ensures AllFresh(ResendAll(a, items, amb, outcome, offset).adapter.retryQueue)
    decreases |items|
  {
    if |items| > 0 {
      var first := SendLog(a, items[0].data, amb, outcome(offset));
      assert AllFresh(first.adapter.retryQueue);
      ResendKeepsFresh(first.adapter, items[1..], amb, outcome, offset + 1);
    }
  }

  /** Under a positive ceiling a fresh queue is resent whole. */
  lemma {:induction false} FreshUnderPositiveCeiling(q: seq<RetryItem>, ceiling: int)
    requires AllFresh(q) && ceiling >= 1
    ensures BelowCeiling(q, ceiling) == q && AtCeiling(q, ceiling) == []
  {
    if |q| > 0 {
      FreshUnderPositiveCeiling(q[1..], ceiling);
      assert [q[0]] + q[1..] == q;
    }
  }

  /** Under a ceiling of zero or less a fresh queue is kept whole. */
  lemma {:induction false} FreshUnderNonPositiveCeiling(q: seq<RetryItem>, ceiling: int)
    requires AllFresh(q) && ceiling <= 0
    ensures BelowCeiling(q, ceiling) == [] && AtCeiling(q, ceiling) == q
  {
    if |q| > 0 {
      FreshUnderNonPositiveCeiling(q[1..], ceiling);
      assert [q[0]] + q[1..] == q;
    }
  }

  /** Since every queued item is fresh, a pass with a positive ceiling
      resends the whole queue and keeps none back, and the queue stays
      fresh: the retry count never reaches the ceiling, so no log is ever
      dropped for having been retried too often. */
  lemma RetryPassResendsEverything(a: Adapter, amb: Ambient, outcome: nat -> TransportResult)
    requires CheckReady(a) && AllFresh(a.retryQueue) && a.config.retryCount >= 1
    ensures var s := RetryFailedLogs(a, amb, outcome);
            && s.sent == DeliveredRecords(a.config, a.retryQueue, amb, outcome, 0)
            && s.adapter.retryQueue == Requeued(a.retryQueue, amb, outcome, 0)
            && |s.sent| + |s.adapter.retryQueue| == |a.retryQueue|
            && AllFresh(s.adapter.retryQueue)
  {
    if |a.retryQueue| > 0 {
      FreshUnderPositiveCeiling(a.retryQueue, a.config.retryCount);
      var start := a.(retryQueue := []);
      ResendRequeues(start, a.retryQueue, amb, outcome, 0);
      ResendDelivers(start, a.retryQueue, amb, outcome, 0);
      assert [] + Requeued(a.retryQueue, amb, outcome, 0) == Requeued(a.retryQueue, amb, outcome, 0);
      DeliveredOrRequeued(a.config, a.retryQueue, amb, outcome, 0);
    }
  }

  /** With a ceiling of zero or less no fresh item is ever resent: the pass
      changes nothing. */
  lemma RetryPassWithoutCeiling(a: Adapter, amb: Ambient, outcome: nat -> TransportResult)
    requires AllFresh(a.retryQueue) && a.config.retryCount <= 0
    ensures RetryFailedLogs(a, amb, outcome) == Step(a, [])
  {
    if |a.retryQueue| > 0 {
      FreshUnderNonPositiveCeiling(a.retryQueue, a.config.retryCount);
    }
  }

  /** When every resend is delivered, a pass empties the queue and sends
      the queued logs in order. */
  lemma {:induction false} ResendAllDelivered(a: Adapter, items: seq<RetryItem>, amb: Ambient,
                                              outcome: nat -> TransportResult, offset: nat)
    requires CheckReady(a)
    requires forall i :: offset <= i < offset + |items| ==> outcome(i).Delivered?
    ensures var s := ResendAll(a, items, amb, outcome, offset);
            && s.adapter == a
            && |s.sent| == |items|
            && forall i :: 0 <= i < |items| ==> s.sent[i] == TransformLogData(a.config, items[i].data, amb)
    decreases |items|
  {
    if |items| > 0 {
      ResendAllDelivered(a, items[1..], amb, outcome, offset + 1);
      var rest := ResendAll(a, items[1..], amb, outcome, offset + 1);
      assert forall i :: 1 <= i < |items| ==> items[i] == items[1..][i - 1];
    }
  }

  /** `destroy`: idempotent; the tracker and the queue are dropped, timers
      already scheduled stay. */
  function Destroy(a: Adapter): (r: Adapter)
    ensures a.lifecycle == Destroyed ==> r == a
    ensures r.lifecycle == Destroyed
    ensures a.lifecycle != Destroyed ==>
              !r.hasTracker && r.retryQueue == [] && r.timers == a.timers && r.config == a.config
  {
    if a.lifecycle == Destroyed then a
    else a.(lifecycle := Destroyed, hasTracker := false, retryQueue := [])
  }

  /** Destroying twice is destroying once. */
  lemma DestroyIdempotent(a: Adapter)
    ensures Destroy(Destroy(a)) == Destroy(a)
  {
  }

  /** A destroyed adapter cannot be initialised again, sends nothing, and
      its leftover timers find an empty queue. */
  lemma DestroyedIsFinal(a: Adapter, data: Record, logs: seq<Record>, amb: Ambient, trackerError: Option<string>,
                         outcome: TransportResult, outcomes: nat -> TransportResult, i: nat)
    ensures var d := Destroy(a);
            && Init(d, amb, trackerError, outcome) == Threw(DestroyedMessage)
            && SendLog(d, data, amb, outcome) == Step(d, [])
            && SendBatchLogs(d, logs, amb, outcomes) == Step(d, [])
            && (a.lifecycle != Destroyed ==> FireTimer(d, i, amb, outcomes).sent == [])
  {
  }

  /** An enabled adapter that has been initialised reports so, and sends a
      custom log as its transformed record. */
  lemma InitThenSend(env: Env, g: string, amb: Ambient)
    ensures var a := New(NoOptions.(enabled := Some(true), debug := Some(false)), env, g);
            var r := Init(a, amb, None, Delivered);
            && r.Started?
            && GetStats(r.step.adapter).isInitialized
            && SendLog(r.step.adapter, map["type" := Str("custom"), "message" := Str("hello")], amb, Delivered).sent
               == [TransformLogData(a.config, map["type" := Str("custom"), "message" := Str("hello")], amb)]
  {
  }

  /** `setUserId`: only the configured user id changes. The parameter is
      declared a string but receives whatever the caller passes. */
  function SetUserId(a: Adapter, userId: Value): (r: Adapter)
    ensures r.config.userId == userId
    ensures r.config.(userId := a.config.userId) == a.config
    ensures r.lifecycle == a.lifecycle && r.hasTracker == a.hasTracker
    ensures r.retryQueue == a.retryQueue && r.timers == a.timers
  {
    a.(config := a.config.(userId := userId))
  }

  /** `updateConfig`: `{ ...config, ...patch }` with only the given options
      in the patch; an explicitly given empty string replaces the setting. */
  function UpdateConfig(a: Adapter, patch: AdapterOptions): (r: Adapter)
    ensures IsCoalesceDefault(patch.host, a.config.host, r.config.host)
    ensures IsCoalesceDefault(patch.project, a.config.project, r.config.project)
    ensures IsCoalesceDefault(patch.logstore, a.config.logstore, r.config.logstore)
    ensures IsCoalesceDefault(patch.time, a.config.time, r.config.time)
    ensures IsCoalesceDefault(patch.count, a.config.count, r.config.count)
    ensures IsCoalesceDefault(patch.topic, a.config.topic, r.config.topic)
    ensures IsCoalesceDefault(patch.source, a.config.source, r.config.source)
    ensures IsCoalesceDefault(patch.environment, a.config.environment, r.config.environment)
    ensures IsCoalesceDefault(patch.debug, a.config.debug, r.config.debug)
    ensures IsCoalesceDefault(patch.enabled, a.config.enabled, r.config.enabled)
    ensures patch.userId.Undefined? ==> r.config.userId == a.config.userId
    ensures !patch.userId.Undefined? ==> r.config.userId == patch.userId
    ensures IsCoalesceDefault(patch.sessionId, a.config.sessionId, r.config.sessionId)
    ensures IsCoalesceDefault(patch.appName, a.config.appName, r.config.appName)
    ensures IsCoalesceDefault(patch.appVersion, a.config.appVersion, r.config.appVersion)
    ensures IsCoalesceDefault(patch.retryCount, a.config.retryCount, r.config.retryCount)
    ensures IsCoalesceDefault(patch.retryInterval, a.config.retryInterval, r.config.retryInterval)
    ensures patch == NoOptions ==> r == a
    ensures r.lifecycle == a.lifecycle && r.hasTracker == a.hasTracker && r.retryQueue == a.retryQueue
  {
    var c := a.config;
    a.(config := AdapterConfig(
      OptOr(patch.host, c.host),
      OptOr(patch.project, c.project),
      OptOr(patch.logstore, c.logstore),
      OptOr(patch.time, c.time),
      OptOr(patch.count, c.count),
      OptOr(patch.topic, c.topic),
      OptOr(patch.source, c.source),
      OptOr(patch.environment, c.environment),
      OptOr(patch.debug, c.debug),
      OptOr(patch.enabled, c.enabled),
      if patch.userId.Undefined? then c.userId else patch.userId,
      OptOr(patch.sessionId, c.sessionId),
      OptOr(patch.appName, c.appName),
      OptOr(patch.appVersion, c.appVersion),
      OptOr(patch.retryCount, c.retryCount),
      OptOr(patch.retryInterval, c.retryInterval)))
  }

  /** Applying the same patch twice is applying it once. */
  lemma UpdateConfigIdempotent(a: Adapter, patch: AdapterOptions)
    ensures UpdateConfig(UpdateConfig(a, patch), patch) == UpdateConfig(a, patch)
  {
  }

  /** The value of one option after two patches: the later patch's if it
      gives one, else the earlier patch's, else the value before both. */
  predicate LaterWins<T(==)>(later: Option<T>, earlier: Option<T>, before: T, r: T) {
    if later.Some? then r == later.value
    else if earlier.Some? then r == earlier.value
    else r == before
  }

  /** Two patches applied in turn: for every option the later patch wins
      where it gives one, the earlier patch where only it does, and the
      setting from before both patches is kept otherwise (`userId` counts
      as given unless it is `undefined`). */
  lemma UpdateConfigLaterWins(a: Adapter, first: AdapterOptions, second: AdapterOptions)
    ensures LaterWins(second.host, first.host, a.config.host, UpdateConfig(UpdateConfig(a, first), second).config.host)
    ensures LaterWins(second.project, first.project, a.config.project, UpdateConfig(UpdateConfig(a, first), second).config.project)
    ensures LaterWins(second.logstore, first.logstore, a.config.logstore, UpdateConfig(UpdateConfig(a, first), second).config.logstore)
    ensures LaterWins(second.time, first.time, a.config.time, UpdateConfig(UpdateConfig(a, first), second).config.time)
    ensures LaterWins(second.count, first.count, a.config.count, UpdateConfig(UpdateConfig(a, first), second).config.count)
    ensures LaterWins(second.topic, first.topic, a.config.topic, UpdateConfig(UpdateConfig(a, first), second).config.topic)
    ensures LaterWins(second.source, first.source, a.config.source, UpdateConfig(UpdateConfig(a, first), second).config.source)
    ensures LaterWins(second.environment, first.environment, a.config.environment, UpdateConfig(UpdateConfig(a, first), second).config.environment)
    ensures LaterWins(second.debug, first.debug, a.config.debug, UpdateConfig(UpdateConfig(a, first), second).config.debug)
    ensures LaterWins(second.enabled, first.enabled, a.config.enabled, UpdateConfig(UpdateConfig(a, first), second).config.enabled)
    ensures !second.userId.Undefined? ==> UpdateConfig(UpdateConfig(a, first), second).config.userId == second.userId
    ensures second.userId.Undefined? && !first.userId.Undefined? ==> UpdateConfig(UpdateConfig(a, first), second).config.userId == first.userId
    ensures second.userId.Undefined? && first.userId.Undefined? ==> UpdateConfig(UpdateConfig(a, first), second).config.userId == a.config.userId
    ensures LaterWins(second.sessionId, first.sessionId, a.config.sessionId, UpdateConfig(UpdateConfig(a, first), second).config.sessionId)
    ensures LaterWins(second.appName, first.appName, a.config.appName, UpdateConfig(UpdateConfig(a, first), second).config.appName)
    ensures LaterWins(second.appVersion, first.appVersion, a.config.appVersion, UpdateConfig(UpdateConfig(a, first), second).config.appVersion)
    ensures LaterWins(second.retryCount, first.retryCount, a.config.retryCount, UpdateConfig(UpdateConfig(a, first), second).config.retryCount)
    ensures LaterWins(second.retryInterval, first.retryInterval, a.config.retryInterval, UpdateConfig(UpdateConfig(a, first), second).config.retryInterval)
  {
  }

  /** Disabling through `updateConfig` silences an initialised adapter:
      nothing is sent and nothing is queued. */
  lemma DisableSilences(a: Adapter, patch: AdapterOptions, data: Record, amb: Ambient, outcome: TransportResult)
    requires patch.enabled == Some(false)
    ensures var d := UpdateConfig(a, patch);
            SendLog(d, data, amb, outcome) == Step(d, [])
  {
  }

  /** `getStats`. */
  datatype Stats = Stats(
    isInitialized: bool,
    isDestroyed: bool,
    pendingLogsCount: nat,
    retryQueueCount: nat,
    project: string,
    logstore: string,
    enabled: bool)

  /** `getStats`; the source never adds to its pending list, so its count is
      always zero. */
  function GetStats(a: Adapter): (s: Stats)
    ensures s.isInitialized <==> a.lifecycle == Initialized
    ensures s.isDestroyed <==> a.lifecycle == Destroyed
    ensures !(s.isInitialized && s.isDestroyed)
    ensures s.retryQueueCount == |a.retryQueue|
  {
    Stats(a.lifecycle == Initialized, a.lifecycle == Destroyed, 0, |a.retryQueue|,
          a.config.project, a.config.logstore, a.config.enabled)
  }

  /** The transport's invariants hold across every operation: the tracker
      exists exactly while initialised, and every queued item is fresh. */
  predicate Good(a: Adapter) {
    Valid(a) && AllFresh(a.retryQueue)
  }

  lemma NewIsGood(o: AdapterOptions, env: Env, g: string)
    ensures Good(New(o, env, g))
  {
  }

  lemma InitKeepsGood(a: Adapter, amb: Ambient, trackerError: Option<string>, outcome: TransportResult)
    requires Good(a)
    ensures var r := Init(a, amb, trackerError, outcome);
            r.Started? ==> Good(r.step.adapter)
  {
  }

  lemma SendLogKeepsGood(a: Adapter, data: Record, amb: Ambient, outcome: TransportResult)
    requires Good(a)
    ensures Good(SendLog(a, data, amb, outcome).adapter)
  {
  }

  lemma {:induction false} RequeueAllKeepsFresh(a: Adapter, logs: seq<Record>, message: string, nowMs: nat)
    requires AllFresh(a.retryQueue)
    ensures AllFresh(RequeueAll(a, logs, message, nowMs).retryQueue)
  {
    var r := RequeueAll(a, logs, message, nowMs);
    forall i | 0 <= i < |r.retryQueue| ensures r.retryQueue[i].retryCount == 0 {
      if i < |a.retryQueue| {
        assert r.retryQueue[i] == r.retryQueue[..|a.retryQueue|][i];
      } else {
        assert r.retryQueue[i] == RetryItem(logs[i - |a.retryQueue|], message, nowMs, 0);
      }
    }
  }

  lemma SendBatchKeepsGood(a: Adapter, logs: seq<Record>, amb: Ambient, outcome: nat -> TransportResult)
    requires Good(a)
    ensures Good(SendBatchLogs(a, logs, amb, outcome).adapter)
  {
    if CheckReady(a) && |logs| > 0 {
      var k := FirstFailure(outcome, |logs|);
      if k < |logs| {
        RequeueAllKeepsFresh(a, logs, outcome(k).message, amb.nowMs);
      }
    }
  }

  lemma RetryKeepsGood(a: Adapter, amb: Ambient, outcome: nat -> TransportResult)
    requires Good(a)
    ensures Good(RetryFailedLogs(a, amb, outcome).adapter)
  {
    if |a.retryQueue| > 0 {
      var ceiling := a.config.retryCount;
      var kept := AtCeiling(a.retryQueue, ceiling);
      assert AllFresh(kept) by {
        forall i | 0 <= i < |kept| ensures kept[i].retryCount == 0 {
          assert kept[i] in a.retryQueue;
        }
      }
      ResendKeepsFresh(a.(retryQueue := kept), BelowCeiling(a.retryQueue, ceiling), amb, outcome, 0);
    }
  }

  lemma DestroyKeepsGood(a: Adapter)
    requires Good(a)
    ensures Good(Destroy(a))
  {
  }
}

=== FILE: strings.dfy ===
/** String operations the pipeline relies on, with the JavaScript meaning
    of each (`split`, `join`, `trim`, `toLowerCase`, `includes`, `endsWith`,
    `replace(/\s+/g, ...)`). Strings are sequences of Unicode scalar values;
    case mapping is ASCII-only. */
module Strings {
  import opened Wrappers

  /** The characters JavaScript's `\s` and `String.prototype.trim` treat as
      white space (WhiteSpace and LineTerminator). */
  predicate IsWhitespace(c: char) {
    || c == ' ' || c == '\t' || c == '\n' || c == '\r'
    || c == '\U{000B}' || c == '\U{000C}' || c == '\U{00A0}' || c == '\U{1680}'
    || ('\U{2000}' <= c <= '\U{200A}')
    || c == '\U{2028}' || c == '\U{2029}' || c == '\U{202F}' || c == '\U{205F}'
    || c == '\U{3000}' || c == '\U{FEFF}'
  }

  predicate NoWhitespace(s: string) {
    forall i :: 0 <= i < |s| ==> !IsWhitespace(s[i])
  }

  function LowerChar(c: char): char {
    if 'A' <= c <= 'Z' then (c as int + 32) as char else c
  }

  /** `toLowerCase`, restricted to ASCII letters. */
  function Lower(s: string): (r: string)
    ensures |r| == |s|
    ensures forall i :: 0 <= i < |s| ==> r[i] == LowerChar(s[i])
  {
    seq(|s|, i requires 0 <= i < |s| => LowerChar(s[i]))
  }

  function TrimStart(s: string): (r: string)
    ensures |r| <= |s| && r == s[|s| - |r|..]
    ensures |r| > 0 ==> !IsWhitespace(r[0])
    ensures |s| > 0 && IsWhitespace(s[0]) ==> |r| < |s|
  {
    if |s| > 0 && IsWhitespace(s[0]) then TrimStart(s[1..]) else s
  }

  function TrimEnd(s: string): string {
    if |s| > 0 && IsWhitespace(s[|s| - 1]) then TrimEnd(s[..|s| - 1]) else s
  }

  /** `trim`. */
  function Trim(s: string): string {
    TrimEnd(TrimStart(s))
  }

  predicate StartsWith(s: string, prefix: string) {
    |prefix| <= |s| && s[..|prefix|] == prefix
  }

  /** `endsWith`. */
  predicate EndsWith(s: string, suffix: string) {
    |suffix| <= |s| && s[|s| - |suffix|..] == suffix
  }

  /** `includes`: `sub` occurs somewhere in `s`. */
  predicate Contains(s: string, sub: string)
    decreases |s|
  {
    StartsWith(s, sub) || (|s| > 0 && Contains(s[1..], sub))
  }

  /** Occurrence of `sub` at a given position. */
  predicate OccursAt(s: string, sub: string, i: int) {
    0 <= i && i + |sub| <= |s| && s[i..i + |sub|] == sub
  }

  lemma {:induction false} ContainsMeansOccurs(s: string, sub: string)
    ensures Contains(s, sub) <==> exists i :: OccursAt(s, sub, i)
    decreases |s|
  {
    if StartsWith(s, sub) {
      assert OccursAt(s, sub, 0);
    } else if |s| == 0 {
      assert forall i :: !OccursAt(s, sub, i);
    } else {
      ContainsMeansOccurs(s[1..], sub);
      if exists i :: OccursAt(s[1..], sub, i) {
        var i :| OccursAt(s[1..], sub, i);
        assert s[1..][i..i + |sub|] == s[i + 1..i + 1 + |sub|];
        assert OccursAt(s, sub, i + 1);
      }
      if exists i :: OccursAt(s, sub, i) {
        var i :| OccursAt(s, sub, i);
        assert i != 0;
        assert s[1..][i - 1..i - 1 + |sub|] == s[i..i + |sub|];
        assert OccursAt(s[1..], sub, i - 1);
      }
    }
  }

  /** Index of the first `c` in `s`, or `|s|` when there is none. */
  function IndexOf(s: string, c: char): (k: nat)
    ensures k <= |s|
    ensures k < |s| ==> s[k] == c
    ensures c !in s[..k]
    ensures k == |s| <==> c !in s
  {
    if |s| == 0 then 0
    else if s[0] == c then 0
    else 1 + IndexOf(s[1..], c)
  }

  /** `split(c)` on a one-character separator: the pieces between the
      occurrences of `c`; a string without `c` is one piece. */
  function Split(s: string, c: char): (parts: seq<string>)
    ensures |parts| >= 1
    decreases |s|
  {
    var k := IndexOf(s, c);
    if k == |s| then [s] else [s[..k]] + Split(s[k + 1..], c)
  }

  /** `join(sep)`. */
  function Join(parts: seq<string>, sep: string): string {
    if |parts| == 0 then ""
    else if |parts| == 1 then parts[0]
    else parts[0] + sep + Join(parts[1..], sep)
  }

  /** No piece of a split contains the separator. */
  lemma {:induction false} SplitPiecesAvoidSeparator(s: string, c: char)
    ensures forall i :: 0 <= i < |Split(s, c)| ==> c !in Split(s, c)[i]
    decreases |s|
  {
    var k := IndexOf(s, c);
    if k < |s| {
      SplitPiecesAvoidSeparator(s[k + 1..], c);
    }
  }

  /** Joining the pieces of a split with the separator gives back the string. */
  lemma {:induction false} JoinSplit(s: string, c: char)
    ensures Join(Split(s, c), [c]) == s
    decreases |s|
  {
    var k := IndexOf(s, c);
    if k < |s| {
      var rest := s[k + 1..];
      JoinSplit(rest, c);
      assert Split(s, c) == [s[..k]] + Split(rest, c);
      assert s == s[..k] + [c] + rest;
    }
  }

  /** Splitting a join of separator-free pieces gives back the pieces. */
  lemma {:induction false} SplitJoin(parts: seq<string>, c: char)
    requires |parts| >= 1
    requires forall i :: 0 <= i < |parts| ==> c !in parts[i]
    ensures Split(Join(parts, [c]), c) == parts
    decreases |parts|
  {
    if |parts| == 1 {
      assert IndexOf(parts[0], c) == |parts[0]|;
    } else {
      var tail := Join(parts[1..], [c]);
      var s := parts[0] + [c] + tail;
      assert Join(parts, [c]) == s;
      IndexOfAfterPrefix(parts[0], c, tail);
      assert s[..|parts[0]|] == parts[0];
      assert s[|parts[0]| + 1..] == tail;
      SplitJoin(parts[1..], c);
    }
  }

  lemma {:induction false} IndexOfAfterPrefix(p: string, c: char, tail: string)
    requires c !in p
    ensures IndexOf(p + [c] + tail, c) == |p|
    decreases |p|
  {
    if |p| > 0 {
      assert (p + [c] + tail)[1..] == p[1..] + [c] + tail;
      IndexOfAfterPrefix(p[1..], c, tail);
    }
  }

  /** A split has exactly two pieces exactly when `c` occurs exactly once,
      and the second piece is then what follows that occurrence. */
  lemma {:induction false} SplitInTwo(s: string, c: char)
    ensures |Split(s, c)| == 2 <==>
              (c in s && c !in s[IndexOf(s, c) + 1..])
    ensures |Split(s, c)| == 2 ==> Split(s, c)[1] == s[IndexOf(s, c) + 1..]
  {
    var k := IndexOf(s, c);
    if k < |s| {
      var rest := s[k + 1..];
      assert Split(s, c) == [s[..k]] + Split(rest, c);
      if c in rest {
        var k2 := IndexOf(rest, c);
        assert |Split(rest, c)| >= 2 by {
          assert Split(rest, c) == [rest[..k2]] + Split(rest[k2 + 1..], c);
        }
      } else {
        assert IndexOf(rest, c) == |rest|;
      }
    }
  }

  /** `replace(/\s+/g, '_')`: every maximal run of white space becomes one
      underscore. */
  function CollapseWhitespace(s: string): (r: string)
    decreases |s|
  {
    if |s| == 0 then ""
    else if IsWhitespace(s[0]) then "_" + CollapseWhitespace(TrimStart(s))
    else [s[0]] + CollapseWhitespace(s[1..])
  }

  /** The result of collapsing has no white space, is empty exactly when the
      input is, and is no longer than the input. */
  lemma {:induction false} CollapseWhitespaceShape(s: string)
    ensures NoWhitespace(CollapseWhitespace(s))
    ensures |CollapseWhitespace(s)| <= |s|
    ensures CollapseWhitespace(s) == "" <==> s == ""
    decreases |s|
  {
    if |s| > 0 {
      if IsWhitespace(s[0]) {
        CollapseWhitespaceShape(TrimStart(s));
      } else {
        CollapseWhitespaceShape(s[1..]);
      }
    }
  }

  /** `split(/\s+/).filter(c => c.trim())`: the maximal runs of non-white-space
      characters, in order. Every word is non-empty and free of white space;
      there are no words exactly when the string is all white space. */
  function Words(s: string): (ws: seq<string>)
    ensures AllWords(ws)
    ensures ws == [] <==> TrimStart(s) == ""
    decreases |s|
  {
    var t := TrimStart(s);
    if |t| == 0 then []
    else
      var k := WordEnd(t);
      var w := t[..k];
      assert w != "" && NoWhitespace(w);
      var rest := Words(t[k..]);
      var ws := [w] + rest;
      assert ws[1..] == rest;
      ws
  }

  /** Every element is a non-empty run of non-white-space characters. */
  predicate AllWords(ws: seq<string>) {
    |ws| == 0 || (ws[0] != "" && NoWhitespace(ws[0]) && AllWords(ws[1..]))
  }

  /** Length of the non-white-space run at the start of `s`. */
  function WordEnd(s: string): (k: nat)
    requires |s| > 0 && !IsWhitespace(s[0])
    ensures 0 < k <= |s|
    ensures k < |s| ==> IsWhitespace(s[k])
    ensures NoWhitespace(s[..k])
  {
    if |s| == 1 || IsWhitespace(s[1]) then 1
    else
      var k := 1 + WordEnd(s[1..]);
      assert s[..k] == [s[0]] + s[1..][..k - 1];
      k
  }

  /** The first element of `xs` whose trimmed form is non-empty. */
  function FirstNonBlank(xs: seq<string>): Option<string> {
    if |xs| == 0 then None
    else if Trim(xs[0]) != "" then Some(xs[0])
    else FirstNonBlank(xs[1..])
  }

  /** Decimal digits of a natural number, most significant first. */
  function NatToString(n: nat): (r: string)
    ensures |r| > 0
    ensures forall i :: 0 <= i < |r| ==> IsDigit(r[i])
    decreases n
  {
    var d := ['0' + (n % 10) as char];
    if n < 10 then d else NatToString(n / 10) + d
  }

  /** Reading the decimal digits back gives the number. */
  lemma {:induction false} NatToStringValue(n: nat)
    ensures DigitsValue(NatToString(n)) == n
    decreases n
  {
    var s := NatToString(n);
    if n >= 10 {
      NatToStringValue(n / 10);
      assert s[..|s| - 1] == NatToString(n / 10);
    }
  }

  /** Distinct numbers have distinct decimal strings. */
  lemma NatToStringInjective(i: nat, j: nat)
    requires NatToString(i) == NatToString(j)
    ensures i == j
  {
    NatToStringValue(i);
    NatToStringValue(j);
  }

  /** `String(n)` for an integer. */
  function IntToString(n: int): (r: string)
    ensures |r| > 0 && !IsWhitespace(r[0]) && !IsWhitespace(r[|r| - 1])
  {
    if n < 0 then "-" + NatToString(-n) else NatToString(n)
  }

  /** Parsing the decimal string of an integer gives the integer back. */
  lemma IntToStringParses(n: int)
    ensures ParseInteger(IntToString(n)) == Some(n)
  {
    if n < 0 {
      var body := NatToString(-n);
      assert IntToString(n)[1..] == body;
      NatToStringValue(-n);
    } else {
      NatToStringValue(n);
    }
  }

  /** A string with no white space at either end is its own trim. */
  lemma TrimUntouched(s: string)
    requires |s| > 0 && !IsWhitespace(s[0]) && !IsWhitespace(s[|s| - 1])
    ensures Trim(s) == s
  {
  }

  predicate IsDigit(c: char) {
    '0' <= c <= '9'
  }

  function DigitsValue(s: string): nat
    requires forall i :: 0 <= i < |s| ==> IsDigit(s[i])
  {
    if |s| == 0 then 0
    else
      assert IsDigit(s[|s| - 1]);
      10 * DigitsValue(s[..|s| - 1]) + (s[|s| - 1] as int - '0' as int)
  }

  /** The integer a string of an optional sign and decimal digits denotes. */
  function ParseInteger(s: string): Option<int> {
    if |s| > 0 && (s[0] == '-' || s[0] == '+') then
      var body := s[1..];
      if |body| > 0 && forall i :: 0 <= i < |body| ==> IsDigit(body[i]) then
        var v: int := DigitsValue(body);
        Some(if s[0] == '-' then -v else v)
      else None
    else if |s| > 0 && forall i :: 0 <= i < |s| ==> IsDigit(s[i]) then
      Some(DigitsValue(s))
    else None
  }
}

=== FILE: wrappers.dfy ===
/** Optional values, used for absent inputs and for the paths on which the
    modelled JavaScript throws. */
module Wrappers {
  datatype Option<+T> = None | Some(value: T)
}
